=== FILE: README.md ===
# Product-catalog administration: authorization core in Dafny

This project models the decision logic of a role-based product-catalog
administration application. The application has an Express API backed by
MongoDB and a React dashboard client. The model covers three parts.

- **The server's request-authorization pipeline.**
  - The Express middlewares, each a pure function: `checkAuth`, `checkRole`,
    `isAdmin`, `isSuperAdmin`, `isAdminOrSuperAdmin`, `checkPermission` and
    `verifyForgetToken`.
  - The ordered user and product route tables, with Express's matching rules:
    - paths are split on `/`;
    - a mount matches `^\/prefix\/?(?=\/|$)`, so one `/` right after the
      prefix is swallowed;
    - a route pattern ignores one trailing `/`;
    - literal segments compare case-insensitively;
    - a `GET` route also answers `HEAD`;
    - the first matching route wins;
    - no match gives a 404.
  - The two mounts: `/api` → `/user` or `/product`.
  - `jwt.verify` and `User.findById` are function-valued parameters.
  - `checkAuth` comes in two variants: as written, it attaches only `_id` to
    `req.user`; corrected, it attaches the whole account.
- **Account signup and login.**
  - These are the `signup` and `login` statics of the two compiled user models:
    - the first build has no gender; its login returns `{_id, token}`;
    - the second build requires a gender; its login returns the stored record
      without its hash, plus the token.
  - The user controller maps each handler's outcome to HTTP statuses: `login`,
    `signup`, `update` and `profile`.
  - The users collection is a sequence of documents in insertion order, so
    `findOne` returns the first match.
  - `validator`, `bcrypt` and `jsonwebtoken` are opaque functions, except
    for the three ways they throw that decide outcomes here: `validator`
    refuses a value that is not a string, `bcrypt.compare` refuses a
    password that is not a string, and `jsonwebtoken` refuses a payload
    that is not a plain object.
  - Request-body values are JSON values (string, number, null or absent),
    for signup and for login alike, so a non-string field is refused with
    the library's type error.
- **The client's pure logic.**
  - The `authReducer`.
  - The product-permission checkbox cascade:
    - four boxes whose effects set one another and edit a de-duplicated list of
      permission strings;
    - effect updates are applied in rounds, one round per render;
    - on the user-permissions page, Edit and Add are coupled; on the admin and
      user update pages they are independent.
  - The zod schemas of the signup, update, login, forgot-password and reset
    forms.
  - The `blockInvalidChar` key filter.
  - What each page sends.
  - How each page attributes an error reply to a form field: status 406, except
    the update form, which checks 422.

The end-to-end lemmas follow a page's request through the API:

- No page sets an Authorization header. `axios` is configured only with a base
  URL, so `checkAuth` verifies the literal token `"undefined"`.
- The permissions page saves to `/api/user/update-permissions/:id`, which no
  route matches.
- Two dashboard pages show themselves only to the role `"superadmin"`. Every
  role gate of the server refuses that role; the gates expect `"Admin"` and
  `"Super Admin"`.

The code is followed wherever the documentation disagrees with it.

- `profile` returns the whole stored document, including the password hash.
- Roles are the strings `"Admin"`, `"Super Admin"`, `"user"` (the compiled
  models' default) and `"Customer"`. The documentation describes a
  customer/admin/superadmin hierarchy instead.
- The phone schemas have no integer rule, so the phone number is a real, and
  fractional values in range are accepted.

## Model

| member | source | states |
|---|---|---|
| Middleware.CheckAuth | server/src/middlewares/auth.ts:5-26 | next iff the bearer token verifies with `String(JWT_SECRET)` and the decoded payload finds an account; otherwise 401 "Please authenticate"; next changes only `req.user`; as written the attached user has an id but no role and no permissions |
| Middleware.RequireRole | server/src/middlewares/auth.ts:28-41 | `checkRole(r)` (and `isAdmin`, `isSuperAdmin`) passes iff `req.user.role` is exactly `r`; a missing `req.user` gives 401 "Please authenticate", another role 401 "Unauthorized"; the request passes on unchanged |
| Middleware.IsAdminOrSuperAdmin | server/src/middlewares/roles.ts:37-52 | passes iff the role is "Admin" or "Super Admin"; the missing user and the other roles get the two 401 answers; the request is not modified |
| Middleware.CheckPermission | server/src/middlewares/permissions.ts:3-15 | passes iff the permission is among `req.user.permissions`; a missing user or permission list is 500 "Server Error", a missing string 401 "You dont have permission" |
| Middleware.VerifyForgetToken | server/src/middlewares/forget.ts:4-22 | next iff the `token` header verifies, with `req.email` set to the token's email and nothing else changed; every failure is 500 "Server Error" |
| Middleware.RunChain | server/src/routes/user.routes.ts:273 | the handler runs iff every gate, applied in order to the request the previous gate passed on, answers next, and it then runs on the request the last gate passed on; otherwise the answer is that of the first gate to refuse; never a 404 |
| MiddlewareFacts.BearerTokenExtraction | server/src/middlewares/auth.ts:11-12 | no header gives the token "undefined"; a header without "Bearer " is used as is; "Bearer t" gives t |
| MiddlewareFacts.BearerOnlyFirstOccurrence | server/src/middlewares/auth.ts:11 | only the first "Bearer " is removed, so a doubled prefix leaves one behind |
| MiddlewareFacts.EitherGateIsDisjunction | server/src/middlewares/roles.ts:3-52 | `isAdminOrSuperAdmin` passes iff `isAdmin` or `isSuperAdmin` passes, and refuses with the same answer as `isAdmin` |
| MiddlewareFacts.OtherRoleSpellingsRefused | server/src/middlewares/roles.ts:10-44 | a missing role and the spellings "admin", "superadmin", "user", "Customer" and "Super admin" are refused 401 "Unauthorized" by all three role gates |
| MiddlewareFacts.CheckPermissionMonotone | server/src/middlewares/permissions.ts:7-10 | granting more permission strings never turns a pass into a refusal |
| MiddlewareFacts.CheckPermissionIgnoresRole | server/src/middlewares/permissions.ts:7-10 | a "Super Admin" whose list lacks the permission is refused 401 |
| MiddlewareFacts.ResetGateReadsOnlyTokenHeader | server/src/middlewares/forget.ts:9-16 | two requests with the same `token` header get the same outcome and the same email from the reset gate, whatever else they carry |
| MiddlewareFacts.ResetGateMissingHeader | server/src/middlewares/forget.ts:10-13 | without a `token` header the gate passes iff the text "undefined" verifies |
| MiddlewareFacts.AuthThenRoleGateRefuses | server/src/middlewares/auth.ts:17-21 | with `checkAuth` as written, `checkAuth` followed by any role gate always answers 401 |
| Router.FirstMatch | server/src/routes/user.routes.ts:55-475 | the index returned is of a matching route with no earlier match; None means no route matches |
| Router.Dispatch | server/src/routes/user.routes.ts:25-475 | a router answers 404 iff no route matches; otherwise the answer is the chain of the first matching route, run on the request |
| Router.SplitJoin | server/src/routes/routes.ts:9-13 | splitting the `/`-join of pieces that contain no `/` gives back the pieces: the path splitting used to match mounts and routes loses nothing |
| Router.MountIsStrip | server/src/index.ts:14 | the mount on pieces agrees with Express's mount pattern on the path text (the prefix, case-insensitively, then an optional `/`, then a `/` or the end): both match the same paths, and what the text mount leaves has the pieces the piece mount leaves |
| RouteFacts.UserRouteShapes | server/src/routes/user.routes.ts:55-475 | every user route is open (no gate, `checkAuth` alone, or the reset gate) with an open handler, or `checkAuth` followed by a role gate |
| RouteFacts.ProductRouteShapes | server/src/routes/product.routes.ts:16-26 | the product routes without gates are the two read handlers; every other route is `checkAuth` then a role gate |
| RouteFacts.UserGatedHandlersUnreachable | server/src/routes/user.routes.ts:125-475 | with `checkAuth` as written, only the open handlers of the user table can run; every role-gated route answers 401 |
| RouteFacts.ProductMutationsUnreachable | server/src/routes/product.routes.ts:21-26 | with `checkAuth` as written, only the read handlers run, and no POST, PUT, DELETE or PATCH reaches a handler |
| RouteFacts.NoCapabilityGates | server/src/routes/product.routes.ts:1-26 | no route of either table uses `checkPermission` |
| RouteFacts.LoginIsOpen | server/src/routes/user.routes.ts:55 | POST /login reaches `login` through no middleware |
| RouteFacts.SignupIsOpen | server/src/routes/user.routes.ts:89 | POST /signup reaches `signup` through no middleware |
| RouteFacts.ForgotPassIsOpen | server/src/routes/user.routes.ts:220 | POST /forgot-pass reaches `forgotPass` through no middleware |
| RouteFacts.ResetGuardedByResetTokenOnly | server/src/routes/user.routes.ts:253 | POST /reset is guarded by the reset-token gate alone |
| RouteFacts.ProfileNeedsOnlyAuth | server/src/routes/user.routes.ts:143 | GET / needs `checkAuth` alone |
| RouteFacts.UpdateSelfNeedsOnlyAuth | server/src/routes/user.routes.ts:175 | PUT / needs `checkAuth` alone |
| RouteFacts.DeleteSelfNeedsOnlyAuth | server/src/routes/user.routes.ts:193 | DELETE / needs `checkAuth` alone |
| RouteFacts.SignupAdminGuard | server/src/routes/user.routes.ts:125 | POST /signup-admin is `checkAuth` then `isSuperAdmin` |
| RouteFacts.ListAllWinsOverShowOne | server/src/routes/user.routes.ts:273 | GET /all is answered by its own route, registered before GET /:_id |
| RouteFacts.HeadAllUsesGetRoute | server/src/routes/user.routes.ts:273 | HEAD /ALL is served by the GET /all route: literals are case-insensitive and GET routes answer HEAD |
| RouteFacts.AllAdminsGuard | server/src/routes/user.routes.ts:294 | GET /all-admins is `checkAuth` then `isSuperAdmin` |
| RouteFacts.AllCustomersGuard | server/src/routes/user.routes.ts:315-320 | GET /all-customers is `checkAuth` then `isAdminOrSuperAdmin` |
| RouteFacts.CountUsersGuard | server/src/routes/user.routes.ts:341 | GET /count-users is `checkAuth` then `isAdminOrSuperAdmin` |
| RouteFacts.CountAdminsGuard | server/src/routes/user.routes.ts:362 | GET /count-admins is `checkAuth` then `isSuperAdmin` |
| RouteFacts.ToAdminWinsOverUpdateOther | server/src/routes/user.routes.ts:383 | PUT /to-admin is answered by its own route, registered before PUT /:id |
| RouteFacts.UpdateAdminGuard | server/src/routes/user.routes.ts:384 | PUT /update-admin/:id is `checkAuth` then `isSuperAdmin` |
| RouteFacts.ShowOneCatchesOtherGets | server/src/routes/user.routes.ts:407 | any other single GET piece reaches GET /:_id, `checkAuth` then `isSuperAdmin` |
| RouteFacts.UpdateOtherUserGuard | server/src/routes/user.routes.ts:448 | any other single PUT piece reaches PUT /:id, `checkAuth` then `isAdminOrSuperAdmin` |
| RouteFacts.DeleteOtherUserGuard | server/src/routes/user.routes.ts:475 | DELETE /:id is `checkAuth` then `isAdminOrSuperAdmin` |
| RouteFacts.NoUpdatePermissionsRoute | server/src/routes/user.routes.ts:383-384 | PUT /update-permissions/:id matches no user route |
| RouteFacts.ProductReadsArePublic | server/src/routes/product.routes.ts:16-17 | GET / and GET /:_id of the product table have no middleware |
| RouteFacts.ProductWritesGuards | server/src/routes/product.routes.ts:21-26 | POST / and PUT /:_id are `checkAuth` then `isAdminOrSuperAdmin`; DELETE /:_id is `checkAuth` then `isSuperAdmin` |
| Accounts.FindByEmail | server/dist/src/models/user.model.js:100 | `findOne({email})` finds the first document with that email, or reports that none has it |
| Accounts.FindById | server/src/controllers/user.controller.ts:35 | `findById` finds the first document with that id, or reports that none has it |
| Accounts.Sign | server/dist/src/models/user.model.js:109 | signing succeeds iff the payload is the object `{_id}`; a bare id throws 'Expected "payload" to be a plain object.' |
| Accounts.Signup | server/dist/src/models/user.model.js:59-91 | a failed signup leaves the store alone; a successful one needs every field to be a string, returns "Signed up successfully", appends exactly the new account (hash, default role) and happens only for an email not yet stored; a non-string email gets validator's type error |
| Accounts.CheckCredentials | server/dist/models/user.model.js:75-89 | on the raw body values: a falsy email, then a falsy password (the number 0 included), then an email `findOne` does not find, then a password bcrypt cannot compare because it is not a string, then a wrong password, each refused with its message in that order; it passes exactly a stored email whose string password bcrypt accepts |
| Accounts.Compare | server/dist/models/user.model.js:86 | `bcrypt.compare` answers iff the password is a string, and otherwise rejects with bcrypt's type error |
| Accounts.LoginIdOnly | server/dist/models/user.model.js:73-95 | succeeds exactly when the credential checks pass, with the stored id and a token signing `{_id}` for "1d" under the configured or fallback secret; otherwise the checks' message |
| Accounts.LoginProfile | server/dist/src/models/user.model.js:92-112 | the same credential refusals; credentials that pass always end in jsonwebtoken's plain-object error, so this login never succeeds |
| Accounts.LoginProfileCorrected | server/dist/src/models/user.model.js:92-112 | signing `{_id}` instead: the same credential refusals; success iff the credentials pass, returning every modelled field of the account but the hash, plus a token signing `{_id}` for `EXPIRES_IN` or "1d" |
| AccountFacts.SignupIsFirstFailingCheck | server/dist/src/models/user.model.js:61-79 | signup fails with exactly the message of the first failing check, in the order email syntax, free email, strong password, mobile phone, alphabetic name (then gender in the second build), a non-string field failing its check with validator's type error, and succeeds when none fails |
| AccountFacts.DuplicateEmailRejected | server/dist/models/user.model.js:49-52 | a syntactically valid email already stored is refused "Email already exists." and the store is unchanged |
| AccountFacts.NumericPhoneRefused | server/dist/src/models/user.model.js:71 | a phone sent as a number, after a valid new email and a strong password, is refused "Expected a string but received a number" and the store is unchanged |
| AccountFacts.SignupKeepsEmailsUnique | server/dist/src/models/user.model.js:64-88 | signup preserves the invariant that no two documents share an email |
| AccountFacts.SignedUpIsFound | server/dist/src/models/user.model.js:64-88 | after a successful signup `findOne` finds the new account, appended at the end, for its email |
| AccountFacts.SignupThenLogin | server/dist/src/models/user.model.js:80-110 | after a successful signup, logging in with the same credentials succeeds with the new id in the first build, and in the second build signing `{_id}` returns the new profile with the default role "user" |
| AccountFacts.SignupThenLoginAsWritten | server/dist/src/models/user.model.js:100-109 | as written, the second build's login of a freshly signed-up account with its own password throws jsonwebtoken's plain-object error |
| AccountFacts.WrongPasswordRefused | server/dist/models/user.model.js:86-89 | a password bcrypt rejects for the stored hash gives "Incorrect password." in every login, as written or corrected |
| AccountFacts.NumericPasswordRefused | server/dist/models/user.model.js:78-86 | a password posted as a number is refused in every login: 0 as an empty password, any other number for a stored email with bcrypt's type error |
| UserController.Login | server/src/controllers/user.controller.ts:4-12 | on the body's `email` and `password` as they arrive, 200 iff the build is the first and its login succeeds, with `{_id, token}` as the body; otherwise 406 with the model's message and no `field`; in the second build every login is a 406 |
| UserController.Signup | server/src/controllers/user.controller.ts:13-21 | 200 with `{message}` iff the model's signup succeeds; otherwise 406 with the thrown message; the store is the model's store either way |
| UserController.Update | server/src/controllers/user.controller.ts:22-30 | no `req.user` gives 406 with the V8 message; a missing or unknown id gives 200 with null and no change; only the caller's document can change; the schema's fields of the body are applied unfiltered; the answer is the document as it was before the update; a patch duplicating another document's email is refused 406 and leaves the store unchanged |
| UserController.Profile | server/src/controllers/user.controller.ts:32-40 | the caller's stored document, every field included, with 200; a missing or unknown id gives 200 with null; no `req.user` gives 406 |
| ControllerFacts.StatusesAre200Or406 | server/src/controllers/user.controller.ts:4-40 | every answer of the four handlers is 200 or 406, and no 406 body names a field |
| ControllerFacts.UpdateThenProfile | server/src/controllers/user.controller.ts:22-40 | after an update the database accepts, `profile` shows the caller's document with the patch applied |
| ControllerFacts.UpdateKeepsEmailsUnique | server/dist/src/models/user.model.js:35-41 | update preserves unique emails: the unique index refuses exactly the patches that would duplicate an email |
| ControllerFacts.UpdateCanSetOwnRole | server/src/controllers/user.controller.ts:25 | a signed-in caller can give their own document any role through `update`; no route registers `update`, so this holds of the handler alone |
| ControllerFacts.GenderBuildLoginRefused | server/dist/src/models/user.model.js:104-110 | in the second build a stored email with its correct password gets 406 with jsonwebtoken's plain-object error |
| ControllerFacts.NumericPasswordAnswered | server/src/controllers/user.controller.ts:7-10 | a numeric password for a stored email is answered 406 in either build: 0 with "Password field cannot be empty", any other number with bcrypt's type error |
| AuthContext.Reduce | client/src/context/auth.tsx:14-29 | LOGIN sets the user to the payload; LOGOUT clears it; any other action leaves the state unchanged; the other state fields are never touched |
| AuthFacts.LogoutIdempotent | client/src/context/auth.tsx:21-25 | LOGOUT twice is LOGOUT once |
| AuthFacts.LoginOverridesLogin | client/src/context/auth.tsx:16-20 | LOGIN b after LOGIN a equals LOGIN b |
| AuthFacts.LoginLogoutRoundTrip | client/src/context/auth.tsx:10-25 | LOGIN then LOGOUT from the initial state returns to the initial state |
| AuthFacts.RunKeepsOthers | client/src/context/auth.tsx:14-29 | any sequence of actions changes only the user |
| AuthFacts.RunSnoc | client/src/context/auth.tsx:14-29 | running one more action is reducing the state the run reached |
| AuthFacts.RunIsLastSession | client/src/context/auth.tsx:14-29 | after any sequence of actions the user is the one set by the last LOGIN or LOGOUT, or the initial one when there is none |
| Cascade.Dedup | client/src/pages/dashboard/UserPermissions.tsx:51-53 | `Array.from(new Set(xs))` has no repetition and the same members as `xs` |
| Cascade.Without | client/src/pages/dashboard/UserPermissions.tsx:58-60 | the filter removes exactly the given string and keeps the list free of repetition |
| Cascade.UpdateList | client/src/pages/dashboard/UserPermissions.tsx:49-63 | after an effect's list update, the box's own string is present iff the box is checked, and every other string's membership is unchanged |
| Cascade.ListStep | client/src/pages/dashboard/AdminUpdate.tsx:110-124 | an effect that runs puts its string in the list iff its box is checked; one that does not run changes nothing |
| Cascade.RoundList | client/src/pages/dashboard/UserPermissions.tsx:48-118 | after one render's effects, each changed box's string is present iff the box is checked; strings of unchanged boxes keep their membership; no repetition appears |
| CascadeFacts.CoupledRules | client/src/pages/dashboard/UserPermissions.tsx:48-118 | each rule of the permissions page: unchecking View clears Edit, Add and Delete; Edit and Add set each other and View, and clear each other and Delete; Delete sets the other three |
| CascadeFacts.IndependentRules | client/src/pages/dashboard/AdminUpdate.tsx:109-175 | each rule of the update pages: unchecking View clears the rest; Edit or Add set View and, when cleared, clear Delete; Delete sets the other three |
| CascadeFacts.FixpointIffInvariant | client/src/pages/dashboard/UserPermissions.tsx:48-118 | no rule changes a box exactly when the page's relation holds: coupled (Edit iff Add, Delete ⇒ Edit, Edit ⇒ View) or independent (Edit ⇒ View, Add ⇒ View, Delete ⇒ Edit and Add) |
| CascadeFacts.SettleAgrees | client/src/pages/dashboard/UserPermissions.tsx:48-118 | the list bookkeeping does not affect when the boxes settle or what they settle to |
| CascadeFacts.SettleListMatches | client/src/pages/dashboard/UserPermissions.tsx:48-118 | once the boxes settle, the list holds exactly the strings of the checked boxes, each once |
| CascadeFacts.ClickSettlesCoupled | client/src/pages/dashboard/UserPermissions.tsx:48-118 | on the permissions page, two renders after a click no effect changes a box any more |
| CascadeFacts.ClickSettlesIndependent | client/src/pages/dashboard/AdminUpdate.tsx:109-175 | on an update page, two renders after a click no effect changes a box any more |
| CascadeFacts.RoundOfUnchanged | client/src/pages/dashboard/UserUpdate.tsx:106-172 | a render with no changed box runs no effect |
| CascadeFacts.SettlesAfterTwo | client/src/pages/dashboard/UserUpdate.tsx:106-172 | renders that stop changing after two rounds settle within any render budget of three or more |
| CascadeFacts.ClickBoxes | client/src/pages/dashboard/UserUpdate.tsx:106-172 | a click on a page whose relation holds settles, keeps the relation, and leaves the clicked box flipped |
| CascadeFacts.ClickKeepsConsistent | client/src/pages/dashboard/UserPermissions.tsx:48-118 | a click on a consistent page settles into a consistent page (relation and list both), with the clicked box flipped |
| CascadeFacts.LoadSettlesCoupled | client/src/pages/dashboard/UserPermissions.tsx:29-38 | after the four loaded boxes are set together on the permissions page, two renders reach the closure of the loaded set and stay there |
| CascadeFacts.LoadSettlesIndependent | client/src/pages/dashboard/AdminUpdate.tsx:91-100 | after loading on an update page, two renders reach the closure of the loaded set and stay there |
| CascadeFacts.LoadIsClosure | client/src/pages/dashboard/UserUpdate.tsx:87-98 | loading any stored list settles, gives the loaded boxes plus every box they depend on, and leaves the page consistent |
| CascadeFacts.EditCouplesAddOnlyOnPermissionsPage | client/src/pages/dashboard/UserPermissions.tsx:66-83 | checking Edit with only View checked also checks Add on the permissions page, and does not on an update page |
| Schemas.FieldError | client/src/pages/forgot/Reset.tsx:122-123 | the helper text under a field: nothing iff no issue's dotted path is exactly the field, and otherwise the message of the first issue whose path is |
| SchemaFacts.ScanNameIff | client/src/components/form/SignupForm.tsx:9 | the scanner accepts a suffix iff every character of it is a letter or a space |
| SchemaFacts.MatchesNameIff | client/src/components/form/SignupForm.tsx:9 | `/^[A-Za-z ]+$/` holds iff the name is non-empty and made of letters and spaces |
| SchemaFacts.NameEdgeCases | client/src/components/form/SignupForm.tsx:27-30 | the empty name fails, a name of spaces passes, "R2D2" fails and "Ada Lovelace" passes |
| SchemaFacts.PhoneValidIff | client/src/components/form/UpdateForm.tsx:31-35 | the phone rules accept exactly the numbers from 1000000000 to 9999999999 |
| SchemaFacts.NegativeAlsoTooShort | client/src/components/form/SignupForm.tsx:31-35 | a negative phone fails both the non-negative rule and the ten-digit rule, so the first decides nothing |
| SchemaFacts.SignupValidIff | client/src/components/form/SignupForm.tsx:18-36 | the signup form submits iff email is valid and at most 50, password 8 to 32, name at most 25 and matching the regex, and phone in range |
| SchemaFacts.ProfileValidIff | client/src/pages/dashboard/AdminUpdate.tsx:41-56 | the profile forms submit iff email is valid and at most 50, name 1 to 25 and matching the regex, and phone in range |
| SchemaFacts.LoginValidIff | client/src/pages/login/Login.tsx:25-34 | the login page submits iff the email is valid and at most 50 and the password 8 to 100 |
| SchemaFacts.ForgotValidIff | client/src/pages/forgot/Forgot.tsx:17-23 | the forgot page submits iff the email is non-empty, valid and at most 50; the empty email shows "Please enter an email" |
| SchemaFacts.ResetValidIff | client/src/pages/forgot/Reset.tsx:25-41 | the reset page submits iff both passwords are equal and 8 to 32 long |
| SchemaFacts.MismatchFiledUnderNestedPath | client/src/pages/forgot/Reset.tsx:38-41 | two well-sized different passwords produce the single issue under `confirmPassword.password`: the confirm field is drawn red, the password field is not, and no helper text shows under the confirm field |
| KeyFilterFacts.BlocksIff | client/src/utils/phone.ts:3-4 | the key is blocked iff it is "e", "E", "+" or "-" |
| KeyFilterFacts.NamedKeysPass | client/src/utils/phone.ts:4 | a key whose name is not one character long is never blocked |
| KeyFilterFacts.DigitsAndPointPass | client/src/utils/phone.ts:4 | digits and the decimal point are never blocked |
| Pages.Submit | client/src/pages/login/Login.tsx:44-51 | a request is sent iff the schema reports no issue, and it is the page's request |
| Pages.ResetSubmit | client/src/pages/forgot/Reset.tsx:59-86 | the reset page redirects iff the `token` query parameter is absent or empty |
| Pages.Attribute | client/src/components/form/SignupForm.tsx:58-64 | an error reply sets a field error iff its status is the one the page checks, with the reply's `field` and `error` |
| Pages.LoginOutcome | client/src/pages/login/Login.tsx:49-68 | a success dispatches LOGIN with the body and sets no field error; a failure leaves the session alone and is attributed only when it is a 406 |
| Pages.SavesSendCheckedPermissions | client/src/pages/dashboard/UserUpdate.tsx:72-74 | on a consistent page the admin, user and permissions saves send exactly the checked boxes' strings once each; the customer save sends the values alone; no save carries an Authorization header |
| EndToEnd.ServedByUserTable | server/src/routes/routes.ts:9 | a request whose path is `/api/user` followed by pieces, the first and the last non-empty, is dispatched on the user table with exactly those pieces |
| EndToEnd.PutRoutesAuthenticateFirst | server/src/routes/user.routes.ts:175-448 | every PUT route of the user table runs `checkAuth` first |
| EndToEnd.UnverifiedTokenRefused | server/src/middlewares/auth.ts:10-25 | a chain that starts with `checkAuth` answers 401 "Please authenticate" to a token that does not verify |
| EndToEnd.LoginRoute | server/src/routes/user.routes.ts:55 | POST /api/user/login runs `login` on the request as sent |
| EndToEnd.ForgotRoute | server/src/routes/user.routes.ts:220 | POST /api/user/forgot-pass runs `forgotPass` on the request as sent |
| EndToEnd.ResetChain | server/src/middlewares/forget.ts:9-21 | the reset chain runs `resetPass` with the token's email on the request when the `token` header verifies, and otherwise answers 500 |
| EndToEnd.ResetRoute | server/src/routes/user.routes.ts:253 | POST /api/user/reset is answered by the reset chain |
| EndToEnd.UpdateAdminRouteRefuses | server/src/routes/user.routes.ts:384 | PUT /api/user/update-admin/:id answers 401 to a token that does not verify |
| EndToEnd.UpdateUserRouteRefuses | server/src/routes/user.routes.ts:448 | PUT /api/user/:id answers 401 to a token that does not verify, whichever route it meets |
| EndToEnd.PutOnePieceRefused | server/src/routes/user.routes.ts:383-448 | any PUT with one non-empty piece meets a route that answers 401 to a token that does not verify |
| EndToEnd.LoginReachesHandler | client/src/pages/login/Login.tsx:49-51 | a valid login form reaches `login` with no middleware in between |
| EndToEnd.ForgotReachesHandler | client/src/pages/forgot/Forgot.tsx:38-40 | a valid forgot form reaches `forgotPass` with no middleware in between |
| EndToEnd.ResetReachesHandlerIff | client/src/pages/forgot/Reset.tsx:59-62 | a valid reset form with a token reaches `resetPass` iff the token verifies, with the token's email on the request; otherwise the answer is 500 |
| EndToEnd.SignupFormNeverSignsUp | client/src/components/form/SignupForm.tsx:54-56 | the body the signup form posts carries the phone as a number (or null), so for every form value the signup handler answers 406 and the store is unchanged; once the email and password checks pass, the message is validator's type error |
| EndToEnd.AdminSaveRefusedWithoutToken | client/src/pages/dashboard/AdminUpdate.tsx:69-72 | the admin page's save sends no Authorization header, so when "undefined" does not verify it is refused 401 |
| EndToEnd.UserSaveRefusedWithoutToken | client/src/pages/dashboard/UserUpdate.tsx:72-74 | the user page's save is refused 401 likewise |
| EndToEnd.CustomerSaveRefusedWithoutToken | client/src/pages/dashboard/CustomerUpdate.tsx:54-55 | the customer page's save is refused 401 likewise |
| EndToEnd.UpdatePermissionsRouteNotFound | server/src/routes/user.routes.ts:384 | PUT /api/user/update-permissions/:id is a 404 whatever the token |
| EndToEnd.DoubledSlashLogin | server/src/index.ts:14 | POST /api//user/login reaches `login` with no middleware: the `/api` mount swallows the extra `/` |
| EndToEnd.DoubledTrailingSlashIsProfile | server/src/routes/routes.ts:9 | GET /api/user// is answered by the GET / chain, `checkAuth` then `profile`: the `/user` mount swallows one `/` and the route ignores the other |
| EndToEnd.PermissionsSaveNotFound | client/src/pages/dashboard/UserPermissions.tsx:121-128 | the permissions page's save always gets a 404 |
| EndToEnd.ChainRefusalStatuses | server/src/middlewares/auth.ts:22-25 | every refusal by a chain of gates is a 401 or a 500 |
| EndToEnd.ServeRefusalStatuses | server/src/middlewares/forget.ts:17-21 | for a request whose body parses as JSON within the 10 MB limit, every refusal the router sends before a handler runs is a 401 or a 500 |
| EndToEnd.GateRefusalsNeverAttributed | client/src/components/form/UpdateForm.tsx:58-63 | no page and not the update form attributes a middleware refusal to a field |
| EndToEnd.ControllerErrorsHaveNoField | server/src/controllers/user.controller.ts:27-29 | controller errors carry no `field`, so the pages that attribute them call `setError` with no field, and the update form never attributes them |
| EndToEnd.LoginPageSession | server/src/controllers/user.controller.ts:4-12 | a successful login stores the handler's body as the signed-in user; a failed one leaves the session alone and marks no field |
| EndToEnd.LowercasePagesAndGatesDisjoint | client/src/pages/dashboard/UserPermissions.tsx:130 | the role "superadmin" that these pages require is refused by `isSuperAdmin` and `isAdminOrSuperAdmin`, so no role both sees these pages and passes either gate |
| EndToEnd.SuperAdminPagesMatchGate | client/src/pages/dashboard/AdminUpdate.tsx:192 | the admin and customer pages, for a fetched user, are shown exactly to the roles `isSuperAdmin` passes |
| Findings.ShowAllRoute | server/src/routes/user.routes.ts:273 | GET /api/user/all runs `checkAuth`, then `isSuperAdmin`, then `showAll` |
| Findings.AsWrittenShowAllRefused | server/src/middlewares/auth.ts:18-20 | as written, GET /api/user/all answers 401 to every caller, a verified super admin included |
| Findings.CorrectedSuperAdminChain | server/src/middlewares/roles.ts:20-35 | with the account attached, `checkAuth` then `isSuperAdmin` passes exactly a verified, stored "Super Admin"; other roles get 401 "Unauthorized" |
| Findings.CorrectedShowAllIff | server/src/routes/user.routes.ts:273 | corrected, GET /api/user/all reaches `showAll` iff the token verifies to a stored "Super Admin" |
| Findings.CorrectedResetAcceptsSame | client/src/pages/forgot/Reset.tsx:25-41 | filing the mismatch under `confirmPassword` accepts exactly the same values and reports as many issues |
| Findings.CorrectedMismatchShown | client/src/pages/forgot/Reset.tsx:122-123 | corrected, two different well-sized passwords show "Passwords must match" under the confirm field, where the code as written draws the field red with no message |
| Findings.SecretsAgreeOnlyWhenSet | server/dist/src/models/user.model.js:109 | with `JWT_SECRET` unset the models sign with "uirbvvubvuebuebu" while the middlewares verify with "undefined"; with it set the two secrets agree |

## Left out

- Cryptography is opaque. `jwt.sign`, `jwt.verify`, `bcrypt.genSalt`, `bcrypt.hash` and `bcrypt.compare` are parameters, and so are the `validator` checks and zod's `.email()`. Token expiry and clocks are not modelled.
- The handlers other than the controller's four are handler names only, because their code is not part of this model: `forgotPass`, `resetPass`, `showAll`, `toAdmin`, `updateSelf`, `deleteSelf`, `updateOtherAdmin`, the product controller and the rest.
- The database is a sequence of documents. Mongoose's setters (lowercase and trim on email), schema validators, pagination and the `findOne`-then-`create` race are left out.
- Signup does not model the unique index. Its `findOne` check is the only guard, and `AccountFacts.SignupKeepsEmailsUnique` proves that this guard suffices.
- UserController.Update: the text of MongoDB's duplicate-key error is a parameter, not the driver's message.
- The mail sender, environment loading, the database connection, logging (`console.log`) and process start-up are left out.
- React rendering is left out: JSX, navigation, toasts, spinners, animations, and the display-only role checks of the other dashboard pages.
- The checkbox effects run in rounds: each round applies all the setters queued by the effects of one render. The number of renders is bounded by a fuel of 4, which is more than any click or load needs. Finer React scheduling, such as updater functions replayed under Strict Mode, is not modelled.
- String lengths are counted in characters; JavaScript's UTF-16 code units are not modelled.
- The phone input arrives through `valueAsNumber`. It is a real number, or NaN for empty or unparsable input; parsing itself is not modelled.
- UpdateForm's default values: the props passed in are not modelled, because the form's defaults only pre-fill the inputs and decide nothing.
- `setError` with an undefined field name is modelled only as an attribution with no field. What react-hook-form then displays is not modelled.
- EndToEnd.AdminSaveRefusedWithoutToken, EndToEnd.UserSaveRefusedWithoutToken, EndToEnd.CustomerSaveRefusedWithoutToken and EndToEnd.PermissionsSaveNotFound assume the page's id parameter is non-empty and contains no `/`. A MongoDB id always meets that.
- Router.Dispatch: Express's `%`-decoding of path pieces and regular-expression route patterns are not modelled. The route tables use only literal and `:param` segments. Query strings are not split off the path, because no page puts one on an API call.
- EndToEnd.ServedByUserTable requires the pieces after `/api/user` to start and end non-empty. The doubled-slash paths are covered separately by EndToEnd.DoubledSlashLogin and EndToEnd.DoubledTrailingSlashIsProfile.
- UserController.Update is not registered by any route: the user router imports and registers `updateSelf` for `PUT /`, whose code is not part of this model. `update` is modelled as a handler only.
- UserController.Update: Mongoose's casting of body values to the schema's types and its update validators are not modelled. A patch holds only the schema's fields (`fullName`, `email`, `phone`, `hashedPassword`, `role`, `permissions`, `forgot`), because strict mode drops every other key of the body, `gender` included. A body `_id` is a schema path, not dropped; one that differs from the document's would make MongoDB refuse the update of an immutable field, which is not modelled.
- Accounts.Account holds no timestamps: `createdAt`, `updatedAt` and `__v`, which Mongoose adds to every document, are not modelled, so the second build's login answer lacks them too.
- Accounts.Compare: the text of bcrypt's type error depends on the bcrypt version, so it is the parameter `compareTypeError`. Email lookups ignore the schema's lowercase and trim setters, as for signup.
- Request-body values that are booleans, arrays or objects are not modelled. The signup checks would refuse them with the same kind of type error.
- Accounts.NewAccount: Mongoose's casting of the phone text to the stored type is not modelled.
- The restore of the signed-in user from `localStorage` on start-up is left out. It reads browser storage, and `JSON.parse` of a corrupt value throws. The reducer it dispatches into is modelled.
- Routing covers only the `/api` mount with the `/user` and `/product` routers. CORS is left out. The model starts from a request whose body `express.json({ limit: "10mb" })` (server/src/index.ts:12) has already parsed.
- EndToEnd.ServeRefusalStatuses: body-parser's answers before routing are not modelled. A malformed JSON body gets a 400 and one over 10 MB a 413 before any route runs, so the 401-or-500 statement holds only for bodies that parse within the limit.

## Findings

| source | as written | input that shows it | evidently intended | confidence | as-written member | corrected member |
|---|---|---|---|---|---|---|
| server/src/middlewares/auth.ts:18-20 | `checkAuth` sets `req.user = {_id}` only, so every role gate after it reads an undefined role | GET /api/user/all with a valid token of a stored account whose role is "Super Admin": the answer is 401 "Unauthorized" | the role gates see the account's role, so a super admin reaches `showAll` | high (not executed) | Findings.AsWrittenShowAllRefused | Findings.CorrectedShowAllIff |
| client/src/pages/forgot/Reset.tsx:38-41 | the password-match refinement is filed under the path `["confirmPassword", "password"]`, i.e. `confirmPassword.password`, which no input displays | password "abcdefgh", confirmPassword "abcdefgi": the form refuses to submit and draws the confirm field red with no message under it | "Passwords must match" is shown under the confirm field | high (not executed) | SchemaFacts.MismatchFiledUnderNestedPath | Findings.CorrectedMismatchShown |
| server/dist/src/models/user.model.js:109 | the second build's login signs the bare `_id` with an `expiresIn` option, which jsonwebtoken refuses because the payload is not a plain object | any stored account and its correct password: the answer is 406 'Expected "payload" to be a plain object.' | the payload is `{_id}`, as in the first build, and the login returns the profile and a token | high (not executed) | AccountFacts.SignupThenLoginAsWritten | Accounts.LoginProfileCorrected |

=== FILE: accounts.dfy ===
/**
 * The account statics of the two compiled user models: `signup` and `login`.
 * The first build (no gender) returns `{_id, token}` from login; the second
 * build also requires a gender and returns the whole record minus its hash.
 * The store is the users collection in document order; `findOne` returns the
 * first match. validator, bcrypt and jsonwebtoken are opaque collaborators.
 */
module Accounts {
  import opened Base

  /**
   * A stored user document. `gender` is absent in the first build;
   * `permissions` and `forgot` are paths of the schema the controller updates
   * through, absent until an update sets them.
   */
  datatype Account = Account(
    id: string,
    fullName: string,
    email: string,
    phone: string,
    hashedPassword: string,
    gender: Option<string>,
    role: string,
    permissions: Option<seq<string>>,
    forgot: Option<bool>)

  type Store = seq<Account>

  datatype Build = NoGender | WithGender

  /** A value of the parsed JSON request body: a string, a number, `null`, or a key that is absent. */
  datatype Json = Str(s: string) | Num(n: real) | Null | Absent

  /** The fields `signup` destructures from the request body, as the body holds them. */
  datatype SignupInput = SignupInput(fullName: Json, email: Json, password: Json, phone: Json, gender: Json)

  /** What `jwt.sign` is given: `{_id: id}` in the first build, the bare `_id` in the second. */
  datatype SignPayload = IdClaim(id: string) | BareId(id: string)

  /** validator, bcrypt and jsonwebtoken, as opaque functions; `numberText` is JavaScript's `String(n)`. */
  datatype Library = Library(
    isEmail: string -> bool,
    isStrongPassword: string -> bool,
    isMobilePhone: string -> bool,
    isAlpha: string -> bool,
    hash: (string, string) -> string,        // bcrypt.hash(password, salt)
    compare: (string, string) -> bool,       // bcrypt.compare(password, hash)
    compareTypeError: string,                // what bcrypt.compare rejects a password that is not a string with
    sign: (SignPayload, string, string) -> string,  // jwt.sign(payload, secret, {expiresIn}) for a plain-object payload
    numberText: real -> string)

  /** The environment: JWT_SECRET and EXPIRES_IN. */
  datatype Config = Config(jwtSecret: Option<string>, expiresIn: Option<string>)

  /** A signup either fails with a message or succeeds with one; the store after the call is returned either way. */
  datatype Step<T> = Step(result: Result<T>, store: Store)

  /** The second build's login answer: every field of `Account` but the hash, plus the token. */
  datatype ProfileWithToken = ProfileWithToken(
    id: string, fullName: string, email: string, phone: string, gender: Option<string>, role: string,
    permissions: Option<seq<string>>, forgot: Option<bool>, token: string)

  /** The first build's login answer. */
  datatype IdWithToken = IdWithToken(id: string, token: string)

  const DefaultRole := "user"
  const FallbackSecret := "uirbvvubvuebuebu"
  const DefaultExpiry := "1d"
  const SignedUp := "Signed up successfully"
  const InvalidEmail := "Please enter a valid email"
  const EmailExists := "Email already exists."
  const WeakPassword := "Please enter a strong password"
  const InvalidPhone := "Please enter valid mobile number"
  const InvalidName := "Please enter valid name"
  const MissingGender := "Please enter a gender"
  const EmptyEmail := "Email field cannot be empty"
  const EmptyPassword := "Password field cannot be empty"
  const NoSuchUser := "User does not exist"
  const WrongPassword := "Incorrect password."
  /** What jsonwebtoken throws for a payload that is not a plain object. */
  const NotPlainObject := "Expected \"payload\" to be a plain object."

  /** JavaScript `typeof`, as validator's `assertString` names a value that is not a string. */
  function TypeName(v: Json): string
  {
    match v
    case Str(_) => "string"
    case Num(_) => "number"
    case Null => "null"
    case Absent => "undefined"
  }

  /** The TypeError every validator function throws for a value that is not a string. */
  function NotAString(v: Json): string
  {
    "Expected a string but received a " + TypeName(v)
  }

  /** JavaScript truthiness of a body value. */
  predicate JsonTruthy(v: Json)
  {
    match v
    case Str(s) => s != ""
    case Num(n) => n != 0.0
    case Null => false
    case Absent => false
  }

  /** The stored text of a body value the schema casts to String. */
  function CastText(lib: Library, v: Json): Option<string>
  {
    match v
    case Str(s) => Some(s)
    case Num(n) => Some(lib.numberText(n))
    case Null => None
    case Absent => None
  }

  /** `process.env.JWT_SECRET || "uirbvvubvuebuebu"`. */
  function SigningSecret(cfg: Config): string
  {
    if Truthy(cfg.jwtSecret) then cfg.jwtSecret.value else FallbackSecret
  }

  /** `process.env.EXPIRES_IN || "1d"` (second build only). */
  function Expiry(cfg: Config): string
  {
    if Truthy(cfg.expiresIn) then cfg.expiresIn.value else DefaultExpiry
  }

  // ---------------------------------------------------------------- store

  /** `findOne({email})`: the index of the first document with that email. */
  function FindByEmail(store: Store, email: string): (r: Option<nat>)
    ensures r.Some? ==> r.value < |store| && store[r.value].email == email
    ensures r.Some? ==> forall k :: 0 <= k < r.value ==> store[k].email != email
    ensures r.None? ==> forall k :: 0 <= k < |store| ==> store[k].email != email
  {
    FindFrom(store, (a: Account) => a.email == email, 0)
  }

  /** `findById(id)`: the index of the first document with that id. */
  function FindById(store: Store, id: string): (r: Option<nat>)
    ensures r.Some? ==> r.value < |store| && store[r.value].id == id
    ensures r.Some? ==> forall k :: 0 <= k < r.value ==> store[k].id != id
    ensures r.None? ==> forall k :: 0 <= k < |store| ==> store[k].id != id
  {
    FindFrom(store, (a: Account) => a.id == id, 0)
  }

  function FindFrom(store: Store, p: Account -> bool, from: nat): (r: Option<nat>)
    requires from <= |store|
    ensures r.Some? ==> from <= r.value < |store| && p(store[r.value])
    ensures r.Some? ==> forall k :: from <= k < r.value ==> !p(store[k])
    ensures r.None? ==> forall k :: from <= k < |store| ==> !p(store[k])
    decreases |store| - from
  {
    if from == |store| then None
    else if p(store[from]) then Some(from)
    else FindFrom(store, p, from + 1)
  }

  /** No two documents share an email: the invariant the unique index stands for. */
  predicate EmailsUnique(store: Store)
  {
    forall i, j :: 0 <= i < j < |store| ==> store[i].email != store[j].email
  }

  // ---------------------------------------------------------------- signup

  /**
   * The account `signup` creates once every check passed: the hash instead of
   * the password, the default role, and the gender only in the second build.
   */
  function NewAccount(lib: Library, input: SignupInput, build: Build, salt: string, newId: string): Account
    requires input.fullName.Str? && input.email.Str? && input.password.Str? && input.phone.Str?
  {
    Account(newId, input.fullName.s, input.email.s, input.phone.s, lib.hash(input.password.s, salt),
            if build == WithGender then CastText(lib, input.gender) else None, DefaultRole, None, None)
  }

  /**
   * `User.signup` of either build, written as the chain of checks the code
   * performs. Each validator call first throws a TypeError for a value that
   * is not a string.
   */
  function Signup(build: Build, lib: Library, store: Store, input: SignupInput, salt: string, newId: string): (r: Step<string>)
    ensures r.result.Err? ==> r.store == store
    ensures r.result.Ok? ==>
              input.fullName.Str? && input.email.Str? && input.password.Str? && input.phone.Str? &&
              r.result.value == SignedUp && r.store == store + [NewAccount(lib, input, build, salt, newId)]
    ensures r.result.Ok? ==> FindByEmail(store, input.email.s).None?
    ensures !input.email.Str? ==> r.result == Err(NotAString(input.email))
  {
    if !input.email.Str? then Step(Err(NotAString(input.email)), store)
    else if !lib.isEmail(input.email.s) then Step(Err(InvalidEmail), store)
    else if FindByEmail(store, input.email.s).Some? then Step(Err(EmailExists), store)
    else if !input.password.Str? then Step(Err(NotAString(input.password)), store)
    else if !lib.isStrongPassword(input.password.s) then Step(Err(WeakPassword), store)
    else if !input.phone.Str? then Step(Err(NotAString(input.phone)), store)
    else if !lib.isMobilePhone(input.phone.s) then Step(Err(InvalidPhone), store)
    else if !input.fullName.Str? then Step(Err(NotAString(input.fullName)), store)
    else if !lib.isAlpha(input.fullName.s) then Step(Err(InvalidName), store)
    else if build == WithGender && !JsonTruthy(input.gender) then Step(Err(MissingGender), store)
    else Step(Ok(SignedUp), store + [NewAccount(lib, input, build, salt, newId)])
  }

  /** One validation: whether it passes and the message thrown when it does not. */
  datatype Check = Check(passes: bool, message: string)

  /** A validator call on a body value: a TypeError unless the value is a string, then the predicate. */
  function Validate(v: Json, p: string -> bool, message: string): Check
  {
    if v.Str? then Check(p(v.s), message) else Check(false, NotAString(v))
  }

  /** The checks `signup` makes, in the order the code makes them. */
  function SignupChecks(build: Build, lib: Library, store: Store, input: SignupInput): seq<Check>
  {
    [ Validate(input.email, lib.isEmail, InvalidEmail),
      Check(input.email.Str? ==> FindByEmail(store, input.email.s).None?, EmailExists),
      Validate(input.password, lib.isStrongPassword, WeakPassword),
      Validate(input.phone, lib.isMobilePhone, InvalidPhone),
      Validate(input.fullName, lib.isAlpha, InvalidName) ]
    + (if build == WithGender then [Check(JsonTruthy(input.gender), MissingGender)] else [])
  }

  /** The message of the first failing check, if any. */
  function FirstFailure(checks: seq<Check>): (r: Option<string>)
    ensures r.None? <==> forall i :: 0 <= i < |checks| ==> checks[i].passes
    ensures r.Some? ==> exists i :: 0 <= i < |checks| && !checks[i].passes && checks[i].message == r.value &&
                                    forall j :: 0 <= j < i ==> checks[j].passes
  {
    if checks == [] then None
    else if !checks[0].passes then Some(checks[0].message)
    else
      var rest := FirstFailure(checks[1..]);
      if rest.Some? then
        var i :| 0 <= i < |checks[1..]| && !checks[1..][i].passes && checks[1..][i].message == rest.value &&
                 forall j :: 0 <= j < i ==> checks[1..][j].passes;
        assert !checks[i + 1].passes && forall j :: 0 <= j < i + 1 ==> checks[j].passes;
        rest
      else rest
  }

  // ---------------------------------------------------------------- login

  /**
   * `jwt.sign(payload, secret, {expiresIn})`. jsonwebtoken accepts only a
   * plain-object payload here: `{_id}` is one, a bare ObjectId is not and
   * makes the call throw.
   */
  function Sign(lib: Library, payload: SignPayload, secret: string, expiresIn: string): (r: Result<string>)
    ensures r.Ok? <==> payload.IdClaim?
    ensures r.Ok? ==> r.value == lib.sign(payload, secret, expiresIn)
    ensures r.Err? ==> r.message == NotPlainObject
  {
    match payload
    case IdClaim(_) => Ok(lib.sign(payload, secret, expiresIn))
    case BareId(_) => Err(NotPlainObject)
  }

  /** `bcrypt.compare(password, hash)`: a password that is not a string is rejected with bcrypt's type error. */
  function Compare(lib: Library, password: Json, hash: string): (r: Result<bool>)
    ensures r.Ok? <==> password.Str?
    ensures r.Ok? ==> r.value == lib.compare(password.s, hash)
    ensures r.Err? ==> r.message == lib.compareTypeError
  {
    match password
    case Str(p) => Ok(lib.compare(p, hash))
    case _ => Err(lib.compareTypeError)
  }

  /**
   * The checks both builds' `login` run before signing, on the raw body
   * values: a falsy email, then a falsy password, then an email `findOne`
   * does not find (a number is looked up as its text), then bcrypt's
   * verdict. The result is the index of the account whose password matched.
   */
  function CheckCredentials(lib: Library, store: Store, email: Json, password: Json): (r: Result<nat>)
    ensures !JsonTruthy(email) ==> r == Err(EmptyEmail)
    ensures JsonTruthy(email) && !JsonTruthy(password) ==> r == Err(EmptyPassword)
    ensures JsonTruthy(email) && JsonTruthy(password) && FindByEmail(store, CastText(lib, email).value).None? ==>
              r == Err(NoSuchUser)
    ensures JsonTruthy(email) && JsonTruthy(password) && !password.Str? && FindByEmail(store, CastText(lib, email).value).Some? ==>
              r == Err(lib.compareTypeError)
    ensures r.Ok? <==>
              JsonTruthy(email) && password.Str? && password.s != "" &&
              FindByEmail(store, CastText(lib, email).value).Some? &&
              lib.compare(password.s, store[FindByEmail(store, CastText(lib, email).value).value].hashedPassword)
    ensures r.Ok? ==> r.value < |store| && r.value == FindByEmail(store, CastText(lib, email).value).value
    ensures r.Err? ==> r.message in {EmptyEmail, EmptyPassword, NoSuchUser, WrongPassword, lib.compareTypeError}
  {
    if !JsonTruthy(email) then Err(EmptyEmail)
    else if !JsonTruthy(password) then Err(EmptyPassword)
    else
      match FindByEmail(store, CastText(lib, email).value)
      case None => Err(NoSuchUser)
      case Some(k) =>
        match Compare(lib, password, store[k].hashedPassword)
        case Err(m) => Err(m)
        case Ok(matched) => if matched then Ok(k) else Err(WrongPassword)
  }

  /** `User.login` of the first build: `{_id, token}` with the token signing `{_id}` for one day. */
  function LoginIdOnly(lib: Library, cfg: Config, store: Store, email: Json, password: Json): (r: Result<IdWithToken>)
    ensures r.Ok? <==> CheckCredentials(lib, store, email, password).Ok?
    ensures r.Ok? ==>
              var a := store[CheckCredentials(lib, store, email, password).value];
              r.value == IdWithToken(a.id, lib.sign(IdClaim(a.id), SigningSecret(cfg), DefaultExpiry))
    ensures r.Err? ==> r == Err(CheckCredentials(lib, store, email, password).message)
  {
    match CheckCredentials(lib, store, email, password)
    case Err(m) => Err(m)
    case Ok(k) =>
      match Sign(lib, IdClaim(store[k].id), SigningSecret(cfg), DefaultExpiry)
      case Ok(token) => Ok(IdWithToken(store[k].id, token))
      case Err(m) => Err(m)
  }

  /**
   * The record without its hash, plus a token; the timestamps Mongoose adds
   * are not part of `Account`.
   */
  function WithoutHash(a: Account, token: string): ProfileWithToken
  {
    ProfileWithToken(a.id, a.fullName, a.email, a.phone, a.gender, a.role, a.permissions, a.forgot, token)
  }

  /**
   * The second build's login up to the token, signing the payload `claim`
   * gives for the account found: the stored record minus `hashedPassword`,
   * plus `token`.
   */
  function LoginRecord(lib: Library, cfg: Config, store: Store, email: Json, password: Json,
                       claim: Account -> SignPayload): Result<ProfileWithToken>
  {
    match CheckCredentials(lib, store, email, password)
    case Err(m) => Err(m)
    case Ok(k) =>
      match Sign(lib, claim(store[k]), SigningSecret(cfg), Expiry(cfg))
      case Ok(token) => Ok(WithoutHash(store[k], token))
      case Err(m) => Err(m)
  }

  /**
   * `User.login` of the second build as written: it signs the bare `_id`,
   * so once the password matches the call throws jsonwebtoken's
   * plain-object error; no login of this build succeeds.
   */
  function LoginProfile(lib: Library, cfg: Config, store: Store, email: Json, password: Json): (r: Result<ProfileWithToken>)
    ensures r.Err?
    ensures CheckCredentials(lib, store, email, password).Err? ==> r == Err(CheckCredentials(lib, store, email, password).message)
    ensures CheckCredentials(lib, store, email, password).Ok? ==> r == Err(NotPlainObject)
  {
    LoginRecord(lib, cfg, store, email, password, (a: Account) => BareId(a.id))
  }

  /** The second build's login with the payload `{_id}`, as the first build signs it. */
  function LoginProfileCorrected(lib: Library, cfg: Config, store: Store, email: Json, password: Json): (r: Result<ProfileWithToken>)
    ensures r.Ok? <==> CheckCredentials(lib, store, email, password).Ok?
    ensures r.Ok? ==>
              var a := store[CheckCredentials(lib, store, email, password).value];
              r.value.id == a.id && r.value.fullName == a.fullName && r.value.email == a.email &&
              r.value.phone == a.phone && r.value.gender == a.gender && r.value.role == a.role &&
              r.value.permissions == a.permissions && r.value.forgot == a.forgot &&
              r.value.token == lib.sign(IdClaim(a.id), SigningSecret(cfg), Expiry(cfg))
    ensures r.Err? ==> r == Err(CheckCredentials(lib, store, email, password).message)
  {
    LoginRecord(lib, cfg, store, email, password, (a: Account) => IdClaim(a.id))
  }
}

/** Properties relating signup, login and the store. */
module AccountFacts {
  import opened Base
  import opened Accounts

  /** `signup` throws exactly the message of its first failing check, and succeeds when none fails. */
  lemma SignupIsFirstFailingCheck(build: Build, lib: Library, store: Store, input: SignupInput, salt: string, newId: string)
    ensures Signup(build, lib, store, input, salt, newId).result ==
              match FirstFailure(SignupChecks(build, lib, store, input))
              case None => Ok(SignedUp)
              case Some(m) => Err(m)
  {
    var tail := if build == WithGender then [Check(JsonTruthy(input.gender), MissingGender)] else [];
    var c4 := [Validate(input.fullName, lib.isAlpha, InvalidName)] + tail;
    var c3 := [Validate(input.phone, lib.isMobilePhone, InvalidPhone)] + c4;
    var c2 := [Validate(input.password, lib.isStrongPassword, WeakPassword)] + c3;
    var c1 := [Check(input.email.Str? ==> FindByEmail(store, input.email.s).None?, EmailExists)] + c2;
    var c0 := [Validate(input.email, lib.isEmail, InvalidEmail)] + c1;
    var e := if !c0[0].passes then Some(c0[0].message)
             else if !c1[0].passes then Some(EmailExists)
             else if !c2[0].passes then Some(c2[0].message)
             else if !c3[0].passes then Some(c3[0].message)
             else if !c4[0].passes then Some(c4[0].message)
             else if tail != [] && !tail[0].passes then Some(MissingGender)
             else None;
    assert FirstFailure(SignupChecks(build, lib, store, input)) == e by {
      assert SignupChecks(build, lib, store, input) == c0;
      FirstFailureCons(c0[0], c1);
      FirstFailureCons(c1[0], c2);
      FirstFailureCons(c2[0], c3);
      FirstFailureCons(c3[0], c4);
      FirstFailureCons(c4[0], tail);
      if tail != [] {
        assert tail == [tail[0]] + [];
        FirstFailureCons(tail[0], []);
      }
    }
  }

  /** The first failure of a check followed by more checks. */
  lemma FirstFailureCons(c: Check, rest: seq<Check>)
    ensures FirstFailure([c] + rest) == if !c.passes then Some(c.message) else FirstFailure(rest)
  {
    assert ([c] + rest)[1..] == rest;
  }

  /** A taken email with valid syntax is refused with "Email already exists." and the store is left alone. */
  lemma DuplicateEmailRejected(build: Build, lib: Library, store: Store, input: SignupInput, salt: string, newId: string, k: nat)
    requires input.email.Str? && k < |store| && store[k].email == input.email.s && lib.isEmail(input.email.s)
    ensures Signup(build, lib, store, input, salt, newId) == Step(Err(EmailExists), store)
  {
  }

  /**
   * A body value that is not a string fails the first validator that reads
   * it: a numeric phone after a valid, new email and a strong password is
   * refused with validator's TypeError, whatever the number.
   */
  lemma NumericPhoneRefused(build: Build, lib: Library, store: Store, input: SignupInput, salt: string, newId: string)
    requires input.email.Str? && lib.isEmail(input.email.s) && FindByEmail(store, input.email.s).None?
    requires input.password.Str? && lib.isStrongPassword(input.password.s)
    requires input.phone.Num?
    ensures Signup(build, lib, store, input, salt, newId) == Step(Err("Expected a string but received a number"), store)
  {
  }

  /** Signup never creates a second account with an email already present. */
  lemma SignupKeepsEmailsUnique(build: Build, lib: Library, store: Store, input: SignupInput, salt: string, newId: string)
    requires EmailsUnique(store)
    ensures EmailsUnique(Signup(build, lib, store, input, salt, newId).store)
  {
    var r := Signup(build, lib, store, input, salt, newId);
    if r.result.Ok? {
      var s' := r.store;
      forall i, j | 0 <= i < j < |s'| ensures s'[i].email != s'[j].email {
        if j == |store| {
          assert s'[i] == store[i];
        }
      }
    }
  }

  /** After a successful signup the new account is the one `findOne` finds for its email. */
  lemma SignedUpIsFound(build: Build, lib: Library, store: Store, input: SignupInput, salt: string, newId: string)
    requires Signup(build, lib, store, input, salt, newId).result.Ok?
    ensures var s' := Signup(build, lib, store, input, salt, newId).store;
            FindByEmail(s', input.email.s) == Some(|store|) && s'[|store|] == NewAccount(lib, input, build, salt, newId)
  {
    var s' := Signup(build, lib, store, input, salt, newId).store;
    assert s'[|store|].email == input.email.s;
  }

  /**
   * Round trip: after a successful signup, logging in with the same email and
   * password succeeds for the new account in the first build and in the
   * corrected second build, given that bcrypt accepts a password against its
   * own hash.
   */
  lemma SignupThenLogin(build: Build, lib: Library, cfg: Config, store: Store, input: SignupInput, salt: string, newId: string)
    requires Signup(build, lib, store, input, salt, newId).result.Ok?
    requires lib.compare(input.password.s, lib.hash(input.password.s, salt))
    requires input.email.s != "" && input.password.s != ""
    ensures LoginIdOnly(lib, cfg, Signup(build, lib, store, input, salt, newId).store, input.email, input.password)
              == Ok(IdWithToken(newId, lib.sign(IdClaim(newId), SigningSecret(cfg), DefaultExpiry)))
    ensures var r := LoginProfileCorrected(lib, cfg, Signup(build, lib, store, input, salt, newId).store, input.email, input.password);
            r.Ok? && r.value.id == newId && r.value.role == DefaultRole && r.value.email == input.email.s
  {
    SignedUpIsFound(build, lib, store, input, salt, newId);
  }

  /**
   * As written, the second build's login of that same new account throws
   * jsonwebtoken's plain-object error instead: the password matches, the
   * signing fails.
   */
  lemma SignupThenLoginAsWritten(build: Build, lib: Library, cfg: Config, store: Store, input: SignupInput, salt: string, newId: string)
    requires Signup(build, lib, store, input, salt, newId).result.Ok?
    requires lib.compare(input.password.s, lib.hash(input.password.s, salt))
    requires input.email.s != "" && input.password.s != ""
    ensures LoginProfile(lib, cfg, Signup(build, lib, store, input, salt, newId).store, input.email, input.password)
              == Err(NotPlainObject)
  {
    SignedUpIsFound(build, lib, store, input, salt, newId);
  }

  /** A password bcrypt rejects for the stored hash gives "Incorrect password." in both builds. */
  lemma WrongPasswordRefused(lib: Library, cfg: Config, store: Store, email: string, password: string, k: nat)
    requires k < |store| && store[k].email == email && EmailsUnique(store)
    requires email != "" && password != "" && !lib.compare(password, store[k].hashedPassword)
    ensures LoginIdOnly(lib, cfg, store, Str(email), Str(password)) == Err(WrongPassword)
    ensures LoginProfile(lib, cfg, store, Str(email), Str(password)) == Err(WrongPassword)
    ensures LoginProfileCorrected(lib, cfg, store, Str(email), Str(password)) == Err(WrongPassword)
  {
    assert FindByEmail(store, email) == Some(k);
  }

  /**
   * Login reads the body values as they arrive: the number 0 is an empty
   * password, and any other number for a stored email makes bcrypt reject the
   * comparison, in every login.
   */
  lemma NumericPasswordRefused(lib: Library, cfg: Config, store: Store, email: string, n: real, k: nat)
    requires k < |store| && store[k].email == email && EmailsUnique(store) && email != ""
    ensures n == 0.0 ==> LoginIdOnly(lib, cfg, store, Str(email), Num(n)) == Err(EmptyPassword)
    ensures n != 0.0 ==> LoginIdOnly(lib, cfg, store, Str(email), Num(n)) == Err(lib.compareTypeError)
    ensures n != 0.0 ==> LoginProfile(lib, cfg, store, Str(email), Num(n)) == Err(lib.compareTypeError)
    ensures n != 0.0 ==> LoginProfileCorrected(lib, cfg, store, Str(email), Num(n)) == Err(lib.compareTypeError)
  {
    assert FindByEmail(store, email) == Some(k);
  }
}

=== FILE: auth_context.dfy ===
/**
 * The client's authentication store: a reducer over `{user, ...}` that
 * LOGIN fills and LOGOUT clears.
 */
module AuthContext {
  import opened Base

  /**
   * The reducer's state: the signed-in user (`null` is `None`) and whatever
   * other keys the state object carries, which the reducer copies through.
   */
  datatype State<P> = State(user: Option<P>, others: map<string, P>)

  /** `{type, payload}`; any `type` string may be dispatched. */
  datatype Action<P> = Action(kind: string, payload: Option<P>)

  const LoginKind := "LOGIN"
  const LogoutKind := "LOGOUT"

  /** `{user: null}`. */
  function Initial<P>(): State<P>
  {
    State(None, map[])
  }

  /** `authReducer`. */
  function Reduce<P>(s: State<P>, a: Action<P>): (r: State<P>)
    ensures r.others == s.others
    ensures a.kind == LoginKind ==> r.user == a.payload
    ensures a.kind == LogoutKind ==> r.user.None?
    ensures a.kind != LoginKind && a.kind != LogoutKind ==> r == s
  {
    if a.kind == LoginKind then s.(user := a.payload)
    else if a.kind == LogoutKind then s.(user := None)
    else s
  }

  /** Dispatching a sequence of actions in order. */
  function Run<P>(s: State<P>, actions: seq<Action<P>>): State<P>
    decreases |actions|
  {
    if actions == [] then s else Run(Reduce(s, actions[0]), actions[1..])
  }

  /** Reference definition: the user is set by the last LOGIN or LOGOUT, if any. */
  function LastSession<P>(current: Option<P>, actions: seq<Action<P>>): Option<P>
    decreases |actions|
  {
    if actions == [] then current
    else
      var last := actions[|actions| - 1];
      if last.kind == LoginKind then last.payload
      else if last.kind == LogoutKind then None
      else LastSession(current, actions[..|actions| - 1])
  }
}

/** Algebraic facts about the authentication reducer. */
module AuthFacts {
  import opened Base
  import opened AuthContext

  /** LOGOUT twice is LOGOUT once. */
  lemma LogoutIdempotent<P>(s: State<P>, p: Option<P>)
    ensures Reduce(Reduce(s, Action(LogoutKind, p)), Action(LogoutKind, p)) == Reduce(s, Action(LogoutKind, p))
  {
  }

  /** A later LOGIN overrides an earlier one. */
  lemma LoginOverridesLogin<P>(s: State<P>, a: Option<P>, b: Option<P>)
    ensures Reduce(Reduce(s, Action(LoginKind, a)), Action(LoginKind, b)) == Reduce(s, Action(LoginKind, b))
  {
  }

  /** Logging in and out from the initial state returns to the initial state. */
  lemma LoginLogoutRoundTrip<P>(p: Option<P>, q: Option<P>)
    ensures Reduce(Reduce(Initial<P>(), Action(LoginKind, p)), Action(LogoutKind, q)) == Initial<P>()
  {
  }

  /** Running the reducer only changes `user`. */
  lemma {:induction false} RunKeepsOthers<P>(s: State<P>, actions: seq<Action<P>>)
    ensures Run(s, actions).others == s.others
    decreases |actions|
  {
    if actions != [] {
      RunKeepsOthers(Reduce(s, actions[0]), actions[1..]);
    }
  }

  /** Running one more action is reducing the result of the run. */
  lemma {:induction false} RunSnoc<P>(s: State<P>, actions: seq<Action<P>>, a: Action<P>)
    ensures Run(s, actions + [a]) == Reduce(Run(s, actions), a)
    decreases |actions|
  {
    if actions == [] {
      assert [a][1..] == [];
    } else {
      assert (actions + [a])[1..] == actions[1..] + [a];
      RunSnoc(Reduce(s, actions[0]), actions[1..], a);
    }
  }

  /** The reducer agrees with the reference: the user after a run is the last session action's. */
  lemma {:induction false} RunIsLastSession<P>(s: State<P>, actions: seq<Action<P>>)
    ensures Run(s, actions).user == LastSession(s.user, actions)
    decreases |actions|
  {
    if actions != [] {
      var init := actions[..|actions| - 1];
      assert actions == init + [actions[|actions| - 1]];
      RunSnoc(s, init, actions[|actions| - 1]);
      RunIsLastSession(s, init);
    }
  }
}

=== FILE: base.dfy ===
/** Small value types shared by every part of the model. */
module Base {

  /** A JavaScript value that may be `undefined`/`null` (None) or present (Some). */
  datatype Option<+T> = None | Some(value: T)

  /** The outcome of an operation that throws: Ok carries the value, Err the `Error.message`. */
  datatype Result<+T> = Ok(value: T) | Err(message: string)

  /** JavaScript truthiness of an optional string: `undefined`, `null` and "" are falsy. */
  predicate Truthy(s: Option<string>)
  {
    s.Some? && s.value != ""
  }

  /** `String(x)` of an optional string: a missing value prints as the text "undefined". */
  function StringOf(s: Option<string>): (r: string)
    ensures s.Some? ==> r == s.value
    ensures s.None? ==> r == "undefined"
  {
    match s
    case Some(v) => v
    case None => "undefined"
  }

  /** No element occurs twice. */
  predicate NoDuplicates<T(==)>(xs: seq<T>)
  {
    forall i, j :: 0 <= i < j < |xs| ==> xs[i] != xs[j]
  }
}

=== FILE: cascade.dfy ===
/**
 * The product-permission checkboxes of the dashboard pages. Four boxes (View,
 * Edit, Add, Delete) each own one effect that runs when the box's value has
 * changed since the last render: it adds or removes the box's permission
 * string in the page's list and sets other boxes. State updates queued by the
 * effects of one render are applied together, in the order they were queued,
 * and the next render runs the effects of the boxes that changed, until
 * nothing changes.
 *
 * The user-permissions page couples Edit and Add; the admin and user update
 * pages keep them independent.
 */
module Cascade {
  import opened Base

  datatype Box = View | Edit | Add | Delete

  datatype Boxes = Boxes(view: bool, edit: bool, add: bool, delete: bool)

  /** Which page: `UserPermissions` (Coupled) or `AdminUpdate`/`UserUpdate` (Independent). */
  datatype Variant = Coupled | Independent

  /**
   * The setter calls queued by effects, as one assignment per box: `Some(v)`
   * when `setXChecked(v)` was called (the last call wins), `None` otherwise.
   */
  datatype Assign = Assign(view: Option<bool>, edit: Option<bool>, add: Option<bool>, delete: Option<bool>)

  const NoSets := Assign(None, None, None, None)

  datatype Page = Page(boxes: Boxes, permissions: seq<string>)

  function Get(b: Boxes, x: Box): bool
  {
    match x
    case View => b.view
    case Edit => b.edit
    case Add => b.add
    case Delete => b.delete
  }

  function Put(b: Boxes, x: Box, v: bool): (r: Boxes)
    ensures Get(r, x) == v
    ensures forall y :: y != x ==> Get(r, y) == Get(b, y)
  {
    match x
    case View => b.(view := v)
    case Edit => b.(edit := v)
    case Add => b.(add := v)
    case Delete => b.(delete := v)
  }

  /** The permission string a box stands for. */
  function Key(x: Box): string
  {
    match x
    case View => "product-view"
    case Edit => "product-edit"
    case Add => "product-add"
    case Delete => "product-delete"
  }

  const AllOff := Boxes(false, false, false, false)

  /** The setters the effect of box `x` calls when it runs with `x` checked or not. */
  function Effect(variant: Variant, x: Box, checked: bool): Assign
  {
    match (variant, x, checked)
    case (_, View, true) => NoSets
    case (_, View, false) => Assign(None, Some(false), Some(false), Some(false))
    case (Coupled, Edit, true) => Assign(Some(true), None, Some(true), None)
    case (Coupled, Edit, false) => Assign(None, None, Some(false), Some(false))
    case (Coupled, Add, true) => Assign(Some(true), Some(true), None, None)
    case (Coupled, Add, false) => Assign(None, Some(false), None, Some(false))
    case (Independent, Edit, true) => Assign(Some(true), None, None, None)
    case (Independent, Edit, false) => Assign(None, None, None, Some(false))
    case (Independent, Add, true) => Assign(Some(true), None, None, None)
    case (Independent, Add, false) => Assign(None, None, None, Some(false))
    case (_, Delete, true) => Assign(Some(true), Some(true), Some(true), None)
    case (_, Delete, false) => NoSets
  }

  function Last(first: Option<bool>, later: Option<bool>): Option<bool>
  {
    if later.Some? then later else first
  }

  /** Setters queued by `first` and then by `later`: for each box the later call wins. */
  function Then(first: Assign, later: Assign): Assign
  {
    Assign(Last(first.view, later.view), Last(first.edit, later.edit),
           Last(first.add, later.add), Last(first.delete, later.delete))
  }

  function Or(o: Option<bool>, d: bool): bool
  {
    if o.Some? then o.value else d
  }

  /** The state after React applies the queued setters. */
  function Apply(b: Boxes, a: Assign): (r: Boxes)
    ensures forall x :: Get(r, x) == Or(AssignOf(a, x), Get(b, x))
  {
    Boxes(Or(a.view, b.view), Or(a.edit, b.edit), Or(a.add, b.add), Or(a.delete, b.delete))
  }

  function AssignOf(a: Assign, x: Box): Option<bool>
  {
    match x
    case View => a.view
    case Edit => a.edit
    case Add => a.add
    case Delete => a.delete
  }

  /** `Array.from(new Set(xs))`: first occurrences, in order. */
  function Dedup(xs: seq<string>): (r: seq<string>)
    ensures NoDuplicates(r)
    ensures forall s :: s in r <==> s in xs
    decreases |xs|
  {
    if xs == [] then []
    else
      var rest := Dedup(xs[..|xs| - 1]);
      if xs[|xs| - 1] in rest then rest else rest + [xs[|xs| - 1]]
  }

  /** `xs.filter(p => p !== s)`. */
  function Without(xs: seq<string>, s: string): (r: seq<string>)
    ensures forall t :: t in r <==> t in xs && t != s
    ensures NoDuplicates(xs) ==> NoDuplicates(r)
    decreases |xs|
  {
    if xs == [] then []
    else
      var rest := Without(xs[1..], s);
      NoDuplicatesTail(xs);
      if xs[0] == s then rest else [xs[0]] + rest
  }

  lemma NoDuplicatesTail(xs: seq<string>)
    requires xs != []
    ensures NoDuplicates(xs) ==> NoDuplicates(xs[1..]) && xs[0] !in xs[1..]
  {
  }

  /** The list update of box `x`'s effect. */
  function UpdateList(list: seq<string>, x: Box, checked: bool): (r: seq<string>)
    ensures NoDuplicates(list) ==> NoDuplicates(r)
    ensures Key(x) in r <==> checked
    ensures forall t :: t != Key(x) ==> (t in r <==> t in list)
  {
    if checked then Dedup(list + [Key(x)]) else Without(list, Key(x))
  }

  /** Whether box `x` changed between two renders, which is what makes its effect run. */
  predicate Differs(prev: Boxes, cur: Boxes, x: Box)
  {
    Get(prev, x) != Get(cur, x)
  }

  /** The setters box `x`'s effect queues in this render, if it runs. */
  function Step(variant: Variant, prev: Boxes, cur: Boxes, x: Box): Assign
  {
    if Differs(prev, cur, x) then Effect(variant, x, Get(cur, x)) else NoSets
  }

  /** The setters queued by the effects that run after rendering `cur`, in declaration order. */
  function Queued(variant: Variant, prev: Boxes, cur: Boxes): Assign
  {
    Then(Then(Then(Step(variant, prev, cur, View), Step(variant, prev, cur, Edit)),
              Step(variant, prev, cur, Add)), Step(variant, prev, cur, Delete))
  }

  /** The boxes of the next render. */
  function RoundBoxes(variant: Variant, prev: Boxes, cur: Boxes): Boxes
  {
    Apply(cur, Queued(variant, prev, cur))
  }

  /** The `setPermissions` updater of box `x`'s effect, if it runs. */
  function ListStep(prev: Boxes, cur: Boxes, x: Box, list: seq<string>): (r: seq<string>)
    ensures NoDuplicates(list) ==> NoDuplicates(r)
    ensures Differs(prev, cur, x) ==> (Key(x) in r <==> Get(cur, x))
    ensures forall t :: t != Key(x) || !Differs(prev, cur, x) ==> (t in r <==> t in list)
  {
    if Differs(prev, cur, x) then UpdateList(list, x, Get(cur, x)) else list
  }

  /** The list after the chained updaters of the effects that run after rendering `cur`. */
  function RoundList(prev: Boxes, cur: Boxes, list: seq<string>): (r: seq<string>)
    ensures NoDuplicates(list) ==> NoDuplicates(r)
    ensures forall x :: Differs(prev, cur, x) ==> (Key(x) in r <==> Get(cur, x))
    ensures forall t :: (forall x :: Differs(prev, cur, x) ==> t != Key(x)) ==> (t in r <==> t in list)
  {
    KeysDistinct();
    ListStep(prev, cur, Delete, ListStep(prev, cur, Add, ListStep(prev, cur, Edit, ListStep(prev, cur, View, list))))
  }

  /** Different boxes stand for different strings. */
  lemma KeysDistinct()
    ensures forall x, y :: x != y ==> Key(x) != Key(y)
  {
    assert Key(View)[8] != Key(Edit)[8];
  }

  /**
   * Renders until no box changes: `prev` is the previous render's boxes and
   * `cur` the current ones, `step` computes the next render's boxes. `None`
   * when `fuel` renders do not settle.
   */
  function SettleWith(step: (Boxes, Boxes) -> Boxes, prev: Boxes, cur: Boxes, list: seq<string>, fuel: nat): Option<Page>
    decreases fuel
  {
    if prev == cur then Some(Page(cur, list))
    else if fuel == 0 then None
    else SettleWith(step, cur, step(prev, cur), RoundList(prev, cur, list), fuel - 1)
  }

  /** The renders of a page of the given variant. */
  function Settle(variant: Variant, prev: Boxes, cur: Boxes, list: seq<string>, fuel: nat): Option<Page>
  {
    SettleWith((p, c) => RoundBoxes(variant, p, c), prev, cur, list, fuel)
  }

  /** Rendering until nothing changes, for any way `step` of computing the next render's boxes. */
  function Renders(step: (Boxes, Boxes) -> Boxes, prev: Boxes, cur: Boxes, fuel: nat): Option<Boxes>
    decreases fuel
  {
    if prev == cur then Some(cur)
    else if fuel == 0 then None
    else Renders(step, cur, step(prev, cur), fuel - 1)
  }

  /** The box part of `Settle`, which never looks at the list. */
  function SettleBoxes(variant: Variant, prev: Boxes, cur: Boxes, fuel: nat): Option<Boxes>
  {
    Renders((p, c) => RoundBoxes(variant, p, c), prev, cur, fuel)
  }

  /** More renders than any click or load needs. */
  const Fuel: nat := 4

  /** `onChange={() => setXChecked(!xChecked)}` and the renders it causes. */
  function Click(variant: Variant, page: Page, x: Box): Option<Page>
  {
    Settle(variant, page.boxes, Put(page.boxes, x, !Get(page.boxes, x)), page.permissions, Fuel)
  }

  /** `getData`: the four boxes set from the fetched permissions in one batch, on a fresh page. */
  function Load(variant: Variant, stored: seq<string>): Option<Page>
  {
    Settle(variant, AllOff, Loaded(stored), [], Fuel)
  }

  function Loaded(stored: seq<string>): Boxes
  {
    Boxes(Key(View) in stored, Key(Edit) in stored, Key(Add) in stored, Key(Delete) in stored)
  }

  /** The relation between the boxes that the page keeps. */
  predicate Invariant(variant: Variant, b: Boxes)
  {
    match variant
    case Coupled => (b.edit <==> b.add) && (b.delete ==> b.edit) && (b.edit ==> b.view)
    case Independent => (b.edit ==> b.view) && (b.add ==> b.view) && (b.delete ==> b.edit && b.add)
  }

  /** No effect would change a box: every rule is satisfied. */
  predicate Quiet(variant: Variant, b: Boxes)
  {
    forall x :: Apply(b, Effect(variant, x, Get(b, x))) == b
  }

  /** The list holds, without repetition, exactly the strings of the checked boxes. */
  predicate ListMatches(b: Boxes, list: seq<string>)
  {
    NoDuplicates(list) &&
    (forall x :: Key(x) in list <==> Get(b, x)) &&
    (forall t :: t in list ==> t in {Key(View), Key(Edit), Key(Add), Key(Delete)})
  }

  predicate Consistent(variant: Variant, page: Page)
  {
    Invariant(variant, page.boxes) && ListMatches(page.boxes, page.permissions)
  }
}

=== FILE: cascade_facts.dfy ===
/** What the checkbox cascade guarantees on both kinds of page. */
module CascadeFacts {
  import opened Base
  import opened Cascade

  /** The individual rules of the user-permissions page. */
  lemma CoupledRules(b: Boxes)
    ensures var r := Apply(b, Effect(Coupled, View, false)); !r.edit && !r.add && !r.delete && r.view == b.view
    ensures Apply(b, Effect(Coupled, Edit, true)) == b.(view := true, add := true)
    ensures Apply(b, Effect(Coupled, Edit, false)) == b.(add := false, delete := false)
    ensures Apply(b, Effect(Coupled, Add, true)) == b.(view := true, edit := true)
    ensures Apply(b, Effect(Coupled, Add, false)) == b.(edit := false, delete := false)
    ensures Apply(b, Effect(Coupled, Delete, true)) == b.(view := true, edit := true, add := true)
    ensures Apply(b, Effect(Coupled, Delete, false)) == b
    ensures Apply(b, Effect(Coupled, View, true)) == b
  {
  }

  /** The individual rules of the admin and user update pages. */
  lemma IndependentRules(b: Boxes)
    ensures var r := Apply(b, Effect(Independent, View, false)); !r.edit && !r.add && !r.delete && r.view == b.view
    ensures Apply(b, Effect(Independent, Edit, true)) == b.(view := true)
    ensures Apply(b, Effect(Independent, Add, true)) == b.(view := true)
    ensures Apply(b, Effect(Independent, Edit, false)) == b.(delete := false)
    ensures Apply(b, Effect(Independent, Add, false)) == b.(delete := false)
    ensures Apply(b, Effect(Independent, Delete, true)) == b.(view := true, edit := true, add := true)
    ensures Apply(b, Effect(Independent, Delete, false)) == b
    ensures Apply(b, Effect(Independent, View, true)) == b
  {
  }

  /** No rule fires exactly when the page's relation between the boxes holds. */
  lemma FixpointIffInvariant(variant: Variant, b: Boxes)
    ensures Quiet(variant, b) <==> Invariant(variant, b)
  {
    var v := Apply(b, Effect(variant, View, Get(b, View)));
    var e := Apply(b, Effect(variant, Edit, Get(b, Edit)));
    var a := Apply(b, Effect(variant, Add, Get(b, Add)));
    var d := Apply(b, Effect(variant, Delete, Get(b, Delete)));
    if Invariant(variant, b) {
      forall x ensures Apply(b, Effect(variant, x, Get(b, x))) == b {
        match x
        case View => assert v == b;
        case Edit => assert e == b;
        case Add => assert a == b;
        case Delete => assert d == b;
      }
    } else {
      assert !(v == b && e == b && a == b && d == b);
    }
  }

  /** The boxes of `SettleWith` are those of `Renders`, and they settle together. */
  lemma {:induction false} SettleAgrees(step: (Boxes, Boxes) -> Boxes, prev: Boxes, cur: Boxes, list: seq<string>, fuel: nat)
    ensures SettleWith(step, prev, cur, list, fuel).Some? == Renders(step, prev, cur, fuel).Some?
    ensures SettleWith(step, prev, cur, list, fuel).Some? ==>
              SettleWith(step, prev, cur, list, fuel).value.boxes == Renders(step, prev, cur, fuel).value
    decreases fuel
  {
    if prev != cur && fuel > 0 {
      SettleAgrees(step, cur, step(prev, cur), RoundList(prev, cur, list), fuel - 1);
    }
  }

  /**
   * The list ends up matching the boxes, provided it matched every box that
   * did not change in the last render: each changed box's effect re-adds or
   * removes its own string, whatever the effects do to the boxes.
   */
  lemma {:induction false} SettleListMatches(step: (Boxes, Boxes) -> Boxes, prev: Boxes, cur: Boxes, list: seq<string>, fuel: nat)
    requires NoDuplicates(list)
    requires forall t :: t in list ==> t in {Key(View), Key(Edit), Key(Add), Key(Delete)}
    requires forall x :: !Differs(prev, cur, x) ==> (Key(x) in list <==> Get(cur, x))
    ensures SettleWith(step, prev, cur, list, fuel).Some? ==>
              ListMatches(SettleWith(step, prev, cur, list, fuel).value.boxes, SettleWith(step, prev, cur, list, fuel).value.permissions)
    decreases fuel
  {
    if prev != cur && fuel > 0 {
      var next := step(prev, cur);
      var list' := RoundList(prev, cur, list);
      KeysDistinct();
      forall x | !Differs(cur, next, x) ensures Key(x) in list' <==> Get(next, x) {
        if !Differs(prev, cur, x) {
          assert forall y :: Differs(prev, cur, y) ==> Key(x) != Key(y);
        }
      }
      forall t | t in list' ensures t in {Key(View), Key(Edit), Key(Add), Key(Delete)} {
        if forall y :: Differs(prev, cur, y) ==> t != Key(y) {
          assert t in list;
        } else {
          var y :| Differs(prev, cur, y) && t == Key(y);
          match y
          case View =>
          case Edit =>
          case Add =>
          case Delete =>
        }
      }
      SettleListMatches(step, cur, next, list', fuel - 1);
    }
  }

  /** Two renders after a click on the user-permissions page the effects stop changing boxes. */
  lemma ClickSettlesCoupled(b: Boxes, x: Box)
    requires Invariant(Coupled, b)
    ensures var c1 := Put(b, x, !Get(b, x));
            var c2 := RoundBoxes(Coupled, b, c1);
            var c3 := RoundBoxes(Coupled, c1, c2);
            RoundBoxes(Coupled, c2, c3) == c3 && Invariant(Coupled, c3) && Get(c3, x) == !Get(b, x)
  {
    match x
    case View =>
    case Edit =>
    case Add =>
    case Delete =>
  }

  /** Two renders after a click on an update page the effects stop changing boxes. */
  lemma ClickSettlesIndependent(b: Boxes, x: Box)
    requires Invariant(Independent, b)
    ensures var c1 := Put(b, x, !Get(b, x));
            var c2 := RoundBoxes(Independent, b, c1);
            var c3 := RoundBoxes(Independent, c1, c2);
            RoundBoxes(Independent, c2, c3) == c3 && Invariant(Independent, c3) && Get(c3, x) == !Get(b, x)
  {
    match x
    case View =>
    case Edit =>
    case Add =>
    case Delete =>
  }

  /** A render with no changed box runs no effect. */
  lemma RoundOfUnchanged(variant: Variant, c: Boxes)
    ensures RoundBoxes(variant, c, c) == c
  {
  }

  /** Renders that stop changing after two rounds settle within any fuel of three or more. */
  lemma SettlesAfterTwo(step: (Boxes, Boxes) -> Boxes, b: Boxes, c1: Boxes, n: nat)
    requires n >= 3 && b != c1
    requires step(c1, c1) == c1
    requires var c2 := step(b, c1); step(c2, step(c1, c2)) == step(c1, c2)
    ensures Renders(step, b, c1, n) == Some(step(c1, step(b, c1)))
  {
    var c2 := step(b, c1);
    var c3 := step(c1, c2);
    assert Renders(step, b, c1, n) == Renders(step, c1, c2, n - 1);
    if c1 != c2 {
      assert Renders(step, c1, c2, n - 1) == Renders(step, c2, c3, n - 2);
      if c2 != c3 {
        assert Renders(step, c2, c3, n - 2) == Renders(step, c3, c3, n - 3);
      }
    }
  }

  /** The boxes after a click on a consistent page: settled, consistent, and the clicked box flipped. */
  lemma ClickBoxes(variant: Variant, b: Boxes, x: Box)
    requires Invariant(variant, b)
    ensures var r := SettleBoxes(variant, b, Put(b, x, !Get(b, x)), Fuel);
            r.Some? && Invariant(variant, r.value) && Get(r.value, x) == !Get(b, x)
  {
    var c1 := Put(b, x, !Get(b, x));
    if variant == Coupled { ClickSettlesCoupled(b, x); } else { ClickSettlesIndependent(b, x); }
    RoundOfUnchanged(variant, c1);
    SettlesAfterTwo((p, c) => RoundBoxes(variant, p, c), b, c1, Fuel);
  }

  /** A click on a consistent page settles, keeps the page consistent and leaves the clicked box flipped. */
  lemma ClickKeepsConsistent(variant: Variant, page: Page, x: Box)
    requires Consistent(variant, page)
    ensures Click(variant, page, x).Some?
    ensures Consistent(variant, Click(variant, page, x).value)
    ensures Get(Click(variant, page, x).value.boxes, x) == !Get(page.boxes, x)
  {
    var b := page.boxes;
    var c1 := Put(b, x, !Get(b, x));
    ClickBoxes(variant, b, x);
    SettleAgrees((p, c) => RoundBoxes(variant, p, c), b, c1, page.permissions, Fuel);
    SettleListMatches((p, c) => RoundBoxes(variant, p, c), b, c1, page.permissions, Fuel);
  }

  /** Reference definition: the loaded boxes plus every box a loaded box depends on. */
  function Closure(variant: Variant, l: Boxes): Boxes
  {
    match variant
    case Coupled =>
      Boxes(l.view || l.edit || l.add || l.delete, l.edit || l.add || l.delete, l.edit || l.add || l.delete, l.delete)
    case Independent =>
      Boxes(l.view || l.edit || l.add || l.delete, l.edit || l.delete, l.add || l.delete, l.delete)
  }

  /** Loading on the user-permissions page: two renders reach the closure and stay there. */
  lemma LoadSettlesCoupled(l: Boxes)
    ensures var c2 := RoundBoxes(Coupled, AllOff, l);
            var c3 := RoundBoxes(Coupled, l, c2);
            RoundBoxes(Coupled, c2, c3) == c3 && c3 == Closure(Coupled, l)
  {
    if l.delete {
    } else if l.edit {
    } else if l.add {
    } else {
    }
  }

  /** Loading on an update page: two renders reach the closure and stay there. */
  lemma LoadSettlesIndependent(l: Boxes)
    ensures var c2 := RoundBoxes(Independent, AllOff, l);
            var c3 := RoundBoxes(Independent, l, c2);
            RoundBoxes(Independent, c2, c3) == c3 && c3 == Closure(Independent, l)
  {
    if l.delete {
    } else if l.edit {
    } else if l.add {
    } else {
    }
  }

  /**
   * Whatever permissions are stored, loading them settles on the closure of
   * the stored boxes with a list that matches, so the page starts consistent.
   */
  lemma LoadIsClosure(variant: Variant, stored: seq<string>)
    ensures Load(variant, stored).Some?
    ensures Load(variant, stored).value.boxes == Closure(variant, Loaded(stored))
    ensures Consistent(variant, Load(variant, stored).value)
  {
    var l := Loaded(stored);
    SettleAgrees((p, c) => RoundBoxes(variant, p, c), AllOff, l, [], Fuel);
    SettleListMatches((p, c) => RoundBoxes(variant, p, c), AllOff, l, [], Fuel);
    if l != AllOff {
      if variant == Coupled { LoadSettlesCoupled(l); } else { LoadSettlesIndependent(l); }
      RoundOfUnchanged(variant, l);
      SettlesAfterTwo((p, c) => RoundBoxes(variant, p, c), AllOff, l, Fuel);
    }
  }

  /**
   * Edit and Add are coupled on the user-permissions page only: with just
   * View checked, clicking Edit also checks Add there, and nothing else on
   * the update pages.
   */
  lemma EditCouplesAddOnlyOnPermissionsPage()
    ensures SettleBoxes(Coupled, Boxes(true, false, false, false), Boxes(true, true, false, false), Fuel)
            == Some(Boxes(true, true, true, false))
    ensures SettleBoxes(Independent, Boxes(true, false, false, false), Boxes(true, true, false, false), Fuel)
            == Some(Boxes(true, true, false, false))
  {
    var b := Boxes(true, false, false, false);
    var c1 := Boxes(true, true, false, false);
    RoundOfUnchanged(Coupled, c1);
    RoundOfUnchanged(Independent, c1);
    SettlesAfterTwo((p, c) => RoundBoxes(Coupled, p, c), b, c1, Fuel);
    SettlesAfterTwo((p, c) => RoundBoxes(Independent, p, c), b, c1, Fuel);
  }
}

=== FILE: end_to_end.dfy ===
/**
 * The client's requests followed through the server: the path each page
 * calls, the route that answers it, and what the page does with the answer.
 */
module EndToEnd {
  import opened Base
  import opened Middleware
  import opened Router
  import opened Routes
  import RouteFacts
  import MiddlewareFacts
  import opened Schemas
  import opened Pages
  import Cascade
  import AuthContext
  import UserController
  import Accounts

  /** The request as Express sees it: nothing on `req.user` or `req.email` yet. */
  function ToServer(req: ClientRequest): Request
  {
    Request(req.verb, req.path, req.headers, None, None)
  }

  /** A path is its leading '/' and the split of the rest. */
  lemma PiecesOfSplit(path: string, ps: seq<string>)
    requires |path| > 0 && path[0] == '/' && Split(path[1..]) == ps
    ensures Pieces(path) == Some(ps)
  {
  }

  /** Dropping the leading '/' of a path of three pieces, regrouped from the right. */
  lemma TailOfThree(path: string, a: string, b: string, c: string)
    requires path == "/" + a + "/" + b + "/" + c
    ensures |path| > 0 && path[0] == '/'
    ensures path[1..] == a + "/" + (b + "/" + c)
  {
  }

  /** Three pieces free of '/', joined by '/', split back into themselves. */
  lemma {:induction false} SplitOfThree(a: string, b: string, c: string)
    requires '/' !in a && '/' !in b && '/' !in c
    ensures Split(a + "/" + (b + "/" + c)) == [a, b, c]
  {
    SplitCons(a, b + "/" + c);
    SplitCons(b, c);
    SplitWhole(c);
  }

  /** A path of three pieces free of '/'. */
  lemma {:induction false} PiecesOfThree(path: string, a: string, b: string, c: string)
    requires '/' !in a && '/' !in b && '/' !in c
    requires path == "/" + a + "/" + b + "/" + c
    ensures Pieces(path) == Some([a, b, c])
  {
    TailOfThree(path, a, b, c);
    SplitOfThree(a, b, c);
    PiecesOfSplit(path, [a, b, c]);
  }

  /** Dropping the leading '/' of a path of four pieces, regrouped from the right. */
  lemma TailOfFour(path: string, a: string, b: string, c: string, d: string)
    requires path == "/" + a + "/" + b + "/" + c + "/" + d
    ensures |path| > 0 && path[0] == '/'
    ensures path[1..] == a + "/" + (b + "/" + (c + "/" + d))
  {
  }

  /** Four pieces free of '/', joined by '/', split back into themselves. */
  lemma {:induction false} SplitOfFour(a: string, b: string, c: string, d: string)
    requires '/' !in a && '/' !in b && '/' !in c && '/' !in d
    ensures Split(a + "/" + (b + "/" + (c + "/" + d))) == [a, b, c, d]
  {
    SplitCons(a, b + "/" + (c + "/" + d));
    SplitCons(b, c + "/" + d);
    SplitCons(c, d);
    SplitWhole(d);
  }

  /** A path of four pieces free of '/'. */
  lemma {:induction false} PiecesOfFour(path: string, a: string, b: string, c: string, d: string)
    requires '/' !in a && '/' !in b && '/' !in c && '/' !in d
    requires path == "/" + a + "/" + b + "/" + c + "/" + d
    ensures Pieces(path) == Some([a, b, c, d])
  {
    TailOfFour(path, a, b, c, d);
    SplitOfFour(a, b, c, d);
    PiecesOfSplit(path, [a, b, c, d]);
  }

  /** The first matching route decides the dispatch. */
  lemma DispatchByGuard(table: seq<Route>, variant: AuthVariant, svc: Services, req: Request, pieces: seq<string>,
                        chain: seq<Gate>, handler: string)
    requires GuardOf(table, req.verb, pieces) == Some((chain, handler))
    ensures Dispatch(table, variant, svc, req, pieces) == RunChain(chain, handler, variant, svc, req)
  {
  }

  /** The pieces of `/api/user/<rest>` for a single piece `rest`. */
  lemma UserPathPieces(path: string, rest: string)
    requires '/' !in rest && path == UserApi + rest
    ensures Pieces(path) == Some(["api", "user", rest])
  {
    assert path == "/" + "api" + "/" + "user" + "/" + rest;
    PiecesOfThree(path, "api", "user", rest);
  }

  /** The pieces of `/api/user/<a>/<b>` for two pieces. */
  lemma UserPathPieces2(path: string, a: string, b: string)
    requires '/' !in a && '/' !in b && path == UserApi + a + "/" + b
    ensures Pieces(path) == Some(["api", "user", a, b])
  {
    assert path == "/" + "api" + "/" + "user" + "/" + a + "/" + b;
    PiecesOfFour(path, "api", "user", a, b);
  }

  /**
   * A request under `/api/user` whose further pieces neither start nor end
   * empty is dispatched on the user table with exactly those pieces.
   */
  lemma ServedByUserTable(variant: AuthVariant, svc: Services, req: Request, pieces: seq<string>)
    requires Pieces(req.path) == Some(["api", "user"] + pieces)
    requires |pieces| >= 1 && pieces[0] != "" && pieces[|pieces| - 1] != ""
    ensures Serve(variant, svc, req) == Dispatch(UserRoutes, variant, svc, req, pieces)
  {
    var ps := ["api", "user"] + pieces;
    assert ps[1..] == ["user"] + pieces && ps[1] != "";
    assert Mount("api", ps) == Some(["user"] + pieces);
    assert (["user"] + pieces)[1..] == pieces;
    assert Mount("user", ["user"] + pieces) == Some(pieces);
  }

  /** Every PUT route of the user table runs `checkAuth` first. */
  lemma PutRoutesAuthenticateFirst(k: nat)
    requires k < |UserRoutes| && UserRoutes[k].verb == PUT
    ensures |UserRoutes[k].chain| > 0 && UserRoutes[k].chain[0] == Authenticate
  {
  }

  /** A route whose chain starts with `checkAuth` refuses a request whose bearer token does not verify. */
  lemma UnverifiedTokenRefused(chain: seq<Gate>, handler: string, variant: AuthVariant, svc: Services, req: Request)
    requires |chain| > 0 && chain[0] == Authenticate
    requires svc.verify(BearerToken(req.headers), VerifySecret(svc)).None?
    ensures RunChain(chain, handler, variant, svc, req) == Responded(401, PleaseAuthenticate)
  {
  }

  // ---------------------------------------------------------------- server side, per path

  /** A POST to the path `/api/user/login` runs the `login` handler with no middleware in between. */
  lemma LoginRoute(variant: AuthVariant, svc: Services, req: Request)
    requires req.verb == POST && Pieces(req.path) == Some(["api", "user", "login"])
    ensures Serve(variant, svc, req) == Handled("login", req)
  {
    assert ["api", "user", "login"] == ["api", "user"] + ["login"];
    ServedByUserTable(variant, svc, req, ["login"]);
    RouteFacts.LoginIsOpen();
    DispatchByGuard(UserRoutes, variant, svc, req, ["login"], [], "login");
  }

  /** `POST /api/user/forgot-pass` runs the `forgotPass` handler with no middleware in between. */
  lemma ForgotRoute(variant: AuthVariant, svc: Services, req: Request)
    requires req.verb == POST && Pieces(req.path) == Some(["api", "user", "forgot-pass"])
    ensures Serve(variant, svc, req) == Handled("forgotPass", req)
  {
    assert ["api", "user", "forgot-pass"] == ["api", "user"] + ["forgot-pass"];
    ServedByUserTable(variant, svc, req, ["forgot-pass"]);
    RouteFacts.ForgotPassIsOpen();
    DispatchByGuard(UserRoutes, variant, svc, req, ["forgot-pass"], [], "forgotPass");
  }

  /** The reset route's chain: `verifyForgetToken`, then `resetPass` on the request it passes on. */
  lemma ResetChain(variant: AuthVariant, svc: Services, req: Request)
    ensures var claims := svc.verify(ResetToken(req.headers), VerifySecret(svc));
            RunChain([ResetTokenGate], "resetPass", variant, svc, req) ==
              if claims.Some? then Handled("resetPass", req.(email := claims.value.email))
              else Responded(500, ServerError)
  {
    var out := VerifyForgetToken(svc, req);
    assert Apply(ResetTokenGate, variant, svc, req) == out;
    if out.Next? {
      assert RunChain([ResetTokenGate], "resetPass", variant, svc, req) == RunChain([], "resetPass", variant, svc, out.req);
    }
  }

  /** `POST /api/user/reset` runs `resetPass` exactly when the `token` header verifies; otherwise 500. */
  lemma ResetRoute(variant: AuthVariant, svc: Services, req: Request)
    requires req.verb == POST && Pieces(req.path) == Some(["api", "user", "reset"])
    ensures Serve(variant, svc, req) == RunChain([ResetTokenGate], "resetPass", variant, svc, req)
  {
    assert ["api", "user", "reset"] == ["api", "user"] + ["reset"];
    ServedByUserTable(variant, svc, req, ["reset"]);
    RouteFacts.ResetGuardedByResetTokenOnly();
    DispatchByGuard(UserRoutes, variant, svc, req, ["reset"], [ResetTokenGate], "resetPass");
  }

  /** `PUT /api/user/update-admin/<id>` answers 401 when the bearer token does not verify. */
  lemma UpdateAdminRouteRefuses(variant: AuthVariant, svc: Services, req: Request, id: string)
    requires req.verb == PUT && Pieces(req.path) == Some(["api", "user", "update-admin", id]) && id != ""
    requires svc.verify(BearerToken(req.headers), VerifySecret(svc)).None?
    ensures Serve(variant, svc, req) == Responded(401, PleaseAuthenticate)
  {
    assert ["api", "user", "update-admin", id] == ["api", "user"] + ["update-admin", id];
    ServedByUserTable(variant, svc, req, ["update-admin", id]);
    RouteFacts.UpdateAdminGuard(id);
    DispatchByGuard(UserRoutes, variant, svc, req, ["update-admin", id], [Authenticate, SuperAdminOnly], "updateOtherAdmin");
    UnverifiedTokenRefused([Authenticate, SuperAdminOnly], "updateOtherAdmin", variant, svc, req);
  }

  /** `PUT /api/user/<id>` answers 401 when the bearer token does not verify, whichever route it meets. */
  lemma UpdateUserRouteRefuses(variant: AuthVariant, svc: Services, req: Request, id: string)
    requires req.verb == PUT && Pieces(req.path) == Some(["api", "user", id]) && id != ""
    requires svc.verify(BearerToken(req.headers), VerifySecret(svc)).None?
    ensures Serve(variant, svc, req) == Responded(401, PleaseAuthenticate)
  {
    assert ["api", "user", id] == ["api", "user"] + [id];
    ServedByUserTable(variant, svc, req, [id]);
    PutOnePieceRefused(variant, svc, req, [id]);
  }

  /** A PUT with one non-empty piece meets a route of the user table, and every such route runs `checkAuth` first. */
  lemma PutOnePieceRefused(variant: AuthVariant, svc: Services, req: Request, pieces: seq<string>)
    requires req.verb == PUT && |pieces| == 1 && pieces[0] != ""
    requires svc.verify(BearerToken(req.headers), VerifySecret(svc)).None?
    ensures Dispatch(UserRoutes, variant, svc, req, pieces) == Responded(401, PleaseAuthenticate)
  {
    assert PathMatches(UserRoutes[16].pattern, pieces);
    assert RouteMatches(UserRoutes[16], PUT, pieces);
    var k := FirstMatch(UserRoutes, PUT, pieces).value;
    PutRoutesAuthenticateFirst(k);
    UnverifiedTokenRefused(UserRoutes[k].chain, UserRoutes[k].handler, variant, svc, req);
  }

  /** A doubled '/' leaves an empty piece: the pieces of `/api//user/login` and of `/api/user//`. */
  lemma DoubledSlashPaths(login: string, profile: string)
    requires login == "/api//user/login" && profile == "/api/user//"
    ensures Pieces(login) == Some(["api", "", "user", "login"])
    ensures Pieces(profile) == Some(["api", "user", "", ""])
  {
    assert login == "/" + "api" + "/" + "" + "/" + "user" + "/" + "login";
    PiecesOfFour(login, "api", "", "user", "login");
    assert profile == "/" + "api" + "/" + "user" + "/" + "" + "/" + "";
    PiecesOfFour(profile, "api", "user", "", "");
  }

  /** The `/api` mount swallows one '/' after itself: `POST /api//user/login` still reaches `login`. */
  lemma DoubledSlashAfterMount(variant: AuthVariant, svc: Services, req: Request)
    requires req.verb == POST && Pieces(req.path) == Some(["api", "", "user", "login"])
    ensures Serve(variant, svc, req) == Handled("login", req)
  {
    assert Mount("api", ["api", "", "user", "login"]) == Some(["user", "login"]);
    assert Mount("user", ["user", "login"]) == Some(["login"]);
    assert RoutePieces(["login"]) == ["login"];
    RouteFacts.LoginIsOpen();
    DispatchByGuard(UserRoutes, variant, svc, req, ["login"], [], "login");
  }

  lemma DoubledSlashLogin(variant: AuthVariant, svc: Services, req: Request)
    requires req.verb == POST && req.path == "/api//user/login"
    ensures Serve(variant, svc, req) == Handled("login", req)
  {
    DoubledSlashPaths(req.path, "/api/user//");
    DoubledSlashAfterMount(variant, svc, req);
  }

  /** `GET /api/user//` is `GET /` of the user table: the `/user` mount swallows one '/', the route the other. */
  lemma DoubledTrailingSlashIsProfile(variant: AuthVariant, svc: Services, req: Request)
    requires req.verb == GET && req.path == "/api/user//"
    ensures Serve(variant, svc, req) == RunChain([Authenticate], "profile", variant, svc, req)
  {
    DoubledSlashPaths("/api//user/login", req.path);
    assert Mount("api", ["api", "user", "", ""]) == Some(["user", "", ""]);
    assert Mount("user", ["user", "", ""]) == Some([""]);
    assert RoutePieces([""]) == [];
    RouteFacts.ProfileNeedsOnlyAuth();
    DispatchByGuard(UserRoutes, variant, svc, req, [], [Authenticate], "profile");
  }

  // ---------------------------------------------------------------- pages against the server

  /** A valid login form reaches the `login` handler with no middleware in between. */
  lemma LoginReachesHandler(isEmail: string -> bool, v: LoginValues, variant: AuthVariant, svc: Services)
    requires LoginIssues(isEmail, v) == []
    ensures LoginSubmit(isEmail, v).Some?
    ensures var req := ToServer(LoginSubmit(isEmail, v).value); Serve(variant, svc, req) == Handled("login", req)
  {
    var req := ToServer(LoginSubmit(isEmail, v).value);
    UserPathPieces(req.path, "login");
    LoginRoute(variant, svc, req);
  }

  /** A valid forgot form reaches the `forgotPass` handler with no middleware in between. */
  lemma ForgotReachesHandler(isEmail: string -> bool, email: string, variant: AuthVariant, svc: Services)
    requires ForgotIssues(isEmail, email) == []
    ensures ForgotSubmit(isEmail, email).Some?
    ensures var req := ToServer(ForgotSubmit(isEmail, email).value); Serve(variant, svc, req) == Handled("forgotPass", req)
  {
    var req := ToServer(ForgotSubmit(isEmail, email).value);
    UserPathPieces(req.path, "forgot-pass");
    ForgotRoute(variant, svc, req);
  }

  /**
   * A valid reset form reaches `resetPass` exactly when the query's token
   * verifies, with the token's email on the request; otherwise the answer is
   * 500 "Server Error".
   */
  lemma ResetReachesHandlerIff(token: Option<string>, v: ResetValues, variant: AuthVariant, svc: Services)
    requires Truthy(token) && ResetIssues(v) == []
    ensures ResetSubmit(token, v).ResetForm? && ResetSubmit(token, v).submitted.Some?
    ensures var req := ToServer(ResetSubmit(token, v).submitted.value);
            var claims := svc.verify(token.value, VerifySecret(svc));
            Serve(variant, svc, req) ==
              if claims.Some? then Handled("resetPass", req.(email := claims.value.email))
              else Responded(500, ServerError)
  {
    var req := ToServer(ResetSubmit(token, v).submitted.value);
    assert ResetToken(req.headers) == token.value;
    UserPathPieces(req.path, "reset");
    ResetRoute(variant, svc, req);
    ResetChain(variant, svc, req);
  }

  /** The path of the admin update page's save. */
  lemma AdminSavePath(isEmail: string -> bool, id: Option<string>, v: ProfileValues, page: Cascade.Page)
    requires ProfileIssues(isEmail, v) == [] && '/' !in Pages.Param(id)
    ensures AdminUpdateSave(isEmail, id, v, page).Some?
    ensures Pieces(AdminUpdateSave(isEmail, id, v, page).value.path) == Some(["api", "user", "update-admin", Pages.Param(id)])
  {
    var path := AdminUpdateSave(isEmail, id, v, page).value.path;
    UserPathPieces2(path, "update-admin", Pages.Param(id));
  }

  /**
   * The admin update page sends no Authorization header, so its save verifies
   * the token "undefined"; when that does not verify, `checkAuth` answers 401
   * before any handler, in either `checkAuth` variant.
   */
  lemma AdminSaveRefusedWithoutToken(isEmail: string -> bool, id: Option<string>, v: ProfileValues, page: Cascade.Page,
                                     variant: AuthVariant, svc: Services)
    requires ProfileIssues(isEmail, v) == []
    requires Pages.Param(id) != "" && '/' !in Pages.Param(id)
    requires svc.verify("undefined", VerifySecret(svc)).None?
    ensures AdminUpdateSave(isEmail, id, v, page).Some?
    ensures Serve(variant, svc, ToServer(AdminUpdateSave(isEmail, id, v, page).value)) == Responded(401, PleaseAuthenticate)
  {
    var req := ToServer(AdminUpdateSave(isEmail, id, v, page).value);
    assert BearerToken(req.headers) == "undefined";
    AdminSavePath(isEmail, id, v, page);
    UpdateAdminRouteRefuses(variant, svc, req, Pages.Param(id));
  }

  /** The same for the user update page, whose save goes to `/api/user/<id>`. */
  lemma UserSaveRefusedWithoutToken(isEmail: string -> bool, id: Option<string>, v: ProfileValues, page: Cascade.Page,
                                    variant: AuthVariant, svc: Services)
    requires ProfileIssues(isEmail, v) == []
    requires Pages.Param(id) != "" && '/' !in Pages.Param(id)
    requires svc.verify("undefined", VerifySecret(svc)).None?
    ensures UserUpdateSave(isEmail, id, v, page).Some?
    ensures Serve(variant, svc, ToServer(UserUpdateSave(isEmail, id, v, page).value)) == Responded(401, PleaseAuthenticate)
  {
    var req := ToServer(UserUpdateSave(isEmail, id, v, page).value);
    assert BearerToken(req.headers) == "undefined";
    UserPathPieces(req.path, Pages.Param(id));
    UpdateUserRouteRefuses(variant, svc, req, Pages.Param(id));
  }

  /** The same for the customer update page, whose save also goes to `/api/user/<id>`. */
  lemma CustomerSaveRefusedWithoutToken(isEmail: string -> bool, id: Option<string>, v: ProfileValues,
                                        variant: AuthVariant, svc: Services)
    requires ProfileIssues(isEmail, v) == []
    requires Pages.Param(id) != "" && '/' !in Pages.Param(id)
    requires svc.verify("undefined", VerifySecret(svc)).None?
    ensures CustomerUpdateSave(isEmail, id, v).Some?
    ensures Serve(variant, svc, ToServer(CustomerUpdateSave(isEmail, id, v).value)) == Responded(401, PleaseAuthenticate)
  {
    var req := ToServer(CustomerUpdateSave(isEmail, id, v).value);
    assert BearerToken(req.headers) == "undefined";
    UserPathPieces(req.path, Pages.Param(id));
    UpdateUserRouteRefuses(variant, svc, req, Pages.Param(id));
  }

  /** No route of the user table matches `PUT /api/user/update-permissions/<id>`: a 404 whatever the token. */
  lemma UpdatePermissionsRouteNotFound(variant: AuthVariant, svc: Services, req: Request, id: string)
    requires req.verb == PUT && Pieces(req.path) == Some(["api", "user", "update-permissions", id]) && id != ""
    ensures Serve(variant, svc, req) == NotFound
  {
    assert ["api", "user", "update-permissions", id] == ["api", "user"] + ["update-permissions", id];
    ServedByUserTable(variant, svc, req, ["update-permissions", id]);
    RouteFacts.NoUpdatePermissionsRoute(id);
  }

  /** The path of the permissions page's save. */
  lemma PermissionsSavePath(id: Option<string>, page: Cascade.Page)
    requires '/' !in Pages.Param(id)
    ensures Pieces(PermissionsSave(id, page).path) == Some(["api", "user", "update-permissions", Pages.Param(id)])
  {
    var path := PermissionsSave(id, page).path;
    UserPathPieces2(path, "update-permissions", Pages.Param(id));
  }

  /**
   * The permissions page puts to `/api/user/update-permissions/<id>`, a path
   * no route of the user table matches: the save is a 404 whatever the token.
   */
  lemma PermissionsSaveNotFound(id: Option<string>, page: Cascade.Page, variant: AuthVariant, svc: Services)
    requires Pages.Param(id) != "" && '/' !in Pages.Param(id)
    ensures Serve(variant, svc, ToServer(PermissionsSave(id, page))) == NotFound
  {
    var req := ToServer(PermissionsSave(id, page));
    PermissionsSavePath(id, page);
    UpdatePermissionsRouteNotFound(variant, svc, req, Pages.Param(id));
  }

  // ---------------------------------------------------------------- the signup body against the controller

  /**
   * The body `axios.post(url, data)` delivers to `signup`: the form's strings
   * as strings, the phone as the number `valueAsNumber` produced (NaN is sent
   * as `null`), and no gender.
   */
  function PostedSignup(v: SignupValues): Accounts.SignupInput
  {
    Accounts.SignupInput(
      Accounts.Str(v.fullName), Accounts.Str(v.email), Accounts.Str(v.password),
      match v.phone
      case Number(n) => Accounts.Num(n)
      case NotANumber => Accounts.Null,
      Accounts.Absent)
  }

  /**
   * No body the signup form posts signs anyone up: the phone is not a string,
   * so the controller answers 406 and the store is unchanged; once the email
   * and password checks pass, the message is validator's type error.
   */
  lemma SignupFormNeverSignsUp(build: Accounts.Build, lib: Accounts.Library, store: Accounts.Store,
                               v: SignupValues, salt: string, newId: string)
    ensures var r := UserController.Signup(build, lib, store, PostedSignup(v), salt, newId);
            r.0.status == 406 && r.1 == store
    ensures var r := UserController.Signup(build, lib, store, PostedSignup(v), salt, newId);
            lib.isEmail(v.email) && Accounts.FindByEmail(store, v.email).None? && lib.isStrongPassword(v.password) ==>
              r.0.body == UserController.ErrorBody(
                if v.phone.Number? then "Expected a string but received a number"
                else "Expected a string but received a null", None)
  {
  }

  // ---------------------------------------------------------------- replies on the page

  /** The error reply a gate's `res.status(s).json({error})` produces. */
  function GateReply(f: Final): (r: Reply)
    requires f.Responded?
    ensures r.status == f.status && r.field.None? && r.error == Some(f.error)
  {
    Reply(f.status, None, Some(f.error))
  }

  /** The reply a controller response produces: an error body carries `error` and, when present, `field`. */
  function ControllerReply(resp: UserController.Response): (r: Reply)
    ensures r.status == resp.status
    ensures resp.body.ErrorBody? <==> r.error.Some?
    ensures resp.body.ErrorBody? ==> r.error == Some(resp.body.error) && r.field == resp.body.field
    ensures !resp.body.ErrorBody? ==> r.field.None?
  {
    match resp.body
    case ErrorBody(e, f) => Reply(resp.status, f, Some(e))
    case _ => Reply(resp.status, None, None)
  }

  /** Every refusal by a chain of gates is a 401 or a 500. */
  lemma {:induction false} ChainRefusalStatuses(chain: seq<Gate>, handler: string, variant: AuthVariant, svc: Services, req: Request)
    ensures RunChain(chain, handler, variant, svc, req).Responded? ==>
              RunChain(chain, handler, variant, svc, req).status in {401, 500}
    decreases |chain|
  {
    if chain != [] {
      match Apply(chain[0], variant, svc, req)
      case Respond(s, e) =>
      case Next(req') => ChainRefusalStatuses(chain[1..], handler, variant, svc, req');
    }
  }

  /**
   * Every refusal the router sends before a handler runs is a 401 or a 500.
   * The request is one whose body the JSON parser has already accepted; its
   * 400 and 413 answers come before routing and are not part of `Serve`.
   */
  lemma ServeRefusalStatuses(variant: AuthVariant, svc: Services, req: Request)
    ensures Serve(variant, svc, req).Responded? ==> Serve(variant, svc, req).status in {401, 500}
  {
    if ps :| Pieces(req.path) == Some(ps) {
      if api :| Mount("api", ps) == Some(api) {
        if rest :| Mount("user", api) == Some(rest) {
          match FirstMatch(UserRoutes, req.verb, RoutePieces(rest))
          case None =>
          case Some(k) => ChainRefusalStatuses(UserRoutes[k].chain, UserRoutes[k].handler, variant, svc, req);
        } else if rest :| Mount("product", api) == Some(rest) {
          match FirstMatch(ProductRoutes, req.verb, RoutePieces(rest))
          case None =>
          case Some(k) => ChainRefusalStatuses(ProductRoutes[k].chain, ProductRoutes[k].handler, variant, svc, req);
        }
      }
    }
  }

  /**
   * A refusal by the middlewares never marks a form field: the pages attribute
   * 406 and the update form 422, and the gates only send 401 and 500.
   */
  lemma GateRefusalsNeverAttributed(variant: AuthVariant, svc: Services, req: Request)
    requires Serve(variant, svc, req).Responded?
    ensures Attribute(PageStatus, GateReply(Serve(variant, svc, req))) == NoFieldError
    ensures Attribute(UpdateFormStatus, GateReply(Serve(variant, svc, req))) == NoFieldError
  {
    ServeRefusalStatuses(variant, svc, req);
  }

  /**
   * The controller's 406 replies carry no `field`, so a page that attributes
   * them calls `setError(undefined, ...)`; the update form, which attributes
   * 422, never attributes a controller reply at all.
   */
  lemma ControllerErrorsHaveNoField(store: Accounts.Store, user: Option<ReqUser>, patch: UserController.Patch, dup: string)
    ensures var resp := UserController.Update(store, user, patch, dup).0;
            resp.status == 406 ==> Attribute(PageStatus, ControllerReply(resp)) == SetError(None, Some(resp.body.error))
    ensures Attribute(UpdateFormStatus, ControllerReply(UserController.Update(store, user, patch, dup).0)) == NoFieldError
    ensures Attribute(UpdateFormStatus, ControllerReply(UserController.Profile(store, user))) == NoFieldError
  {
  }

  /**
   * The login page against the login handler: a successful login puts the
   * returned body in the session as the signed-in user; a failed one leaves
   * the session alone and files the error under no field.
   */
  lemma LoginPageSession(s: AuthContext.State<UserController.Body>, build: Accounts.Build, lib: Accounts.Library,
                         cfg: Accounts.Config, store: Accounts.Store, email: string, password: string)
    ensures var resp := UserController.Login(build, lib, cfg, store, Accounts.Str(email), Accounts.Str(password));
            var out := LoginOutcome(s, resp.status, Some(resp.body), ControllerReply(resp));
            (resp.status == 200 ==> out.0.user == Some(resp.body) && out.0.others == s.others && out.1 == NoFieldError) &&
            (resp.status != 200 ==> out.0 == s && out.1 == SetError(None, Some(resp.body.error)))
  {
  }

  // ---------------------------------------------------------------- who sees a page and who passes a gate

  /** The request a gate sees for a signed-in user with the given role. */
  function AsUser(req: Request, role: Option<string>): (r: Request)
    ensures r.user.Some? && r.user.value.role == role
  {
    req.(user := Some(ReqUser(Some("id"), role, None)))
  }

  /**
   * The user-permissions and user update pages show themselves only to the
   * role "superadmin", which every role gate of the server refuses: no role
   * both sees those pages and passes `isSuperAdmin` or `isAdminOrSuperAdmin`.
   */
  lemma LowercasePagesAndGatesDisjoint(req: Request, role: Option<string>)
    ensures ShownToLowercaseSuperadmin(role) ==> IsSuperAdmin(AsUser(req, role)) == Respond(401, Unauthorized)
    ensures ShownToLowercaseSuperadmin(role) ==> IsAdminOrSuperAdmin(AsUser(req, role)) == Respond(401, Unauthorized)
    ensures IsSuperAdmin(AsUser(req, role)).Next? ==> !ShownToLowercaseSuperadmin(role)
  {
    if ShownToLowercaseSuperadmin(role) {
      MiddlewareFacts.OtherRoleSpellingsRefused(AsUser(req, role));
    }
  }

  /** The admin and customer update pages, once a user is fetched, show themselves exactly to the roles `isSuperAdmin` passes. */
  lemma SuperAdminPagesMatchGate(req: Request, role: Option<string>)
    ensures ShownToSuperAdmin(Some(role)) <==> IsSuperAdmin(AsUser(req, role)).Next?
  {
  }
}

=== FILE: findings.dfy ===
/**
 * The role-gate and reset-form discrepancies, each shown as written and with
 * the correction proved to behave as intended, and the comparison of the
 * secret the models sign with against the one the middlewares verify with.
 */
module Findings {
  import opened Base
  import opened Middleware
  import opened Router
  import opened Routes
  import RouteFacts
  import MiddlewareFacts
  import EndToEnd
  import Accounts
  import opened Schemas
  import SchemaFacts

  // ---------------------------------------------------------------- checkAuth attaches only the id

  /** `GET /api/user/all` runs `checkAuth`, then `isSuperAdmin`, then `showAll`. */
  lemma ShowAllRoute(variant: AuthVariant, svc: Services, req: Request)
    requires req.verb == GET && Pieces(req.path) == Some(["api", "user", "all"])
    ensures Serve(variant, svc, req) == RunChain([Authenticate, SuperAdminOnly], "showAll", variant, svc, req)
  {
    assert ["api", "user", "all"] == ["api", "user"] + ["all"];
    EndToEnd.ServedByUserTable(variant, svc, req, ["all"]);
    RouteFacts.ListAllWinsOverShowOne();
    EndToEnd.DispatchByGuard(UserRoutes, variant, svc, req, ["all"], [Authenticate, SuperAdminOnly], "showAll");
  }

  /**
   * As written: `checkAuth` puts only `_id` on the request, so `isSuperAdmin`
   * reads an undefined role and `GET /api/user/all` answers 401 to every
   * caller, a super admin with a valid token included.
   */
  lemma AsWrittenShowAllRefused(svc: Services, req: Request)
    requires req.verb == GET && req.path == "/api/user/all"
    ensures Serve(AttachIdOnly, svc, req).Responded? && Serve(AttachIdOnly, svc, req).status == 401
  {
    EndToEnd.UserPathPieces(req.path, "all");
    ShowAllRoute(AttachIdOnly, svc, req);
    MiddlewareFacts.AuthThenRoleGateRefuses(SuperAdminOnly, svc, req, "showAll");
  }

  /** With the account attached, the chain `checkAuth` then `isSuperAdmin` passes exactly a verified super admin. */
  lemma CorrectedSuperAdminChain(svc: Services, req: Request, handler: string)
    ensures var claims := svc.verify(BearerToken(req.headers), VerifySecret(svc));
            RunChain([Authenticate, SuperAdminOnly], handler, AttachAccount, svc, req).Handled? <==>
              claims.Some? && svc.findById(claims.value).Some? && svc.findById(claims.value).value.role == Some("Super Admin")
    ensures var claims := svc.verify(BearerToken(req.headers), VerifySecret(svc));
            claims.Some? && svc.findById(claims.value).Some? && svc.findById(claims.value).value.role != Some("Super Admin") ==>
              RunChain([Authenticate, SuperAdminOnly], handler, AttachAccount, svc, req) == Responded(401, Unauthorized)
  {
    var first := CheckAuth(AttachAccount, svc, req);
    if first.Next? {
      assert [Authenticate, SuperAdminOnly][1..] == [SuperAdminOnly];
      var second := IsSuperAdmin(first.req);
      assert Apply(SuperAdminOnly, AttachAccount, svc, first.req) == second;
      if second.Next? {
        assert RunChain([SuperAdminOnly], handler, AttachAccount, svc, first.req) == RunChain([], handler, AttachAccount, svc, first.req);
      }
    }
  }

  /**
   * Corrected: when `checkAuth` attaches the whole account, `GET /api/user/all`
   * reaches `showAll` exactly for a token that verifies to a stored super admin.
   */
  lemma CorrectedShowAllIff(svc: Services, req: Request)
    requires req.verb == GET && req.path == "/api/user/all"
    ensures var claims := svc.verify(BearerToken(req.headers), VerifySecret(svc));
            Serve(AttachAccount, svc, req).Handled? <==>
              claims.Some? && svc.findById(claims.value).Some? && svc.findById(claims.value).value.role == Some("Super Admin")
  {
    EndToEnd.UserPathPieces(req.path, "all");
    ShowAllRoute(AttachAccount, svc, req);
    CorrectedSuperAdminChain(svc, req, "showAll");
  }

  // ---------------------------------------------------------------- the reset page's mismatch message

  /** The reset schema with its refinement reported on `confirmPassword`, where the page shows it. */
  function CorrectedResetIssues(v: ResetValues): seq<Issue>
  {
    ResetFieldIssues("password", v.password, EnterPassword) +
    ResetFieldIssues("confirmPassword", v.confirmPassword, ConfirmPassword) +
    (if v.password == v.confirmPassword then [] else [Issue(["confirmPassword"], PasswordsMustMatch)])
  }

  /** The correction moves the mismatch message and nothing else: both schemas accept the same values. */
  lemma CorrectedResetAcceptsSame(v: ResetValues)
    ensures CorrectedResetIssues(v) == [] <==> ResetIssues(v) == []
    ensures |CorrectedResetIssues(v)| == |ResetIssues(v)|
  {
  }

  /**
   * Corrected: two well-sized passwords that differ show "Passwords must
   * match" under the confirm field; as written the field is drawn red with
   * no message under it.
   */
  lemma CorrectedMismatchShown(v: ResetValues)
    requires 8 <= |v.password| <= 32 && 8 <= |v.confirmPassword| <= 32 && v.password != v.confirmPassword
    ensures FieldError(CorrectedResetIssues(v), "confirmPassword") == Some(PasswordsMustMatch)
    ensures Flagged(CorrectedResetIssues(v), "confirmPassword")
    ensures Flagged(ResetIssues(v), "confirmPassword") && FieldError(ResetIssues(v), "confirmPassword") == None
  {
    SchemaFacts.MismatchFiledUnderNestedPath(v);
    assert CorrectedResetIssues(v) == [Issue(["confirmPassword"], PasswordsMustMatch)] by {
      SchemaFacts.ResetValidIff(v.(confirmPassword := v.password));
      assert ResetFieldIssues("password", v.password, EnterPassword) == [];
      assert ResetFieldIssues("confirmPassword", v.confirmPassword, ConfirmPassword) == [];
    }
    assert JoinPath(["confirmPassword"]) == "confirmPassword";
  }

  // ---------------------------------------------------------------- the fallback secret

  /**
   * With JWT_SECRET unset, the models sign tokens with their fallback secret
   * while both middlewares verify with the text "undefined"; with it set, the
   * two agree.
   */
  lemma SecretsAgreeOnlyWhenSet(cfg: Accounts.Config, svc: Services)
    requires cfg.jwtSecret == svc.jwtSecret
    ensures cfg.jwtSecret.None? ==> Accounts.SigningSecret(cfg) != VerifySecret(svc)
    ensures Truthy(cfg.jwtSecret) ==> Accounts.SigningSecret(cfg) == VerifySecret(svc)
  {
    if cfg.jwtSecret.None? {
      assert Accounts.SigningSecret(cfg)[1] != VerifySecret(svc)[1];
    }
  }
}

=== FILE: key_filter.dfy ===
/** The key filter of the number inputs for phone numbers. */
module KeyFilter {
  /** The keys whose default action is prevented. */
  const BlockedKeys: seq<string> := ["e", "E", "+", "-"]

  /** `blockInvalidChar`: whether `preventDefault` is called for a key press with this `key`. */
  predicate Blocks(key: string)
  {
    key in BlockedKeys
  }
}

/** Which keys the filter lets through. */
module KeyFilterFacts {
  import opened KeyFilter

  /** Exactly the exponent letters and the two signs are blocked. */
  lemma BlocksIff(key: string)
    ensures Blocks(key) <==> key == "e" || key == "E" || key == "+" || key == "-"
  {
  }

  /** Keys with longer names (Backspace, ArrowLeft, Tab) are never blocked. */
  lemma NamedKeysPass(key: string)
    requires |key| != 1
    ensures !Blocks(key)
  {
  }

  /** Digits and the decimal point are never blocked, so fractional numbers can be typed. */
  lemma DigitsAndPointPass(c: char)
    requires '0' <= c <= '9' || c == '.'
    ensures !Blocks([c])
  {
    assert [c] != "e" && [c] != "E" && [c] != "+" && [c] != "-" by {
      assert [c][0] == c;
    }
  }
}

=== FILE: middleware.dfy ===
/**
 * The Express middlewares of the server: the bearer-token gate `checkAuth`,
 * the reset-token gate `verifyForgetToken`, the role gates and the capability
 * gate. Each one either calls `next` with a (possibly updated) request or
 * sends a response; it is modelled as a pure function returning exactly one
 * of the two.
 */
module Middleware {
  import opened Base

  datatype Method = GET | HEAD | POST | PUT | DELETE | PATCH

  /** What a gate can find on `req.user`; a missing property is None. */
  datatype ReqUser = ReqUser(id: Option<string>, role: Option<string>, permissions: Option<seq<string>>)

  /**
   * A request as the middlewares see it. Header names are lower case, as Node
   * delivers them; `user` is `req.user` and `email` is `req.email`.
   */
  datatype Request = Request(
    verb: Method,
    path: string,
    headers: map<string, string>,
    user: Option<ReqUser>,
    email: Option<string>)

  /** The payload a token verifies to (only the claims the server reads). */
  datatype Claims = Claims(id: Option<string>, email: Option<string>)

  /** The user document `User.findById` returns, as far as the gates could read it. */
  datatype UserDoc = UserDoc(id: string, role: Option<string>, permissions: Option<seq<string>>)

  /**
   * The collaborators whose code is not part of this model: the configured
   * secret, `jwt.verify` (None when it throws) and `User.findById` (None when
   * it finds nothing or throws).
   */
  datatype Services = Services(
    jwtSecret: Option<string>,
    verify: (string, string) -> Option<Claims>,
    findById: Claims -> Option<UserDoc>)

  /** A middleware either calls `next` with the request or ends it with a status and error text. */
  datatype Outcome = Next(req: Request) | Respond(status: int, error: string)

  /** How `checkAuth` fills `req.user`: as written (only `_id`), or with the whole account. */
  datatype AuthVariant = AttachIdOnly | AttachAccount

  const BearerPrefix := "Bearer "
  const PleaseAuthenticate := "Please authenticate"
  const Unauthorized := "Unauthorized"
  const NoPermission := "You dont have permission"
  const ServerError := "Server Error"

  // ---------------------------------------------------------------- strings

  predicate OccursAt(s: string, pat: string, k: int)
  {
    0 <= k && k + |pat| <= |s| && s[k..k + |pat|] == pat
  }

  /** The first position at or after `from` where `pat` occurs in `s`. */
  function IndexFrom(s: string, pat: string, from: nat): (r: Option<nat>)
    requires from <= |s| + 1
    ensures r.Some? ==> from <= r.value && OccursAt(s, pat, r.value)
    ensures r.Some? ==> forall k :: from <= k < r.value ==> !OccursAt(s, pat, k)
    ensures r.None? ==> forall k :: from <= k ==> !OccursAt(s, pat, k)
    decreases |s| + 1 - from
  {
    if from + |pat| > |s| then None
    else if OccursAt(s, pat, from) then Some(from)
    else IndexFrom(s, pat, from + 1)
  }

  /** JavaScript `s.indexOf(pat)`. */
  function IndexOf(s: string, pat: string): (r: Option<nat>)
    ensures r.Some? ==> OccursAt(s, pat, r.value)
    ensures r.Some? ==> forall k :: 0 <= k < r.value ==> !OccursAt(s, pat, k)
    ensures r.None? ==> forall k :: !OccursAt(s, pat, k)
  {
    IndexFrom(s, pat, 0)
  }

  /** JavaScript `s.replace(pat, rep)` with a string pattern: only the first occurrence is replaced. */
  function ReplaceFirst(s: string, pat: string, rep: string): (r: string)
  {
    match IndexOf(s, pat)
    case None => s
    case Some(i) => s[..i] + rep + s[i + |pat|..]
  }

  // ---------------------------------------------------------------- tokens

  /** The token `checkAuth` verifies: `String(req.header("Authorization")?.replace("Bearer ", ""))`. */
  function BearerToken(headers: map<string, string>): string
  {
    if "authorization" in headers then ReplaceFirst(headers["authorization"], BearerPrefix, "")
    else StringOf(None)
  }

  /** The secret both gates verify with: `String(process.env.JWT_SECRET)`. */
  function VerifySecret(svc: Services): string
  {
    StringOf(svc.jwtSecret)
  }

  /** The header `verifyForgetToken` verifies: `String(req.headers.token)`. */
  function ResetToken(headers: map<string, string>): string
  {
    StringOf(if "token" in headers then Some(headers["token"]) else None)
  }

  // ---------------------------------------------------------------- gates

  /** `checkAuth`: verify the bearer token, look the account up, attach it, call next. */
  function CheckAuth(variant: AuthVariant, svc: Services, req: Request): (r: Outcome)
    ensures r.Next? <==>
              svc.verify(BearerToken(req.headers), VerifySecret(svc)).Some? &&
              svc.findById(svc.verify(BearerToken(req.headers), VerifySecret(svc)).value).Some?
    ensures r.Respond? ==> r == Respond(401, PleaseAuthenticate)
    ensures r.Next? ==> r.req == req.(user := r.req.user) && r.req.user.Some?
    ensures r.Next? && variant == AttachIdOnly ==>
              r.req.user.value.role.None? && r.req.user.value.permissions.None? && r.req.user.value.id.Some?
  {
    match svc.verify(BearerToken(req.headers), VerifySecret(svc))
    case None => Respond(401, PleaseAuthenticate)
    case Some(decoded) =>
      match svc.findById(decoded)
      case None => Respond(401, PleaseAuthenticate)
      case Some(doc) =>
        match variant
        case AttachIdOnly => Next(req.(user := Some(ReqUser(Some(doc.id), None, None))))
        case AttachAccount => Next(req.(user := Some(ReqUser(Some(doc.id), doc.role, doc.permissions))))
  }

  /** The role test shared by `isAdmin`, `isSuperAdmin` and `checkRole(r)`: `req.user.role !== r` refuses. */
  function RequireRole(role: string, req: Request): (r: Outcome)
    ensures r.Next? <==> req.user.Some? && req.user.value.role == Some(role)
    ensures r.Next? ==> r.req == req
    ensures req.user.None? ==> r == Respond(401, PleaseAuthenticate)
    ensures req.user.Some? && !r.Next? ==> r == Respond(401, Unauthorized)
  {
    match req.user
    case None => Respond(401, PleaseAuthenticate)
    case Some(u) => if u.role != Some(role) then Respond(401, Unauthorized) else Next(req)
  }

  function IsAdmin(req: Request): (r: Outcome)
  {
    RequireRole("Admin", req)
  }

  function IsSuperAdmin(req: Request): (r: Outcome)
  {
    RequireRole("Super Admin", req)
  }

  /** `isAdminOrSuperAdmin`: passes when the role is either of the two privileged strings. */
  function IsAdminOrSuperAdmin(req: Request): (r: Outcome)
    ensures r.Next? <==> req.user.Some? && req.user.value.role in {Some("Admin"), Some("Super Admin")}
    ensures r.Next? ==> r.req == req
    ensures req.user.None? ==> r == Respond(401, PleaseAuthenticate)
    ensures req.user.Some? && !r.Next? ==> r == Respond(401, Unauthorized)
  {
    match req.user
    case None => Respond(401, PleaseAuthenticate)
    case Some(u) =>
      if u.role == Some("Admin") || u.role == Some("Super Admin") then Next(req)
      else Respond(401, Unauthorized)
  }

  /** `checkPermission(p)`: passes when `p` is one of `req.user.permissions`. */
  function CheckPermission(permission: string, req: Request): (r: Outcome)
    ensures r.Next? <==>
              req.user.Some? && req.user.value.permissions.Some? && permission in req.user.value.permissions.value
    ensures r.Next? ==> r.req == req
    ensures (req.user.None? || req.user.value.permissions.None?) ==> r == Respond(500, ServerError)
    ensures req.user.Some? && req.user.value.permissions.Some? && !r.Next? ==> r == Respond(401, NoPermission)
  {
    match req.user
    case None => Respond(500, ServerError)
    case Some(u) =>
      match u.permissions
      case None => Respond(500, ServerError)
      case Some(ps) => if permission in ps then Next(req) else Respond(401, NoPermission)
  }

  /** `verifyForgetToken`: verify the `token` header and copy its `email` claim to `req.email`. */
  function VerifyForgetToken(svc: Services, req: Request): (r: Outcome)
    ensures r.Next? <==> svc.verify(ResetToken(req.headers), VerifySecret(svc)).Some?
    ensures r.Next? ==> r.req == req.(email := svc.verify(ResetToken(req.headers), VerifySecret(svc)).value.email)
    ensures r.Respond? ==> r == Respond(500, ServerError)
  {
    match svc.verify(ResetToken(req.headers), VerifySecret(svc))
    case None => Respond(500, ServerError)
    case Some(claims) => Next(req.(email := claims.email))
  }

  // ---------------------------------------------------------------- chains

  /** A middleware as it appears in a route's argument list. */
  datatype Gate =
    | Authenticate                 // checkAuth
    | AdminOnly                    // isAdmin
    | SuperAdminOnly               // isSuperAdmin
    | AdminOrSuperAdmin            // isAdminOrSuperAdmin
    | HasRole(role: string)        // checkRole(role)
    | HasPermission(perm: string)  // checkPermission(perm)
    | ResetTokenGate               // verifyForgetToken

  /** A gate that only looks at `req.user.role`. */
  predicate IsRoleGate(g: Gate)
  {
    g.AdminOnly? || g.SuperAdminOnly? || g.AdminOrSuperAdmin? || g.HasRole?
  }

  function Apply(g: Gate, variant: AuthVariant, svc: Services, req: Request): Outcome
  {
    match g
    case Authenticate => CheckAuth(variant, svc, req)
    case AdminOnly => IsAdmin(req)
    case SuperAdminOnly => IsSuperAdmin(req)
    case AdminOrSuperAdmin => IsAdminOrSuperAdmin(req)
    case HasRole(role) => RequireRole(role, req)
    case HasPermission(p) => CheckPermission(p, req)
    case ResetTokenGate => VerifyForgetToken(svc, req)
  }

  /** How a request ends: its handler runs on the request the gates passed on, or a gate responds. */
  datatype Final = Handled(handler: string, req: Request) | Responded(status: int, error: string) | NotFound

  /**
   * Reference definition, a left fold: the request gate `i` of the chain
   * receives, or None when a gate before it responded.
   */
  function Reaching(chain: seq<Gate>, variant: AuthVariant, svc: Services, req: Request, i: nat): Option<Request>
    requires i <= |chain|
    decreases i
  {
    if i == 0 then Some(req)
    else
      match Reaching(chain, variant, svc, req, i - 1)
      case None => None
      case Some(q) =>
        match Apply(chain[i - 1], variant, svc, q)
        case Next(q') => Some(q')
        case Respond(_, _) => None
  }

  /** Gate `i` of the chain is reached and responds. */
  predicate RefusesAt(chain: seq<Gate>, variant: AuthVariant, svc: Services, req: Request, i: nat, status: int, error: string)
    requires i < |chain|
  {
    Reaching(chain, variant, svc, req, i).Some? &&
    Apply(chain[i], variant, svc, Reaching(chain, variant, svc, req, i).value) == Respond(status, error)
  }

  /**
   * Run the gates of a route in order; the first one that responds ends the
   * request. The handler runs exactly when every gate in order calls next,
   * on the request the last gate passed on; otherwise the answer is that of
   * the first gate that responds.
   */
  function RunChain(chain: seq<Gate>, handler: string, variant: AuthVariant, svc: Services, req: Request): (r: Final)
    ensures !r.NotFound?
    ensures r.Handled? <==> Reaching(chain, variant, svc, req, |chain|).Some?
    ensures r.Handled? ==> r == Handled(handler, Reaching(chain, variant, svc, req, |chain|).value)
    ensures r.Responded? ==> exists i :: 0 <= i < |chain| && RefusesAt(chain, variant, svc, req, i, r.status, r.error)
    decreases |chain|
  {
    if chain == [] then Handled(handler, req)
    else
      match Apply(chain[0], variant, svc, req)
      case Respond(s, e) =>
        FirstGateResponds(chain, variant, svc, req, s, e);
        Responded(s, e)
      case Next(req') =>
        var r := RunChain(chain[1..], handler, variant, svc, req');
        FirstGatePasses(chain, handler, variant, svc, req, req', r);
        r
  }

  /** When the first gate responds, that is a refusal at gate 0 and no later gate is reached. */
  lemma FirstGateResponds(chain: seq<Gate>, variant: AuthVariant, svc: Services, req: Request, s: int, e: string)
    requires chain != [] && Apply(chain[0], variant, svc, req) == Respond(s, e)
    ensures RefusesAt(chain, variant, svc, req, 0, s, e)
    ensures Reaching(chain, variant, svc, req, |chain|).None?
  {
    ReachingStaysNone(chain, variant, svc, req, 1, |chain|);
  }

  /** When the first gate calls next, the rest of the chain's answer is the whole chain's, read through the fold. */
  lemma FirstGatePasses(chain: seq<Gate>, handler: string, variant: AuthVariant, svc: Services, req: Request, req': Request, r: Final)
    requires chain != [] && Apply(chain[0], variant, svc, req) == Next(req')
    requires r.Handled? <==> Reaching(chain[1..], variant, svc, req', |chain[1..]|).Some?
    requires r.Handled? ==> r == Handled(handler, Reaching(chain[1..], variant, svc, req', |chain[1..]|).value)
    requires r.Responded? ==> exists i :: 0 <= i < |chain[1..]| && RefusesAt(chain[1..], variant, svc, req', i, r.status, r.error)
    ensures r.Handled? <==> Reaching(chain, variant, svc, req, |chain|).Some?
    ensures r.Handled? ==> r == Handled(handler, Reaching(chain, variant, svc, req, |chain|).value)
    ensures r.Responded? ==> exists i :: 0 <= i < |chain| && RefusesAt(chain, variant, svc, req, i, r.status, r.error)
  {
    ReachingShift(chain, variant, svc, req, req', |chain| - 1);
    if r.Responded? {
      var i :| 0 <= i < |chain[1..]| && RefusesAt(chain[1..], variant, svc, req', i, r.status, r.error);
      ReachingShift(chain, variant, svc, req, req', i);
      assert chain[i + 1] == chain[1..][i];
      assert RefusesAt(chain, variant, svc, req, i + 1, r.status, r.error);
    }
  }

  /** Once a gate has responded, no later gate is reached. */
  lemma {:induction false} ReachingStaysNone(chain: seq<Gate>, variant: AuthVariant, svc: Services, req: Request, i: nat, j: nat)
    requires i <= j <= |chain|
    requires Reaching(chain, variant, svc, req, i).None?
    ensures Reaching(chain, variant, svc, req, j).None?
    decreases j - i
  {
    if i < j {
      ReachingStaysNone(chain, variant, svc, req, i + 1, j);
    }
  }

  /** After a first gate that calls next, the fold over the chain is the fold over the rest from the passed request. */
  lemma {:induction false} ReachingShift(chain: seq<Gate>, variant: AuthVariant, svc: Services, req: Request, req': Request, i: nat)
    requires chain != [] && i < |chain|
    requires Apply(chain[0], variant, svc, req) == Next(req')
    ensures Reaching(chain, variant, svc, req, i + 1) == Reaching(chain[1..], variant, svc, req', i)
    decreases i
  {
    if i > 0 {
      ReachingShift(chain, variant, svc, req, req', i - 1);
      assert chain[i] == chain[1..][i - 1];
    }
  }
}

=== FILE: middleware_facts.dfy ===
/** Properties of the gates, each stated over all requests and collaborators. */
module MiddlewareFacts {
  import opened Base
  import opened Middleware

  /** The bearer token: "undefined" without a header, the header itself without "Bearer ", else the prefix cut once. */
  lemma BearerTokenExtraction(headers: map<string, string>, t: string)
    ensures "authorization" !in headers ==> BearerToken(headers) == "undefined"
    ensures "authorization" in headers && IndexOf(headers["authorization"], BearerPrefix).None? ==>
              BearerToken(headers) == headers["authorization"]
    ensures "authorization" in headers && headers["authorization"] == BearerPrefix + t ==>
              BearerToken(headers) == t
  {
    if "authorization" in headers && headers["authorization"] == BearerPrefix + t {
      var h := headers["authorization"];
      assert OccursAt(h, BearerPrefix, 0) by { assert h[0..|BearerPrefix|] == BearerPrefix; }
      assert IndexOf(h, BearerPrefix) == Some(0);
      assert h[|BearerPrefix|..] == t;
    }
  }

  /** Only the first "Bearer " is removed: a doubled prefix leaves one behind. */
  lemma BearerOnlyFirstOccurrence(t: string)
    ensures BearerToken(map["authorization" := BearerPrefix + BearerPrefix + t]) == BearerPrefix + t
  {
    var h := BearerPrefix + BearerPrefix + t;
    assert h == BearerPrefix + (BearerPrefix + t);
    BearerTokenExtraction(map["authorization" := h], BearerPrefix + t);
  }

  /** `isAdminOrSuperAdmin` is exactly the disjunction of `isAdmin` and `isSuperAdmin`. */
  lemma EitherGateIsDisjunction(req: Request)
    ensures IsAdminOrSuperAdmin(req).Next? <==> IsAdmin(req).Next? || IsSuperAdmin(req).Next?
    ensures IsAdminOrSuperAdmin(req).Respond? ==>
              IsAdminOrSuperAdmin(req) == IsAdmin(req) && IsAdminOrSuperAdmin(req) == IsSuperAdmin(req)
  {
  }

  /** Role matching is exact: the other vocabularies of the code base pass none of the gates. */
  lemma OtherRoleSpellingsRefused(req: Request)
    requires req.user.Some?
    requires req.user.value.role in {None, Some("admin"), Some("superadmin"), Some("user"), Some("Customer"), Some("Super admin")}
    ensures IsAdmin(req) == Respond(401, Unauthorized)
    ensures IsSuperAdmin(req) == Respond(401, Unauthorized)
    ensures IsAdminOrSuperAdmin(req) == Respond(401, Unauthorized)
  {
  }

  /** Granting more permission strings never turns a pass of `checkPermission` into a refusal. */
  lemma CheckPermissionMonotone(p: string, req: Request, more: seq<string>)
    requires req.user.Some? && req.user.value.permissions.Some?
    requires forall q :: q in req.user.value.permissions.value ==> q in more
    ensures CheckPermission(p, req).Next? ==>
              CheckPermission(p, req.(user := Some(req.user.value.(permissions := Some(more))))).Next?
  {
  }

  /** `checkPermission` ignores the role: a "Super Admin" lacking the string is refused. */
  lemma CheckPermissionIgnoresRole(p: string, req: Request)
    requires req.user.Some? && req.user.value.role == Some("Super Admin")
    requires req.user.value.permissions.Some? && p !in req.user.value.permissions.value
    ensures CheckPermission(p, req) == Respond(401, NoPermission)
  {
  }

  /** `verifyForgetToken` reads only the `token` header and the secret: requests agreeing on them end alike. */
  lemma ResetGateReadsOnlyTokenHeader(svc: Services, a: Request, b: Request)
    requires ("token" in a.headers) == ("token" in b.headers)
    requires "token" in a.headers ==> a.headers["token"] == b.headers["token"]
    ensures VerifyForgetToken(svc, a).Next? == VerifyForgetToken(svc, b).Next?
    ensures VerifyForgetToken(svc, a).Respond? ==> VerifyForgetToken(svc, a) == VerifyForgetToken(svc, b)
    ensures VerifyForgetToken(svc, a).Next? ==> VerifyForgetToken(svc, a).req.email == VerifyForgetToken(svc, b).req.email
  {
    assert ResetToken(a.headers) == ResetToken(b.headers);
  }

  /** Without a `token` header the reset gate verifies the literal text "undefined". */
  lemma ResetGateMissingHeader(svc: Services, req: Request)
    requires "token" !in req.headers
    ensures VerifyForgetToken(svc, req).Next? <==> svc.verify("undefined", VerifySecret(svc)).Some?
  {
  }

  /**
   * The composition the route tables rely on: after `checkAuth` as written, the
   * request carries no role, so any role gate refuses with 401.
   */
  lemma AuthThenRoleGateRefuses(g: Gate, svc: Services, req: Request, handler: string)
    requires IsRoleGate(g)
    ensures RunChain([Authenticate, g], handler, AttachIdOnly, svc, req).Responded?
    ensures RunChain([Authenticate, g], handler, AttachIdOnly, svc, req).status == 401
  {
    var first := CheckAuth(AttachIdOnly, svc, req);
    if first.Next? {
      assert first.req.user.value.role.None?;
      assert [Authenticate, g][1..] == [g];
      assert Apply(g, AttachIdOnly, svc, first.req).Respond?;
    }
  }
}

=== FILE: pages.dfy ===
/**
 * The request-level behaviour of the client's pages: what each form sends
 * once its schema accepts the values, how an error reply is attributed to a
 * form field, what a successful login does to the authentication state, and
 * which signed-in users each dashboard page is shown to.
 */
module Pages {
  import opened Base
  import opened Schemas
  import Cascade
  import AuthContext
  import Middleware

  /** The JSON body a page sends. */
  datatype Payload =
    | SignupBody(signup: SignupValues)
    | CredentialsBody(login: LoginValues)
    | EmailBody(email: string)
    | PasswordsBody(passwords: ResetValues)
    | ProfileBody(profile: ProfileValues, permissions: Option<seq<string>>)   // `{...values, permissions}` or `values`
    | PermissionsBody(granted: seq<string>)                                  // `{permissions}`

  /** The path every page's call to the user router starts with. */
  const UserApi := "/api/user/"

  /** An axios request; no page sets an Authorization header. */
  datatype ClientRequest = ClientRequest(verb: Middleware.Method, path: string, headers: map<string, string>, body: Payload)

  /** An error reply as axios exposes it: the status and the body's `field` and `error` keys. */
  datatype Reply = Reply(status: int, field: Option<string>, error: Option<string>)

  /** What the catch block does with an error reply. */
  datatype Attribution = NoFieldError | SetError(field: Option<string>, message: Option<string>)

  /** `handleSubmit(onSubmit)`: the request is sent only when the schema reports no issue. */
  function Submit(issues: seq<Issue>, req: ClientRequest): (r: Option<ClientRequest>)
    ensures r.Some? <==> issues == []
    ensures r.Some? ==> r.value == req
  {
    if issues == [] then Some(req) else None
  }

  /** A path parameter from `useParams`, which is `undefined` when absent. */
  function Param(id: Option<string>): string
  {
    StringOf(id)
  }

  /** The signup form posts its values to the URL it is given. */
  function SignupSubmit(isEmail: string -> bool, url: string, v: SignupValues): Option<ClientRequest>
  {
    Submit(SignupIssues(isEmail, v), ClientRequest(Middleware.POST, url, map[], SignupBody(v)))
  }

  /** The login page posts the credentials to `/api/user/login`. */
  function LoginSubmit(isEmail: string -> bool, v: LoginValues): Option<ClientRequest>
  {
    Submit(LoginIssues(isEmail, v), ClientRequest(Middleware.POST, UserApi + "login", map[], CredentialsBody(v)))
  }

  /** The forgot page posts `{email}` to `/api/user/forgot-pass`. */
  function ForgotSubmit(isEmail: string -> bool, email: string): Option<ClientRequest>
  {
    Submit(ForgotIssues(isEmail, email), ClientRequest(Middleware.POST, UserApi + "forgot-pass", map[], EmailBody(email)))
  }

  /** The reset page: without a `token` query parameter it redirects home, otherwise it can submit. */
  datatype ResetPage = RedirectHome | ResetForm(submitted: Option<ClientRequest>)

  /** The reset page posts both passwords to `/api/user/reset` with the query's token in a `token` header. */
  function ResetSubmit(token: Option<string>, v: ResetValues): (r: ResetPage)
    ensures r.RedirectHome? <==> !Truthy(token)
  {
    if !Truthy(token) then RedirectHome
    else ResetForm(Submit(ResetIssues(v), ClientRequest(Middleware.POST, UserApi + "reset", map["token" := token.value], PasswordsBody(v))))
  }

  /** The update form puts its values, and nothing else, to the URL it is given. */
  function UpdateFormSave(isEmail: string -> bool, url: string, v: ProfileValues): Option<ClientRequest>
  {
    Submit(ProfileIssues(isEmail, v), ClientRequest(Middleware.PUT, url, map[], ProfileBody(v, None)))
  }

  /** The admin update page puts the values and the permission list to `/api/user/update-admin/:_id`. */
  function AdminUpdateSave(isEmail: string -> bool, id: Option<string>, v: ProfileValues, page: Cascade.Page): Option<ClientRequest>
  {
    Submit(ProfileIssues(isEmail, v),
           ClientRequest(Middleware.PUT, UserApi + "update-admin" + "/" + Param(id), map[], ProfileBody(v, Some(page.permissions))))
  }

  /** The user update page puts the values and the permission list to `/api/user/:id`. */
  function UserUpdateSave(isEmail: string -> bool, id: Option<string>, v: ProfileValues, page: Cascade.Page): Option<ClientRequest>
  {
    Submit(ProfileIssues(isEmail, v),
           ClientRequest(Middleware.PUT, UserApi + Param(id), map[], ProfileBody(v, Some(page.permissions))))
  }

  /** The customer update page puts the values alone to `/api/user/:_id`. */
  function CustomerUpdateSave(isEmail: string -> bool, id: Option<string>, v: ProfileValues): Option<ClientRequest>
  {
    Submit(ProfileIssues(isEmail, v), ClientRequest(Middleware.PUT, UserApi + Param(id), map[], ProfileBody(v, None)))
  }

  /** The permissions page puts `{permissions}` to `/api/user/update-permissions/:id`; it has no form to validate. */
  function PermissionsSave(id: Option<string>, page: Cascade.Page): ClientRequest
  {
    ClientRequest(Middleware.PUT, UserApi + "update-permissions" + "/" + Param(id), map[], PermissionsBody(page.permissions))
  }

  /**
   * On a consistent page the admin, user and permissions saves send exactly
   * the strings of the checked boxes, once each; the customer save sends the
   * form values alone; no save carries an Authorization header.
   */
  lemma SavesSendCheckedPermissions(isEmail: string -> bool, id: Option<string>, v: ProfileValues,
                                    kind: Cascade.Variant, page: Cascade.Page)
    requires ProfileIssues(isEmail, v) == [] && Cascade.Consistent(kind, page)
    ensures AdminUpdateSave(isEmail, id, v, page).Some? && UserUpdateSave(isEmail, id, v, page).Some?
    ensures CustomerUpdateSave(isEmail, id, v).Some?
    ensures var b := AdminUpdateSave(isEmail, id, v, page).value.body;
              b.ProfileBody? && b.profile == v && b.permissions.Some? && Cascade.ListMatches(page.boxes, b.permissions.value)
    ensures var b := UserUpdateSave(isEmail, id, v, page).value.body;
              b.ProfileBody? && b.profile == v && b.permissions.Some? && Cascade.ListMatches(page.boxes, b.permissions.value)
    ensures CustomerUpdateSave(isEmail, id, v).value.body == ProfileBody(v, None)
    ensures var b := PermissionsSave(id, page).body; b.PermissionsBody? && Cascade.ListMatches(page.boxes, b.granted)
    ensures "authorization" !in AdminUpdateSave(isEmail, id, v, page).value.headers
    ensures "authorization" !in UserUpdateSave(isEmail, id, v, page).value.headers
    ensures "authorization" !in CustomerUpdateSave(isEmail, id, v).value.headers
    ensures "authorization" !in PermissionsSave(id, page).headers
  {
  }

  /**
   * `setError(data.field, {message: data.error})` when the reply has the status
   * the page attributes (406 on every page but the update form, which checks 422).
   */
  function Attribute(attributed: int, reply: Reply): (r: Attribution)
    ensures r.SetError? <==> reply.status == attributed
    ensures r.SetError? ==> r.field == reply.field && r.message == reply.error
  {
    if reply.status == attributed then SetError(reply.field, reply.error) else NoFieldError
  }

  /** The status the page's catch block attributes. */
  const PageStatus := 406
  const UpdateFormStatus := 422

  /**
   * The login page's handling of the reply: a success dispatches LOGIN with the
   * body as payload; a failure attributes a 406 and leaves the state alone.
   */
  function LoginOutcome<P>(s: AuthContext.State<P>, status: int, body: Option<P>, reply: Reply): (r: (AuthContext.State<P>, Attribution))
    ensures 200 <= status < 300 ==> r == (AuthContext.Reduce(s, AuthContext.Action(AuthContext.LoginKind, body)), NoFieldError)
    ensures !(200 <= status < 300) ==> r.0 == s && r.1 == Attribute(PageStatus, reply)
  {
    if 200 <= status < 300 then (AuthContext.Reduce(s, AuthContext.Action(AuthContext.LoginKind, body)), NoFieldError)
    else (s, Attribute(PageStatus, reply))
  }

  /** The user-permissions and user update pages: shown only when `user?.role === "superadmin"`. */
  predicate ShownToLowercaseSuperadmin(role: Option<string>)
  {
    role == Some("superadmin")
  }

  /**
   * The admin and customer update pages, once loaded: hidden when a user was
   * fetched whose role is not "Super Admin"; shown when the fetch gave `null`.
   */
  predicate ShownToSuperAdmin(user: Option<Option<string>>)
  {
    !(user.Some? && user.value != Some("Super Admin"))
  }
}

=== FILE: route_facts.dfy ===
/** What the route tables guarantee about which gates stand before which handler. */
module RouteFacts {
  import opened Base
  import opened Middleware
  import opened Router
  import opened Routes
  import MiddlewareFacts

  /** The user-table handlers that run with no role gate in front of them. */
  const OpenUserHandlers: set<string> :=
    {"login", "signup", "profile", "updateSelf", "deleteSelf", "forgotPass", "resetPass"}

  /** Every user route is either open (no gate, `checkAuth` alone, or the reset gate) or `checkAuth` then a role gate. */
  lemma UserRouteShapes(k: nat)
    requires k < |UserRoutes|
    ensures UserRoutes[k].chain in {[], [Authenticate], [ResetTokenGate]} ==> UserRoutes[k].handler in OpenUserHandlers
    ensures UserRoutes[k].chain !in {[], [Authenticate], [ResetTokenGate]} ==>
              |UserRoutes[k].chain| == 2 && UserRoutes[k].chain[0] == Authenticate && IsRoleGate(UserRoutes[k].chain[1])
  {
  }

  lemma ProductRouteShapes(k: nat)
    requires k < |ProductRoutes|
    ensures ProductRoutes[k].chain == [] ==> ProductRoutes[k].handler in {"displayAll", "displayOne"}
    ensures ProductRoutes[k].chain != [] ==>
              |ProductRoutes[k].chain| == 2 && ProductRoutes[k].chain[0] == Authenticate && IsRoleGate(ProductRoutes[k].chain[1])
  {
  }

  /**
   * With `checkAuth` as written, the only user handlers a request can reach
   * are the open ones: every `checkAuth` then role-gate chain ends in 401.
   */
  lemma UserGatedHandlersUnreachable(svc: Services, req: Request, pieces: seq<string>)
    ensures Dispatch(UserRoutes, AttachIdOnly, svc, req, pieces).Handled? ==>
              Dispatch(UserRoutes, AttachIdOnly, svc, req, pieces).handler in OpenUserHandlers
    ensures FirstMatch(UserRoutes, req.verb, pieces).Some? &&
            |UserRoutes[FirstMatch(UserRoutes, req.verb, pieces).value].chain| == 2 ==>
              Dispatch(UserRoutes, AttachIdOnly, svc, req, pieces).Responded? &&
              Dispatch(UserRoutes, AttachIdOnly, svc, req, pieces).status == 401
  {
    var m := FirstMatch(UserRoutes, req.verb, pieces);
    if m.Some? {
      var rt := UserRoutes[m.value];
      UserRouteShapes(m.value);
      if |rt.chain| == 2 {
        assert rt.chain == [Authenticate, rt.chain[1]];
        MiddlewareFacts.AuthThenRoleGateRefuses(rt.chain[1], svc, req, rt.handler);
      }
    }
  }

  /** With `checkAuth` as written, only the two public product handlers can run; every mutating route answers 401. */
  lemma ProductMutationsUnreachable(svc: Services, req: Request, pieces: seq<string>)
    ensures Dispatch(ProductRoutes, AttachIdOnly, svc, req, pieces).Handled? ==>
              Dispatch(ProductRoutes, AttachIdOnly, svc, req, pieces).handler in {"displayAll", "displayOne"}
    ensures req.verb in {POST, PUT, DELETE, PATCH} ==> !Dispatch(ProductRoutes, AttachIdOnly, svc, req, pieces).Handled?
  {
    var m := FirstMatch(ProductRoutes, req.verb, pieces);
    if m.Some? {
      var rt := ProductRoutes[m.value];
      ProductRouteShapes(m.value);
      if rt.chain != [] {
        assert rt.chain == [Authenticate, rt.chain[1]];
        MiddlewareFacts.AuthThenRoleGateRefuses(rt.chain[1], svc, req, rt.handler);
      }
    }
  }

  /** No route of either table uses `checkPermission`: gating is by role string only. */
  lemma NoCapabilityGates(k: nat, i: nat)
    ensures k < |UserRoutes| && i < |UserRoutes[k].chain| ==> !UserRoutes[k].chain[i].HasPermission?
    ensures k < |ProductRoutes| && i < |ProductRoutes[k].chain| ==> !ProductRoutes[k].chain[i].HasPermission?
  {
    if k < |UserRoutes| { UserRouteShapes(k); }
    if k < |ProductRoutes| { ProductRouteShapes(k); }
  }

  /** POST /login reaches its handler through no middleware at all. */
  lemma LoginIsOpen()
    ensures GuardOf(UserRoutes, POST, ["login"]) == Some(([], "login"))
  {
    var p := ["login"];
    FirstMatchIs(UserRoutes, POST, p, 0);
    GuardAt(UserRoutes, POST, p, 0);
  }

  /** POST /signup reaches its handler through no middleware at all. */
  lemma SignupIsOpen()
    ensures GuardOf(UserRoutes, POST, ["signup"]) == Some(([], "signup"))
  {
    var p := ["signup"];
    forall j | 0 <= j < 1 ensures !RouteMatches(UserRoutes[j], POST, p) {
      if j == 0 { assert !RouteMatches(UserRoutes[0], POST, p); }
    }
    FirstMatchIs(UserRoutes, POST, p, 1);
    GuardAt(UserRoutes, POST, p, 1);
  }

  /** POST /forgot-pass reaches its handler through no middleware at all. */
  lemma ForgotPassIsOpen()
    ensures GuardOf(UserRoutes, POST, ["forgot-pass"]) == Some(([], "forgotPass"))
  {
    var p := ["forgot-pass"];
    forall j | 0 <= j < 6 ensures !RouteMatches(UserRoutes[j], POST, p) {
      if j == 0 { assert !RouteMatches(UserRoutes[0], POST, p); }
      else if j == 1 { assert !RouteMatches(UserRoutes[1], POST, p); }
      else if j == 2 { assert !RouteMatches(UserRoutes[2], POST, p); }
    }
    FirstMatchIs(UserRoutes, POST, p, 6);
    GuardAt(UserRoutes, POST, p, 6);
  }

  /** POST /reset is guarded by the reset-token gate alone, never by `checkAuth`. */
  lemma ResetGuardedByResetTokenOnly()
    ensures GuardOf(UserRoutes, POST, ["reset"]) == Some(([ResetTokenGate], "resetPass"))
  {
    var p := ["reset"];
    forall j | 0 <= j < 7 ensures !RouteMatches(UserRoutes[j], POST, p) {
      if j == 0 { FirstLetterDiffers("reset", "login"); assert !RouteMatches(UserRoutes[0], POST, p); }
      else if j == 1 { assert !RouteMatches(UserRoutes[1], POST, p); }
      else if j == 2 { assert !RouteMatches(UserRoutes[2], POST, p); }
      else if j == 6 { assert !RouteMatches(UserRoutes[6], POST, p); }
    }
    FirstMatchIs(UserRoutes, POST, p, 7);
    GuardAt(UserRoutes, POST, p, 7);
  }

  /** GET on the router root needs `checkAuth` alone. */
  lemma ProfileNeedsOnlyAuth()
    ensures GuardOf(UserRoutes, GET, []) == Some(([Authenticate], "profile"))
  {
    var p := [];
    forall j | 0 <= j < 3 ensures !RouteMatches(UserRoutes[j], GET, p) {
    }
    FirstMatchIs(UserRoutes, GET, p, 3);
    GuardAt(UserRoutes, GET, p, 3);
  }

  /** PUT on the router root needs `checkAuth` alone. */
  lemma UpdateSelfNeedsOnlyAuth()
    ensures GuardOf(UserRoutes, PUT, []) == Some(([Authenticate], "updateSelf"))
  {
    var p := [];
    forall j | 0 <= j < 4 ensures !RouteMatches(UserRoutes[j], PUT, p) {
    }
    FirstMatchIs(UserRoutes, PUT, p, 4);
    GuardAt(UserRoutes, PUT, p, 4);
  }

  /** DELETE on the router root needs `checkAuth` alone. */
  lemma DeleteSelfNeedsOnlyAuth()
    ensures GuardOf(UserRoutes, DELETE, []) == Some(([Authenticate], "deleteSelf"))
  {
    var p := [];
    forall j | 0 <= j < 5 ensures !RouteMatches(UserRoutes[j], DELETE, p) {
    }
    FirstMatchIs(UserRoutes, DELETE, p, 5);
    GuardAt(UserRoutes, DELETE, p, 5);
  }

  /** POST /signup-admin is chained `checkAuth` then `isSuperAdmin`. */
  lemma SignupAdminGuard()
    ensures GuardOf(UserRoutes, POST, ["signup-admin"]) == Some(([Authenticate, SuperAdminOnly], "signupAdmin"))
  {
    var p := ["signup-admin"];
    forall j | 0 <= j < 2 ensures !RouteMatches(UserRoutes[j], POST, p) {
      if j == 0 { assert !RouteMatches(UserRoutes[0], POST, p); }
      else if j == 1 { assert !RouteMatches(UserRoutes[1], POST, p); }
    }
    FirstMatchIs(UserRoutes, POST, p, 2);
    GuardAt(UserRoutes, POST, p, 2);
  }

  /** GET /all is registered before GET /:_id and wins over it, in any letter case and for HEAD too. */
  lemma ListAllWinsOverShowOne()
    ensures GuardOf(UserRoutes, GET, ["all"]) == Some(([Authenticate, SuperAdminOnly], "showAll"))
  {
    var p := ["all"];
    forall j | 0 <= j < 8 ensures !RouteMatches(UserRoutes[j], GET, p) {
    }
    FirstMatchIs(UserRoutes, GET, p, 8);
    GuardAt(UserRoutes, GET, p, 8);
  }

  /** HEAD /ALL is served by the GET /all route: literals compare case-insensitively and GET routes answer HEAD. */
  lemma HeadAllUsesGetRoute()
    ensures GuardOf(UserRoutes, HEAD, ["ALL"]) == Some(([Authenticate, SuperAdminOnly], "showAll"))
  {
    var p := ["ALL"];
    forall j | 0 <= j < 8 ensures !RouteMatches(UserRoutes[j], HEAD, p) {
    }
    FirstMatchIs(UserRoutes, HEAD, p, 8);
    GuardAt(UserRoutes, HEAD, p, 8);
  }

  /** GET /all-admins is chained `checkAuth` then `isSuperAdmin`. */
  lemma AllAdminsGuard()
    ensures GuardOf(UserRoutes, GET, ["all-admins"]) == Some(([Authenticate, SuperAdminOnly], "showAllAdmins"))
  {
    var p := ["all-admins"];
    forall j | 0 <= j < 9 ensures !RouteMatches(UserRoutes[j], GET, p) {
      if j == 8 { assert !RouteMatches(UserRoutes[8], GET, p); }
    }
    FirstMatchIs(UserRoutes, GET, p, 9);
    GuardAt(UserRoutes, GET, p, 9);
  }

  /** GET /all-customers is chained `checkAuth` then `isAdminOrSuperAdmin`. */
  lemma AllCustomersGuard()
    ensures GuardOf(UserRoutes, GET, ["all-customers"]) == Some(([Authenticate, AdminOrSuperAdmin], "showAllCustomers"))
  {
    var p := ["all-customers"];
    forall j | 0 <= j < 10 ensures !RouteMatches(UserRoutes[j], GET, p) {
      if j == 8 { assert !RouteMatches(UserRoutes[8], GET, p); }
      else if j == 9 { assert !RouteMatches(UserRoutes[9], GET, p); }
    }
    FirstMatchIs(UserRoutes, GET, p, 10);
    GuardAt(UserRoutes, GET, p, 10);
  }

  /** GET /count-users is chained `checkAuth` then `isAdminOrSuperAdmin`. */
  lemma CountUsersGuard()
    ensures GuardOf(UserRoutes, GET, ["count-users"]) == Some(([Authenticate, AdminOrSuperAdmin], "countUsers"))
  {
    var p := ["count-users"];
    forall j | 0 <= j < 11 ensures !RouteMatches(UserRoutes[j], GET, p) {
      if j == 8 { assert !RouteMatches(UserRoutes[8], GET, p); }
      else if j == 9 { assert !RouteMatches(UserRoutes[9], GET, p); }
      else if j == 10 { assert !RouteMatches(UserRoutes[10], GET, p); }
    }
    FirstMatchIs(UserRoutes, GET, p, 11);
    GuardAt(UserRoutes, GET, p, 11);
  }

  /** GET /count-admins is chained `checkAuth` then `isSuperAdmin`. */
  lemma CountAdminsGuard()
    ensures GuardOf(UserRoutes, GET, ["count-admins"]) == Some(([Authenticate, SuperAdminOnly], "countAdmins"))
  {
    var p := ["count-admins"];
    forall j | 0 <= j < 12 ensures !RouteMatches(UserRoutes[j], GET, p) {
      if j == 8 { assert !RouteMatches(UserRoutes[8], GET, p); }
      else if j == 9 { assert !RouteMatches(UserRoutes[9], GET, p); }
      else if j == 10 { assert !RouteMatches(UserRoutes[10], GET, p); }
      else if j == 11 { assert !RouteMatches(UserRoutes[11], GET, p); }
    }
    FirstMatchIs(UserRoutes, GET, p, 12);
    GuardAt(UserRoutes, GET, p, 12);
  }

  /** PUT /to-admin is registered before PUT /:id and wins over it. */
  lemma ToAdminWinsOverUpdateOther()
    ensures GuardOf(UserRoutes, PUT, ["to-admin"]) == Some(([Authenticate, SuperAdminOnly], "toAdmin"))
  {
    var p := ["to-admin"];
    forall j | 0 <= j < 13 ensures !RouteMatches(UserRoutes[j], PUT, p) {
    }
    FirstMatchIs(UserRoutes, PUT, p, 13);
    GuardAt(UserRoutes, PUT, p, 13);
  }

  /** PUT /update-admin/:id is chained `checkAuth` then `isSuperAdmin`. */
  lemma UpdateAdminGuard(id: string)
    requires id != ""
    ensures GuardOf(UserRoutes, PUT, ["update-admin", id]) == Some(([Authenticate, SuperAdminOnly], "updateOtherAdmin"))
  {
    var p := ["update-admin", id];
    forall j | 0 <= j < 14 ensures !RouteMatches(UserRoutes[j], PUT, p) {
    }
    FirstMatchIs(UserRoutes, PUT, p, 14);
    GuardAt(UserRoutes, PUT, p, 14);
  }

  /** Any other single GET piece falls to GET /:_id, chained `checkAuth` then `isSuperAdmin`. */
  lemma ShowOneCatchesOtherGets(id: string)
    requires id != ""
    requires !SameText(id, "all")
    requires !SameText(id, "all-admins")
    requires !SameText(id, "all-customers")
    requires !SameText(id, "count-users")
    requires !SameText(id, "count-admins")
    ensures GuardOf(UserRoutes, GET, [id]) == Some(([Authenticate, SuperAdminOnly], "showOne"))
  {
    var p := [id];
    forall j | 0 <= j < 15 ensures !RouteMatches(UserRoutes[j], GET, p) {
      if j == 8 { assert !RouteMatches(UserRoutes[8], GET, p); }
      else if j == 9 { assert !RouteMatches(UserRoutes[9], GET, p); }
      else if j == 10 { assert !RouteMatches(UserRoutes[10], GET, p); }
      else if j == 11 { assert !RouteMatches(UserRoutes[11], GET, p); }
      else if j == 12 { assert !RouteMatches(UserRoutes[12], GET, p); }
    }
    FirstMatchIs(UserRoutes, GET, p, 15);
    GuardAt(UserRoutes, GET, p, 15);
  }

  /** Any other single PUT piece falls to PUT /:id, chained `checkAuth` then `isAdminOrSuperAdmin`. */
  lemma UpdateOtherUserGuard(id: string)
    requires id != ""
    requires !SameText(id, "to-admin")
    ensures GuardOf(UserRoutes, PUT, [id]) == Some(([Authenticate, AdminOrSuperAdmin], "updateOtherUser"))
  {
    var p := [id];
    forall j | 0 <= j < 16 ensures !RouteMatches(UserRoutes[j], PUT, p) {
      if j == 13 { assert !RouteMatches(UserRoutes[13], PUT, p); }
    }
    FirstMatchIs(UserRoutes, PUT, p, 16);
    GuardAt(UserRoutes, PUT, p, 16);
  }

  /** DELETE /:id is chained `checkAuth` then `isAdminOrSuperAdmin`. */
  lemma DeleteOtherUserGuard(id: string)
    requires id != ""
    ensures GuardOf(UserRoutes, DELETE, [id]) == Some(([Authenticate, AdminOrSuperAdmin], "deleteOtherUser"))
  {
    var p := [id];
    forall j | 0 <= j < 17 ensures !RouteMatches(UserRoutes[j], DELETE, p) {
    }
    FirstMatchIs(UserRoutes, DELETE, p, 17);
    GuardAt(UserRoutes, DELETE, p, 17);
  }

  /** PUT /update-permissions/:id, which the permissions page calls, matches no user route. */
  lemma NoUpdatePermissionsRoute(id: string)
    ensures GuardOf(UserRoutes, PUT, ["update-permissions", id]) == None
  {
    var p := ["update-permissions", id];
    forall j | 0 <= j < 18 ensures !RouteMatches(UserRoutes[j], PUT, p) {
      if j == 14 { assert !RouteMatches(UserRoutes[14], PUT, p); }
    }
    NoMatchAtAll(UserRoutes, PUT, p);
  }

  /** GET / and GET /:_id of the product table are public. */
  lemma ProductReadsArePublic(id: string)
    requires id != ""
    ensures GuardOf(ProductRoutes, GET, []) == Some(([], "displayAll"))
    ensures GuardOf(ProductRoutes, GET, [id]) == Some(([], "displayOne"))
  {
    var p := [];
    FirstMatchIs(ProductRoutes, GET, p, 0);
    GuardAt(ProductRoutes, GET, p, 0);
    p := [id];
    forall j | 0 <= j < 1 ensures !RouteMatches(ProductRoutes[j], GET, p) {
    }
    FirstMatchIs(ProductRoutes, GET, p, 1);
    GuardAt(ProductRoutes, GET, p, 1);
  }

  /** POST / and PUT /:_id of the product table need `checkAuth` then `isAdminOrSuperAdmin`; DELETE /:_id needs `checkAuth` then `isSuperAdmin`. */
  lemma ProductWritesGuards(id: string)
    requires id != ""
    ensures GuardOf(ProductRoutes, POST, []) == Some(([Authenticate, AdminOrSuperAdmin], "addProduct"))
    ensures GuardOf(ProductRoutes, PUT, [id]) == Some(([Authenticate, AdminOrSuperAdmin], "updateProduct"))
    ensures GuardOf(ProductRoutes, DELETE, [id]) == Some(([Authenticate, SuperAdminOnly], "deleteProduct"))
  {
    var p := [];
    forall j | 0 <= j < 2 ensures !RouteMatches(ProductRoutes[j], POST, p) {
    }
    FirstMatchIs(ProductRoutes, POST, p, 2);
    GuardAt(ProductRoutes, POST, p, 2);
    p := [id];
    forall j | 0 <= j < 3 ensures !RouteMatches(ProductRoutes[j], PUT, p) {
    }
    FirstMatchIs(ProductRoutes, PUT, p, 3);
    GuardAt(ProductRoutes, PUT, p, 3);
    p := [id];
    forall j | 0 <= j < 4 ensures !RouteMatches(ProductRoutes[j], DELETE, p) {
    }
    FirstMatchIs(ProductRoutes, DELETE, p, 4);
    GuardAt(ProductRoutes, DELETE, p, 4);
  }
}

=== FILE: router.dfy ===
/**
 * Express routing as the server uses it: a route table is an ordered list of
 * (method, path pattern, middleware chain, handler); a request runs the chain
 * of the FIRST route whose method and path match, and no match is a 404.
 * Matching follows Express defaults: literal segments compare ASCII
 * case-insensitively, one trailing '/' is tolerated, a `:name` segment matches
 * any non-empty piece, and a GET route also serves HEAD.
 */
module Router {
  import opened Base
  import opened Middleware

  datatype Segment = Lit(text: string) | Param(name: string)

  datatype Route = Route(verb: Method, pattern: seq<Segment>, chain: seq<Gate>, handler: string)

  // ---------------------------------------------------------------- paths

  /**
   * The pieces of `s[start..]`, scanning from `i`: the piece being read began
   * at `start`, and `s[start..i]` has been seen to hold no '/'.
   */
  function SplitFrom(s: string, start: nat, i: nat): (r: seq<string>)
    requires start <= i <= |s|
    ensures |r| >= 1
    decreases |s| - i
  {
    if i == |s| then [s[start..]]
    else if s[i] == '/' then [s[start..i]] + SplitFrom(s, i + 1, i + 1)
    else SplitFrom(s, start, i + 1)
  }

  /** Split on every '/', like JavaScript `s.split("/")`: always at least one piece. */
  function Split(s: string): (r: seq<string>)
    ensures |r| >= 1
  {
    SplitFrom(s, 0, 0)
  }

  /** Scanning past characters that are not '/' does not change the pieces. */
  lemma {:induction false} SplitFromSkip(s: string, start: nat, i: nat, j: nat)
    requires start <= i <= j <= |s|
    requires forall k :: i <= k < j ==> s[k] != '/'
    ensures SplitFrom(s, start, i) == SplitFrom(s, start, j)
    decreases j - i
  {
    if i < j {
      SplitFromSkip(s, start, i + 1, j);
    }
  }

  /** The pieces of a suffix are the same whatever precedes it. */
  lemma {:induction false} SplitFromShift(p: string, t: string, x: nat, y: nat)
    requires x <= y <= |t|
    ensures SplitFrom(p + t, |p| + x, |p| + y) == SplitFrom(t, x, y)
    decreases |t| - y
  {
    var u := p + t;
    if y == |t| {
      assert u[|p| + x..] == t[x..];
    } else {
      assert u[|p| + y] == t[y];
      if t[y] == '/' {
        assert u[|p| + x..|p| + y] == t[x..y];
        SplitFromShift(p, t, y + 1, y + 1);
        assert |p| + (y + 1) == |p| + y + 1;
      } else {
        SplitFromShift(p, t, x, y + 1);
        assert |p| + (y + 1) == |p| + y + 1;
      }
    }
  }

  /** A text free of '/' is a single piece. */
  lemma SplitWhole(s: string)
    requires '/' !in s
    ensures Split(s) == [s]
  {
    forall k | 0 <= k < |s| ensures s[k] != '/' {
      assert s[k] in s;
    }
    SplitFromSkip(s, 0, 0, |s|);
    assert s[0..] == s;
  }

  /** Splitting a piece free of '/', a slash and the rest. */
  lemma {:induction false} SplitCons(a: string, b: string)
    requires '/' !in a
    ensures Split(a + "/" + b) == [a] + Split(b)
  {
    var s := a + "/" + b;
    forall k | 0 <= k < |a| ensures s[k] != '/' {
      assert s[k] == a[k];
      assert a[k] in a;
    }
    SplitFromSkip(s, 0, 0, |a|);
    assert s[|a|] == '/';
    assert s[0..|a|] == a;
    SplitFromShift(a + "/", b, 0, 0);
  }

  /** The pieces joined back with '/', like JavaScript `ps.join("/")`. */
  function Join(ps: seq<string>): string
    requires |ps| >= 1
    decreases |ps|
  {
    if |ps| == 1 then ps[0] else ps[0] + "/" + Join(ps[1..])
  }

  /** Round trip: splitting the join of pieces free of '/' gives the pieces back. */
  lemma {:induction false} SplitJoin(ps: seq<string>)
    requires |ps| >= 1
    requires forall k :: 0 <= k < |ps| ==> '/' !in ps[k]
    ensures Split(Join(ps)) == ps
    decreases |ps|
  {
    if |ps| == 1 {
      SplitWhole(ps[0]);
    } else {
      SplitJoin(ps[1..]);
      SplitCons(ps[0], Join(ps[1..]));
      assert ps == [ps[0]] + ps[1..];
    }
  }

  /** The pieces of a request path after its leading '/'; None when the path has no leading '/'. */
  function Pieces(path: string): Option<seq<string>>
  {
    if |path| == 0 || path[0] != '/' then None else Some(Split(path[1..]))
  }

  /**
   * `router.use(prefix, ...)` on the pieces of a path: the mount matches
   * `^\/prefix\/?(?=\/|$)` case-insensitively and strips the match, putting
   * back a '/' when nothing is left. In pieces, the first piece names the
   * mount, and the optional '/' swallows one empty piece when another piece
   * follows it.
   */
  function Mount(prefix: string, ps: seq<string>): (r: Option<seq<string>>)
    ensures r.Some? ==> |r.value| >= 1
  {
    if ps == [] || !SameText(ps[0], prefix) then None
    else if |ps| == 1 then Some([""])
    else if |ps| >= 3 && ps[1] == "" then Some(ps[2..])
    else Some(ps[1..])
  }

  /** What a route's pattern is matched against: one trailing empty piece (a trailing '/') is dropped. */
  function RoutePieces(ps: seq<string>): seq<string>
  {
    if |ps| >= 1 && ps[|ps| - 1] == "" then ps[..|ps| - 1] else ps
  }

  /**
   * Reference definition of the mount on the path text: match `/prefix`
   * case-insensitively, then an optional '/', then require a '/' or the end;
   * the rest of the path remains, or "/" when nothing does.
   */
  function StripMount(prefix: string, path: string): Option<string>
  {
    var n := 1 + |prefix|;
    if |path| < n || path[0] != '/' || !SameText(path[1..n], prefix) then None
    else
      var rest := path[n..];
      if rest == "" then Some("/")
      else if rest[0] != '/' then None
      else if |rest| >= 2 && rest[1] == '/' then Some(rest[1..])
      else if |rest| == 1 then Some("/")
      else Some(rest)
  }

  /** The index of the first '/' in `s` at or after `i`, or `|s|` when there is none. */
  function SlashFrom(s: string, i: nat): (e: nat)
    requires i <= |s|
    ensures i <= e <= |s| && (e < |s| ==> s[e] == '/')
    ensures forall k :: i <= k < e ==> s[k] != '/'
    decreases |s| - i
  {
    if i == |s| || s[i] == '/' then i else SlashFrom(s, i + 1)
  }

  /** The split of a text is its first piece, up to the first '/', followed by the split of the rest. */
  lemma SplitFirst(s: string)
    ensures SlashFrom(s, 0) == |s| ==> Split(s) == [s]
    ensures SlashFrom(s, 0) < |s| ==> Split(s) == [s[..SlashFrom(s, 0)]] + Split(s[SlashFrom(s, 0) + 1..])
  {
    var e := SlashFrom(s, 0);
    assert Split(s) == SplitFrom(s, 0, e) by {
      SplitFromSkip(s, 0, 0, e);
    }
    if e < |s| {
      assert SplitFrom(s, 0, e) == [s[..e]] + Split(s[e + 1..]) by {
        SplitFromSlash(s, 0, e);
        SplitAfter(s, e);
      }
    } else {
      SplitEnd(s, 0);
      assert s[0..] == s;
    }
  }

  /** At the end of the text, the piece read so far is the last one. */
  lemma SplitEnd(s: string, start: nat)
    requires start <= |s|
    ensures SplitFrom(s, start, |s|) == [s[start..]]
  {
  }

  /** At a '/', the piece read so far ends and the next one starts. */
  lemma SplitFromSlash(s: string, start: nat, i: nat)
    requires start <= i < |s| && s[i] == '/'
    ensures SplitFrom(s, start, i) == [s[start..i]] + SplitFrom(s, i + 1, i + 1)
  {
  }

  /** The pieces after a position are the split of the text after it. */
  lemma SplitAfter(s: string, e: nat)
    requires e < |s|
    ensures SplitFrom(s, e + 1, e + 1) == Split(s[e + 1..])
  {
    var p, t := s[..e + 1], s[e + 1..];
    SplitFromShift(p, t, 0, 0);
    assert p + t == s;
  }

  /** A piece that matches a literal free of '/' holds no '/' either. */
  lemma SameTextNoSlash(piece: string, text: string)
    requires SameText(piece, text) && '/' !in text
    ensures '/' !in piece
  {
    forall k | 0 <= k < |piece| ensures piece[k] != '/' {
      assert text[k] in text;
      if piece != text {
        assert Lower(piece)[k] == Lower(text)[k];
      }
    }
  }

  /**
   * The mount on pieces agrees with the mount on the path text: both match
   * the same paths, and the pieces of what the text mount leaves are what
   * the piece mount leaves.
   */
  lemma MountIsStrip(prefix: string, path: string)
    requires |path| >= 1 && path[0] == '/' && '/' !in prefix
    ensures var m := Mount(prefix, Split(path[1..]));
            var t := StripMount(prefix, path);
            (t.Some? <==> m.Some?) && (t.Some? ==> Pieces(t.value) == m)
  {
    var j := path[1..];
    var e := SlashFrom(j, 0);
    SplitFirst(j);
    var ps := Split(j);
    var n := 1 + |prefix|;
    assert ps[0] == j[..e];
    assert Split("") == [""];
    if e == |prefix| && SameText(j[..e], prefix) {
      assert path[1..n] == j[..e];
      var rest := path[n..];
      assert rest == j[e..];
      if e < |j| {
        var x := j[e + 1..];
        assert rest == "/" + x;
        SplitFirst(x);
        if |x| >= 1 && x[0] == '/' {
          assert SlashFrom(x, 0) == 0;
          assert x[..0] == "";
          assert rest[1] == '/' && rest[1..] == x;
          assert StripMount(prefix, path) == Some(x);
          assert Pieces(x) == Some(Split(x[1..]));
          assert Split(x) == [""] + Split(x[1..]);
          assert ps == [j[..e]] + ([""] + Split(x[1..]));
          assert |ps| >= 3 && ps[1] == "" && ps[2..] == Split(x[1..]);
        } else if x != "" {
          assert rest[1..] == x;
          assert Split(x)[0] != "";
        }
      }
    } else {
      if |path| >= n && path[0] == '/' && SameText(path[1..n], prefix) {
        assert path[1..n] == j[..|prefix|];
        SameTextNoSlash(j[..|prefix|], prefix);
        forall k | 0 <= k < |prefix| ensures j[k] != '/' {
          assert j[..|prefix|][k] in j[..|prefix|];
        }
        assert e >= |prefix|;
        assert path[n..] == j[|prefix|..];
      }
    }
  }

  function LowerChar(c: char): char
  {
    if 'A' <= c <= 'Z' then (c as int + 32) as char else c
  }

  function Lower(s: string): (r: string)
    ensures |r| == |s|
  {
    seq(|s|, i requires 0 <= i < |s| => LowerChar(s[i]))
  }

  /** Case-insensitive equality of a path piece and a literal segment. */
  predicate SameText(piece: string, text: string)
  {
    piece == text || (|piece| == |text| && Lower(piece) == Lower(text))
  }

  predicate SegmentMatches(seg: Segment, piece: string)
  {
    match seg
    case Lit(t) => SameText(piece, t)
    case Param(_) => piece != ""
  }

  /** Pattern and pieces have the same length and match segment by segment. */
  predicate PathMatches(pattern: seq<Segment>, pieces: seq<string>)
    decreases |pattern|
  {
    if pattern == [] then pieces == []
    else pieces != [] && SegmentMatches(pattern[0], pieces[0]) && PathMatches(pattern[1..], pieces[1..])
  }

  /** A route registered with `router.get` also answers HEAD. */
  predicate MethodMatches(routeVerb: Method, verb: Method)
  {
    routeVerb == verb || (verb == HEAD && routeVerb == GET)
  }

  predicate RouteMatches(r: Route, verb: Method, pieces: seq<string>)
  {
    MethodMatches(r.verb, verb) && PathMatches(r.pattern, pieces)
  }

  // ---------------------------------------------------------------- dispatch

  /** The index of the first route at or after `from` that matches. */
  function FirstMatchFrom(table: seq<Route>, verb: Method, pieces: seq<string>, from: nat): (r: Option<nat>)
    requires from <= |table|
    ensures r.Some? ==> from <= r.value < |table| && RouteMatches(table[r.value], verb, pieces)
    ensures r.Some? ==> forall k :: from <= k < r.value ==> !RouteMatches(table[k], verb, pieces)
    ensures r.None? ==> forall k :: from <= k < |table| ==> !RouteMatches(table[k], verb, pieces)
    decreases |table| - from
  {
    if from == |table| then None
    else if RouteMatches(table[from], verb, pieces) then Some(from)
    else FirstMatchFrom(table, verb, pieces, from + 1)
  }

  function FirstMatch(table: seq<Route>, verb: Method, pieces: seq<string>): (r: Option<nat>)
    ensures r.Some? ==> r.value < |table| && RouteMatches(table[r.value], verb, pieces)
    ensures r.Some? ==> forall k :: 0 <= k < r.value ==> !RouteMatches(table[k], verb, pieces)
    ensures r.None? ==> forall k :: 0 <= k < |table| ==> !RouteMatches(table[k], verb, pieces)
  {
    FirstMatchFrom(table, verb, pieces, 0)
  }

  /**
   * One router: run the first matching route's chain, or fall through to 404.
   * The first route that matches decides, whatever later routes match too.
   */
  function Dispatch(table: seq<Route>, variant: AuthVariant, svc: Services, req: Request, pieces: seq<string>): (r: Final)
    ensures r.NotFound? <==> forall k :: 0 <= k < |table| ==> !RouteMatches(table[k], req.verb, pieces)
    ensures forall k :: 0 <= k < |table| && RouteMatches(table[k], req.verb, pieces) &&
                        (forall j :: 0 <= j < k ==> !RouteMatches(table[j], req.verb, pieces)) ==>
              r == RunChain(table[k].chain, table[k].handler, variant, svc, req)
  {
    match FirstMatch(table, req.verb, pieces)
    case None => NotFound
    case Some(k) => RunChain(table[k].chain, table[k].handler, variant, svc, req)
  }

  /** The first matching route is the one that matches with no earlier match. */
  lemma FirstMatchIs(table: seq<Route>, verb: Method, pieces: seq<string>, k: nat)
    requires k < |table| && RouteMatches(table[k], verb, pieces)
    requires forall j :: 0 <= j < k ==> !RouteMatches(table[j], verb, pieces)
    ensures FirstMatch(table, verb, pieces) == Some(k)
  {
  }

  /** Two texts whose lower-cased first letters differ are not the same text. */
  lemma FirstLetterDiffers(a: string, b: string)
    requires |a| > 0 && |b| > 0 && LowerChar(a[0]) != LowerChar(b[0])
    ensures !SameText(a, b)
  {
    if |a| == |b| {
      assert Lower(a)[0] != Lower(b)[0];
    }
  }
}

=== FILE: routes.dfy ===
/**
 * The two route tables of the server and their mounting: the application
 * mounts its router at `/api`, which mounts the user table at `/user` and the
 * product table at `/product`. Handlers are opaque names.
 */
module Routes {
  import opened Base
  import opened Middleware
  import opened Router

  /** `userRouter`, in registration order. */
  const UserRoutes: seq<Route> := [
    Route(POST,   [Lit("login")],                   [],                              "login"),             // 0
    Route(POST,   [Lit("signup")],                  [],                              "signup"),            // 1
    Route(POST,   [Lit("signup-admin")],            [Authenticate, SuperAdminOnly],   "signupAdmin"),       // 2
    Route(GET,    [],                               [Authenticate],                  "profile"),           // 3
    Route(PUT,    [],                               [Authenticate],                  "updateSelf"),        // 4
    Route(DELETE, [],                               [Authenticate],                  "deleteSelf"),        // 5
    Route(POST,   [Lit("forgot-pass")],             [],                              "forgotPass"),        // 6
    Route(POST,   [Lit("reset")],                   [ResetTokenGate],                "resetPass"),         // 7
    Route(GET,    [Lit("all")],                     [Authenticate, SuperAdminOnly],   "showAll"),           // 8
    Route(GET,    [Lit("all-admins")],              [Authenticate, SuperAdminOnly],   "showAllAdmins"),     // 9
    Route(GET,    [Lit("all-customers")],           [Authenticate, AdminOrSuperAdmin], "showAllCustomers"), // 10
    Route(GET,    [Lit("count-users")],             [Authenticate, AdminOrSuperAdmin], "countUsers"),       // 11
    Route(GET,    [Lit("count-admins")],            [Authenticate, SuperAdminOnly],   "countAdmins"),       // 12
    Route(PUT,    [Lit("to-admin")],                [Authenticate, SuperAdminOnly],   "toAdmin"),           // 13
    Route(PUT,    [Lit("update-admin"), Param("id")], [Authenticate, SuperAdminOnly], "updateOtherAdmin"),  // 14
    Route(GET,    [Param("_id")],                   [Authenticate, SuperAdminOnly],   "showOne"),           // 15
    Route(PUT,    [Param("id")],                    [Authenticate, AdminOrSuperAdmin], "updateOtherUser"),  // 16
    Route(DELETE, [Param("id")],                    [Authenticate, AdminOrSuperAdmin], "deleteOtherUser")   // 17
  ]

  /** `productRouter`, in registration order. */
  const ProductRoutes: seq<Route> := [
    Route(GET,    [],              [],                                "displayAll"),     // 0
    Route(GET,    [Param("_id")],  [],                                "displayOne"),     // 1
    Route(POST,   [],              [Authenticate, AdminOrSuperAdmin], "addProduct"),     // 2
    Route(PUT,    [Param("_id")],  [Authenticate, AdminOrSuperAdmin], "updateProduct"),  // 3
    Route(DELETE, [Param("_id")],  [Authenticate, SuperAdminOnly],    "deleteProduct")   // 4
  ]

  /**
   * The whole API: the `/api` mount, then the `/user` or `/product` mount,
   * then dispatch on what the mounts leave; anything else is a 404.
   */
  function Serve(variant: AuthVariant, svc: Services, req: Request): (r: Final)
  {
    match Pieces(req.path)
    case None => NotFound
    case Some(ps) =>
      match Mount("api", ps)
      case None => NotFound
      case Some(api) =>
        match Mount("user", api)
        case Some(rest) => Dispatch(UserRoutes, variant, svc, req, RoutePieces(rest))
        case None =>
          match Mount("product", api)
          case Some(rest) => Dispatch(ProductRoutes, variant, svc, req, RoutePieces(rest))
          case None => NotFound
  }

  /** The chain and handler the first matching route of a table assigns to a method and path. */
  function GuardOf(table: seq<Route>, verb: Method, pieces: seq<string>): Option<(seq<Gate>, string)>
  {
    match FirstMatch(table, verb, pieces)
    case None => None
    case Some(k) => Some((table[k].chain, table[k].handler))
  }

  lemma GuardAt(table: seq<Route>, verb: Method, pieces: seq<string>, k: nat)
    requires FirstMatch(table, verb, pieces) == Some(k)
    ensures GuardOf(table, verb, pieces) == Some((table[k].chain, table[k].handler))
  {
  }

  lemma NoMatchAtAll(table: seq<Route>, verb: Method, pieces: seq<string>)
    requires forall j :: 0 <= j < |table| ==> !RouteMatches(table[j], verb, pieces)
    ensures GuardOf(table, verb, pieces) == None
  {
  }
}

=== FILE: schema_facts.dfy ===
/** What the form schemas accept, stated without the issue lists. */
module SchemaFacts {
  import opened Base
  import opened Schemas

  /** Every character of `s[i..]` is a name character. */
  predicate AllNameChars(s: string, i: nat)
    requires i <= |s|
  {
    forall k :: i <= k < |s| ==> NameChar(s[k])
  }

  lemma {:induction false} ScanNameIff(s: string, i: nat)
    requires i <= |s|
    ensures ScanName(s, i) <==> AllNameChars(s, i)
    decreases |s| - i
  {
    if i < |s| {
      ScanNameIff(s, i + 1);
    }
  }

  /** The scanner decides `/^[A-Za-z ]+$/`: a non-empty string of letters and spaces. */
  lemma MatchesNameIff(s: string)
    ensures MatchesName(s) <==> |s| > 0 && forall k :: 0 <= k < |s| ==> NameChar(s[k])
  {
    ScanNameIff(s, 0);
  }

  /** The regex refuses the empty name and accepts a name of spaces only; digits are refused. */
  lemma NameEdgeCases()
    ensures !MatchesName("")
    ensures MatchesName("   ")
    ensures !MatchesName("R2D2")
    ensures MatchesName("Ada Lovelace")
  {
    MatchesNameIff("   ");
    MatchesNameIff("R2D2");
    assert !NameChar("R2D2"[1]);
    MatchesNameIff("Ada Lovelace");
  }

  /** The phone rules accept exactly the numbers from 1000000000 to 9999999999, fractions included. */
  lemma PhoneValidIff(phone: PhoneInput, typeMessage: string)
    ensures PhoneIssues(phone, typeMessage) == [] <==> phone.Number? && PhoneMin <= phone.value <= PhoneMax
  {
  }

  /** The non-negative rule never decides anything: a negative number also breaks the lower bound. */
  lemma NegativeAlsoTooShort(r: real, typeMessage: string)
    requires r < 0.0
    ensures PhoneIssues(Number(r), typeMessage) == [Issue(["phone"], NegativePhone), Issue(["phone"], TenDigits)]
  {
  }

  lemma ChecksEmptyIff(a: seq<Issue>, b: seq<Issue>)
    ensures a + b == [] <==> a == [] && b == []
  {
    if a + b == [] {
      assert |a + b| == |a| + |b|;
    }
  }

  /** The signup form submits exactly the values that meet every rule of the schema. */
  lemma SignupValidIff(isEmail: string -> bool, v: SignupValues)
    ensures SignupIssues(isEmail, v) == [] <==>
              isEmail(v.email) && |v.email| <= 50 &&
              8 <= |v.password| <= 32 &&
              |v.fullName| <= 25 && MatchesName(v.fullName) &&
              v.phone.Number? && PhoneMin <= v.phone.value <= PhoneMax
  {
    PhoneValidIff(v.phone, NumberExpected);
    var e := EmailIssues(isEmail, v.email, EmailTooLong);
    var p1 := Check(|v.password| >= 8, "password", MinPassword);
    var p2 := Check(|v.password| <= 32, "password", MaxPassword);
    var n := SignupNameIssues(v.fullName);
    var ph := PhoneIssues(v.phone, NumberExpected);
    ChecksEmptyIff(e + p1 + p2 + n, ph);
    ChecksEmptyIff(e + p1 + p2, n);
    ChecksEmptyIff(e + p1, p2);
    ChecksEmptyIff(e, p1);
    ChecksEmptyIff(Check(isEmail(v.email), "email", InvalidEmail), Check(|v.email| <= 50, "email", EmailTooLong));
    ChecksEmptyIff(Check(|v.fullName| <= 25, "fullName", NameTooLong), Check(MatchesName(v.fullName), "fullName", NameLettersOnly));
  }

  /** The profile forms submit exactly the values that meet every rule of their schema. */
  lemma ProfileValidIff(isEmail: string -> bool, v: ProfileValues)
    ensures ProfileIssues(isEmail, v) == [] <==>
              isEmail(v.email) && |v.email| <= 50 &&
              1 <= |v.fullName| <= 25 && MatchesName(v.fullName) &&
              v.phone.Number? && PhoneMin <= v.phone.value <= PhoneMax
  {
    PhoneValidIff(v.phone, InvalidPhone);
    var e := EmailIssues(isEmail, v.email, EmailTooLong);
    var n := ProfileNameIssues(v.fullName);
    var ph := PhoneIssues(v.phone, InvalidPhone);
    ChecksEmptyIff(e + n, ph);
    ChecksEmptyIff(e, n);
    ChecksEmptyIff(Check(isEmail(v.email), "email", InvalidEmail), Check(|v.email| <= 50, "email", EmailTooLong));
    ChecksEmptyIff(Check(|v.fullName| >= 1, "fullName", EnterName), SignupNameIssues(v.fullName));
    ChecksEmptyIff(Check(|v.fullName| <= 25, "fullName", NameTooLong), Check(MatchesName(v.fullName), "fullName", NameLettersOnly));
  }

  /** The login page submits exactly the values that meet its schema. */
  lemma LoginValidIff(isEmail: string -> bool, v: LoginValues)
    ensures LoginIssues(isEmail, v) == [] <==> isEmail(v.email) && |v.email| <= 50 && 8 <= |v.password| <= 100
  {
    var e := EmailIssues(isEmail, v.email, LoginEmailTooLong);
    var p1 := Check(|v.password| >= 8, "password", MinPassword);
    var p2 := Check(|v.password| <= 100, "password", MaxLoginPassword);
    ChecksEmptyIff(e + p1, p2);
    ChecksEmptyIff(e, p1);
    ChecksEmptyIff(Check(isEmail(v.email), "email", InvalidEmail), Check(|v.email| <= 50, "email", LoginEmailTooLong));
  }

  /** The forgot page submits a non-empty, valid email of at most 50 characters; empty input shows "Please enter an email". */
  lemma ForgotValidIff(isEmail: string -> bool, email: string)
    ensures ForgotIssues(isEmail, email) == [] <==> |email| >= 1 && isEmail(email) && |email| <= 50
    ensures FieldError(ForgotIssues(isEmail, ""), "email") == Some(EnterEmail)
  {
    var c := Check(|email| >= 1, "email", EnterEmail);
    var e := EmailIssues(isEmail, email, ForgotEmailTooLong);
    ChecksEmptyIff(c, e);
    ChecksEmptyIff(Check(isEmail(email), "email", InvalidEmail), Check(|email| <= 50, "email", ForgotEmailTooLong));
    assert ForgotIssues(isEmail, "")[0] == Issue(["email"], EnterEmail);
  }

  /** The reset page submits exactly two equal passwords of 8 to 32 characters. */
  lemma ResetValidIff(v: ResetValues)
    ensures ResetIssues(v) == [] <==> 8 <= |v.password| <= 32 && v.password == v.confirmPassword
  {
    var a := ResetFieldIssues("password", v.password, EnterPassword);
    var b := ResetFieldIssues("confirmPassword", v.confirmPassword, ConfirmPassword);
    var m: seq<Issue> := if v.password == v.confirmPassword then [] else [Issue(["confirmPassword", "password"], PasswordsMustMatch)];
    ChecksEmptyIff(a + b, m);
    ChecksEmptyIff(a, b);
    ChecksEmptyIff(Check(|v.password| >= 1, "password", EnterPassword) + Check(|v.password| >= 8, "password", MinPassword),
                   Check(|v.password| <= 32, "password", MaxPassword));
    ChecksEmptyIff(Check(|v.password| >= 1, "password", EnterPassword), Check(|v.password| >= 8, "password", MinPassword));
    ChecksEmptyIff(Check(|v.confirmPassword| >= 1, "confirmPassword", ConfirmPassword) + Check(|v.confirmPassword| >= 8, "confirmPassword", MinPassword),
                   Check(|v.confirmPassword| <= 32, "confirmPassword", MaxPassword));
    ChecksEmptyIff(Check(|v.confirmPassword| >= 1, "confirmPassword", ConfirmPassword), Check(|v.confirmPassword| >= 8, "confirmPassword", MinPassword));
  }

  /**
   * Two well-formed but different passwords are refused with one issue, filed
   * under `confirmPassword.password`: the confirm field is drawn red, but
   * nothing is filed under `confirmPassword` itself, so its helper text is
   * empty.
   */
  lemma MismatchFiledUnderNestedPath(v: ResetValues)
    requires 8 <= |v.password| <= 32 && 8 <= |v.confirmPassword| <= 32 && v.password != v.confirmPassword
    ensures ResetIssues(v) == [Issue(["confirmPassword", "password"], PasswordsMustMatch)]
    ensures FieldError(ResetIssues(v), "confirmPassword.password") == Some(PasswordsMustMatch)
    ensures Flagged(ResetIssues(v), "confirmPassword")
    ensures !Flagged(ResetIssues(v), "password")
    ensures FieldError(ResetIssues(v), "confirmPassword") == None
  {
    assert ResetFieldIssues("password", v.password, EnterPassword) == [];
    assert ResetFieldIssues("confirmPassword", v.confirmPassword, ConfirmPassword) == [];
    var issues := ResetIssues(v);
    assert issues == [Issue(["confirmPassword", "password"], PasswordsMustMatch)];
    assert JoinPath(["password"]) == "password";
    assert JoinPath(["confirmPassword", "password"]) == "confirmPassword" + "." + JoinPath(["password"]);
    assert JoinPath(issues[0].path) != "confirmPassword" by {
      assert |JoinPath(issues[0].path)| != |"confirmPassword"|;
    }
  }
}

=== FILE: schemas.dfy ===
/**
 * The zod schemas of the client's forms, as the list of issues `safeParse`
 * reports: every failing check of every field, in field order and, within a
 * field, in the order the checks are chained. A form is submitted only when
 * the list is empty. zod's `.email()` is the parameter `isEmail`.
 */
module Schemas {
  import opened Base

  /** A zod issue: the path of the offending value and the check's message. */
  datatype Issue = Issue(path: seq<string>, message: string)

  /** What `register("phone", {valueAsNumber: true})` yields: a number, or NaN for an empty or unparsable input. */
  datatype PhoneInput = Number(value: real) | NotANumber

  datatype SignupValues = SignupValues(email: string, password: string, fullName: string, phone: PhoneInput)
  datatype ProfileValues = ProfileValues(email: string, fullName: string, phone: PhoneInput)
  datatype LoginValues = LoginValues(email: string, password: string)
  datatype ResetValues = ResetValues(password: string, confirmPassword: string)

  const InvalidEmail := "Please enter a valid email"
  const EmailTooLong := "Email cannot be larger than 50 characters"
  const LoginEmailTooLong := "Email should be under 50 characters."
  const ForgotEmailTooLong := "Email can't be larger than 50 characters."
  const EnterEmail := "Please enter an email"
  const MinPassword := "Minimum 8 characters"
  const MaxPassword := "Maximum 32 characters"
  const MaxLoginPassword := "Maximum 100 characters"
  const EnterPassword := "Please enter a password"
  const ConfirmPassword := "Please confirm your password"
  const PasswordsMustMatch := "Passwords must match"
  const EnterName := "Please enter your name."
  const NameTooLong := "Name cannot be larger than 25 characters."
  const NameLettersOnly := "Name can only contain letters"
  const InvalidPhone := "Please enter a valid phone number."
  /** zod's own message for NaN where no `invalid_type_error` is given. */
  const NumberExpected := "Expected number, received nan"
  const NegativePhone := "Please don't enter negative number."
  const TenDigits := "Please enter a 10 digit number"

  const PhoneMin: real := 1000000000.0
  const PhoneMax: real := 9999999999.0

  /** A character of the class `[A-Za-z ]`. */
  predicate NameChar(c: char)
  {
    ('A' <= c <= 'Z') || ('a' <= c <= 'z') || c == ' '
  }

  /** `/^[A-Za-z ]+$/.test(s)`, scanning from the first character. */
  function MatchesName(s: string): bool
  {
    |s| > 0 && ScanName(s, 0)
  }

  /** Whether `s[i..]` consists of name characters only. */
  function ScanName(s: string, i: nat): bool
    requires i <= |s|
    decreases |s| - i
  {
    if i == |s| then true else NameChar(s[i]) && ScanName(s, i + 1)
  }

  /** One zod check on one field: no issue when it passes. */
  function Check(passes: bool, field: string, message: string): (r: seq<Issue>)
    ensures passes <==> r == []
    ensures !passes ==> r == [Issue([field], message)]
  {
    if passes then [] else [Issue([field], message)]
  }

  /** `z.string().email(...).max(50, tooLong)` on the field `email`. */
  function EmailIssues(isEmail: string -> bool, email: string, tooLong: string): seq<Issue>
  {
    Check(isEmail(email), "email", InvalidEmail) + Check(|email| <= 50, "email", tooLong)
  }

  /** The phone chain; NaN fails the type check and stops the field there. */
  function PhoneIssues(phone: PhoneInput, typeMessage: string): seq<Issue>
  {
    match phone
    case NotANumber => [Issue(["phone"], typeMessage)]
    case Number(r) =>
      Check(r >= 0.0, "phone", NegativePhone) + Check(r >= PhoneMin, "phone", TenDigits) +
      Check(r <= PhoneMax, "phone", TenDigits)
  }

  /** `fullName` with `.max(25)` then the letters-and-spaces regex (the signup form has no emptiness check). */
  function SignupNameIssues(name: string): seq<Issue>
  {
    Check(|name| <= 25, "fullName", NameTooLong) + Check(MatchesName(name), "fullName", NameLettersOnly)
  }

  /** `fullName` with `.nonempty` (or `.min(1)`) then `.max(25)` and the regex. */
  function ProfileNameIssues(name: string): seq<Issue>
  {
    Check(|name| >= 1, "fullName", EnterName) + SignupNameIssues(name)
  }

  /** The signup form's schema. */
  function SignupIssues(isEmail: string -> bool, v: SignupValues): seq<Issue>
  {
    EmailIssues(isEmail, v.email, EmailTooLong) +
    Check(|v.password| >= 8, "password", MinPassword) + Check(|v.password| <= 32, "password", MaxPassword) +
    SignupNameIssues(v.fullName) +
    PhoneIssues(v.phone, NumberExpected)
  }

  /** The profile schema shared by the update form and the admin, user and customer update pages. */
  function ProfileIssues(isEmail: string -> bool, v: ProfileValues): seq<Issue>
  {
    EmailIssues(isEmail, v.email, EmailTooLong) + ProfileNameIssues(v.fullName) + PhoneIssues(v.phone, InvalidPhone)
  }

  /** The login page's schema. */
  function LoginIssues(isEmail: string -> bool, v: LoginValues): seq<Issue>
  {
    EmailIssues(isEmail, v.email, LoginEmailTooLong) +
    Check(|v.password| >= 8, "password", MinPassword) + Check(|v.password| <= 100, "password", MaxLoginPassword)
  }

  /** The forgot-password page's schema. */
  function ForgotIssues(isEmail: string -> bool, email: string): seq<Issue>
  {
    Check(|email| >= 1, "email", EnterEmail) + EmailIssues(isEmail, email, ForgotEmailTooLong)
  }

  /** A reset password field: `.nonempty(empty).min(8).max(32)`. */
  function ResetFieldIssues(field: string, value: string, empty: string): seq<Issue>
  {
    Check(|value| >= 1, field, empty) + Check(|value| >= 8, field, MinPassword) + Check(|value| <= 32, field, MaxPassword)
  }

  /**
   * The reset page's schema. Its refinement runs after the field checks even
   * when they failed, and reports on the path `confirmPassword.password`.
   */
  function ResetIssues(v: ResetValues): seq<Issue>
  {
    ResetFieldIssues("password", v.password, EnterPassword) +
    ResetFieldIssues("confirmPassword", v.confirmPassword, ConfirmPassword) +
    (if v.password == v.confirmPassword then [] else [Issue(["confirmPassword", "password"], PasswordsMustMatch)])
  }

  /** A path as react-hook-form names it: the keys joined with dots. */
  function JoinPath(path: seq<string>): string
    decreases |path|
  {
    if path == [] then "" else if |path| == 1 then path[0] else path[0] + "." + JoinPath(path[1..])
  }

  /**
   * The error's nesting puts every issue under its first key, so the field
   * `name` is drawn red when any issue's path starts with it, whatever the
   * rest of the path.
   */
  predicate Flagged(issues: seq<Issue>, name: string)
  {
    exists i :: 0 <= i < |issues| && |issues[i].path| >= 1 && issues[i].path[0] == name
  }

  /**
   * The first message reported under exactly the path `name`, which is the
   * helper text the form shows under that field.
   */
  function FieldError(issues: seq<Issue>, name: string): (r: Option<string>)
    ensures r.None? <==> forall i :: 0 <= i < |issues| ==> JoinPath(issues[i].path) != name
    ensures r.Some? ==> exists i :: 0 <= i < |issues| && JoinPath(issues[i].path) == name && issues[i].message == r.value &&
                                   forall j :: 0 <= j < i ==> JoinPath(issues[j].path) != name
    decreases |issues|
  {
    if issues == [] then None
    else if JoinPath(issues[0].path) == name then Some(issues[0].message)
    else
      var r := FieldError(issues[1..], name);
      if r.Some? then
        var i :| 1 <= i + 1 < |issues| + 1 && 0 <= i < |issues[1..]| && JoinPath(issues[1..][i].path) == name &&
                 issues[1..][i].message == r.value && forall j :: 0 <= j < i ==> JoinPath(issues[1..][j].path) != name;
        assert JoinPath(issues[i + 1].path) == name;
        r
      else r
  }
}

=== FILE: user_controller.dfy ===
/**
 * The handlers of the user controller that exist in the source: `login`,
 * `signup`, `update` and `profile`. Each sends the model's result as JSON with
 * status 200, and turns any thrown error into 406 `{error: message}`.
 */
module UserController {
  import opened Base
  import opened Accounts
  import Middleware

  /** A JSON response body. `field` is absent from every error body this controller sends. */
  datatype Body =
    | MessageBody(message: string)
    | IdTokenBody(idToken: IdWithToken)
    | ErrorBody(error: string, field: Option<string>)
    | DocumentBody(doc: Option<Account>)       // a document, or `null`

  datatype Response = Response(status: int, body: Body)

  /** The text V8 throws when `req.user` is undefined and `req.user._id` is read. */
  const NoUserError := "Cannot read properties of undefined (reading '_id')"

  /**
   * The body keys `findByIdAndUpdate` applies: the paths of the schema the
   * controller imports. Mongoose's strict mode drops every other key of the
   * body, `gender` among them; a body `_id` is a schema path.
   */
  datatype Patch = Patch(
    fullName: Option<string>, email: Option<string>, phone: Option<string>, hashedPassword: Option<string>,
    role: Option<string>, permissions: Option<seq<string>>, forgot: Option<bool>)

  function Or<T>(o: Option<T>, d: T): T
  {
    if o.Some? then o.value else d
  }

  /** The document after `$set` of the patch's keys. */
  function ApplyPatch(a: Account, p: Patch): (r: Account)
  {
    Account(a.id, Or(p.fullName, a.fullName), Or(p.email, a.email), Or(p.phone, a.phone),
            Or(p.hashedPassword, a.hashedPassword), a.gender, Or(p.role, a.role),
            if p.permissions.Some? then p.permissions else a.permissions,
            if p.forgot.Some? then p.forgot else a.forgot)
  }

  /**
   * `login`: the model's login on the body's `email` and `password` as they
   * arrive, its result with 200 or its error with 406. In the second build
   * every login throws once the password matches, so no login of that build
   * is answered 200.
   */
  function Login(build: Build, lib: Library, cfg: Config, store: Store, email: Json, password: Json): (r: Response)
    ensures r.status == 200 <==> build == NoGender && LoginIdOnly(lib, cfg, store, email, password).Ok?
    ensures r.status != 200 ==> r.status == 406 && r.body.ErrorBody? && r.body.field.None?
    ensures r.status == 200 ==> r.body == IdTokenBody(LoginIdOnly(lib, cfg, store, email, password).value)
    ensures build == NoGender && r.status == 406 ==> r.body.error == LoginIdOnly(lib, cfg, store, email, password).message
    ensures build == WithGender ==> r == Response(406, ErrorBody(LoginProfile(lib, cfg, store, email, password).message, None))
  {
    match build
    case NoGender =>
      (match LoginIdOnly(lib, cfg, store, email, password)
       case Ok(v) => Response(200, IdTokenBody(v))
       case Err(m) => Response(406, ErrorBody(m, None)))
    case WithGender =>
      // the try block always throws, so the catch answers
      Response(406, ErrorBody(LoginProfile(lib, cfg, store, email, password).message, None))
  }

  /** `signup`: `{message}` with 200, or 406 with the thrown message; the store only grows on success. */
  function Signup(build: Build, lib: Library, store: Store, input: SignupInput, salt: string, newId: string): (r: (Response, Store))
    ensures r.0.status == 200 <==> Accounts.Signup(build, lib, store, input, salt, newId).result.Ok?
    ensures r.0.status == 200 ==> r.0.body == MessageBody(SignedUp)
    ensures r.0.status != 200 ==>
              r.0.status == 406 && r.1 == store &&
              r.0.body == ErrorBody(Accounts.Signup(build, lib, store, input, salt, newId).result.message, None)
    ensures r.1 == Accounts.Signup(build, lib, store, input, salt, newId).store
  {
    var step := Accounts.Signup(build, lib, store, input, salt, newId);
    match step.result
    case Ok(m) => (Response(200, MessageBody(m)), step.store)
    case Err(m) => (Response(406, ErrorBody(m, None)), step.store)
  }

  /** Some document other than the `k`-th already holds `email`. */
  predicate EmailHeldByOther(store: Store, k: nat, email: string)
  {
    exists j :: 0 <= j < |store| && j != k && store[j].email == email
  }

  /**
   * `update`: `findByIdAndUpdate(req.user._id, req.body)` with the body applied
   * unfiltered to the caller's own document; the answer is the document as it
   * was before the update (Mongoose's default), or null. The unique index on
   * `email` makes the database refuse an update that would duplicate an email;
   * the driver's error text is the parameter `duplicateKey`.
   */
  function Update(store: Store, user: Option<Middleware.ReqUser>, patch: Patch, duplicateKey: string): (r: (Response, Store))
    ensures user.None? ==> r == (Response(406, ErrorBody(NoUserError, None)), store)
    ensures r.0.status in {200, 406}
    ensures r.0.status == 406 ==> r.1 == store && r.0.body.ErrorBody? && r.0.body.field.None?
    ensures |r.1| == |store|
    ensures forall k :: 0 <= k < |store| && (user.None? || user.value.id != Some(store[k].id)) ==> r.1[k] == store[k]
    ensures user.Some? && user.value.id.Some? && FindById(store, user.value.id.value).Some? ==>
              var k := FindById(store, user.value.id.value).value;
              if patch.email.Some? && EmailHeldByOther(store, k, patch.email.value)
              then r == (Response(406, ErrorBody(duplicateKey, None)), store)
              else r.1[k] == ApplyPatch(store[k], patch) && r.0 == Response(200, DocumentBody(Some(store[k])))
    ensures user.Some? && (user.value.id.None? || FindById(store, user.value.id.value).None?) ==>
              r == (Response(200, DocumentBody(None)), store)
  {
    match user
    case None => (Response(406, ErrorBody(NoUserError, None)), store)
    case Some(u) =>
      if u.id.None? then (Response(200, DocumentBody(None)), store)
      else
        match FindById(store, u.id.value)
        case None => (Response(200, DocumentBody(None)), store)
        case Some(k) =>
          if patch.email.Some? && EmailHeldByOther(store, k, patch.email.value)
          then (Response(406, ErrorBody(duplicateKey, None)), store)
          else (Response(200, DocumentBody(Some(store[k]))), store[k := ApplyPatch(store[k], patch)])
  }

  /** `profile`: the caller's stored document, every field included, or null. */
  function Profile(store: Store, user: Option<Middleware.ReqUser>): (r: Response)
    ensures user.None? ==> r == Response(406, ErrorBody(NoUserError, None))
    ensures r.status in {200, 406}
    ensures r.status == 200 ==> r.body.DocumentBody? && (r.body.doc.Some? ==> r.body.doc.value in store)
    ensures user.Some? && user.value.id.Some? && FindById(store, user.value.id.value).Some? ==>
              r == Response(200, DocumentBody(Some(store[FindById(store, user.value.id.value).value])))
    ensures user.Some? && (user.value.id.None? || FindById(store, user.value.id.value).None?) ==>
              r == Response(200, DocumentBody(None))
  {
    match user
    case None => Response(406, ErrorBody(NoUserError, None))
    case Some(u) =>
      if u.id.None? then Response(200, DocumentBody(None))
      else
        match FindById(store, u.id.value)
        case None => Response(200, DocumentBody(None))
        case Some(k) => Response(200, DocumentBody(Some(store[k])))
  }
}

/** Properties relating the controller's handlers to one another and to the store invariant. */
module ControllerFacts {
  import opened Base
  import opened Accounts
  import Middleware
  import opened UserController

  /** Every answer of the four handlers is 200 or 406, and a 406 body never names a field. */
  lemma StatusesAre200Or406(build: Build, lib: Library, cfg: Config, store: Store, email: Json, password: Json,
                            input: SignupInput, salt: string, newId: string, user: Option<Middleware.ReqUser>,
                            patch: Patch, dup: string)
    ensures var rs := [Login(build, lib, cfg, store, email, password),
                       UserController.Signup(build, lib, store, input, salt, newId).0,
                       Update(store, user, patch, dup).0, Profile(store, user)];
            forall i :: 0 <= i < |rs| ==> (rs[i].status == 200 || rs[i].status == 406) &&
                                          (rs[i].status == 406 ==> rs[i].body.ErrorBody? && rs[i].body.field.None?)
  {
  }

  /** An update the database accepts is what `profile` shows next: the patched document. */
  lemma UpdateThenProfile(store: Store, u: Middleware.ReqUser, patch: Patch, dup: string)
    requires u.id.Some? && FindById(store, u.id.value).Some?
    requires Update(store, Some(u), patch, dup).0.status == 200
    ensures var k := FindById(store, u.id.value).value;
            Profile(Update(store, Some(u), patch, dup).1, Some(u)) == Response(200, DocumentBody(Some(ApplyPatch(store[k], patch))))
  {
    var k := FindById(store, u.id.value).value;
    var after := Update(store, Some(u), patch, dup).1;
    var k' := FindById(after, u.id.value);
    assert after[k].id == u.id.value;
    assert k'.Some? && k'.value == k by {
      forall j | 0 <= j < k ensures after[j].id != u.id.value {
        assert after[j] == store[j];
      }
    }
  }

  /** `update` keeps emails unique: the unique index refuses exactly the duplicating patches. */
  lemma UpdateKeepsEmailsUnique(store: Store, user: Option<Middleware.ReqUser>, patch: Patch, dup: string)
    requires EmailsUnique(store)
    ensures EmailsUnique(Update(store, user, patch, dup).1)
  {
    var after := Update(store, user, patch, dup).1;
    if user.Some? && user.value.id.Some? && FindById(store, user.value.id.value).Some? {
      var k := FindById(store, user.value.id.value).value;
      if !(patch.email.Some? && EmailHeldByOther(store, k, patch.email.value)) {
        forall i, j | 0 <= i < j < |after| ensures after[i].email != after[j].email {
          if i == k {
            assert after[j] == store[j];
          } else if j == k {
            assert after[i] == store[i];
          } else {
            assert after[i] == store[i] && after[j] == store[j];
          }
        }
      }
    }
  }

  /**
   * Nothing in `update` filters the body: a signed-in caller can give their
   * own document any role. No route registers `update`, so this is a fact
   * about the handler alone.
   */
  lemma UpdateCanSetOwnRole(store: Store, u: Middleware.ReqUser, role: string, dup: string)
    requires u.id.Some? && FindById(store, u.id.value).Some?
    ensures var k := FindById(store, u.id.value).value;
            var r := Update(store, Some(u), Patch(None, None, None, None, Some(role), None, None), dup);
            r.0.status == 200 && r.1[k].role == role
  {
  }

  /**
   * The second build's login never answers 200: a correct password gets 406
   * with jsonwebtoken's plain-object error, and the page files it under no
   * field.
   */
  lemma GenderBuildLoginRefused(lib: Library, cfg: Config, store: Store, email: string, password: string)
    requires email != "" && password != "" && FindByEmail(store, email).Some?
    requires lib.compare(password, store[FindByEmail(store, email).value].hashedPassword)
    ensures Login(WithGender, lib, cfg, store, Str(email), Str(password)) == Response(406, ErrorBody(NotPlainObject, None))
  {
  }

  /**
   * A password posted as a number is answered 406 in either build: 0 as an
   * empty password, any other number for a stored email with bcrypt's type
   * error.
   */
  lemma NumericPasswordAnswered(build: Build, lib: Library, cfg: Config, store: Store, email: string, n: real)
    requires email != "" && FindByEmail(store, email).Some?
    ensures n == 0.0 ==> Login(build, lib, cfg, store, Str(email), Num(n)) == Response(406, ErrorBody(EmptyPassword, None))
    ensures n != 0.0 ==> Login(build, lib, cfg, store, Str(email), Num(n)) == Response(406, ErrorBody(lib.compareTypeError, None))
  {
  }
}
